=== FILE: README.md ===
# pixelagent: platformer rules and kanban stores in Dafny

This project models the state-update logic of three small browser apps in
the pixelagent repository and proves properties of that logic. Every
operation is a pure function over immutable records. Coordinates are
Dafny `real`, so the game constants 0.5, 0.8 and 0.1 are exact.

- **The platformer** (`apps/pixelGame/js/game.js` with `ui-manager.js`,
  `parallax-manager.js` and `texture-manager.js`):
  - `Physics`: player physics, i.e. the `canPlayerJump` probe, gravity that
    spares an upward jump velocity, friction, and the canvas and ground
    clamp.
  - `World`: the enemy patrol, the collectable scan that splices the array
    it iterates, and the one-shot checkpoint latch with the level wrap
    1→2→3→1.
  - `Boxes`: box gravity and pushing.
  - `Platformer`: the game state, the collision pass with lives, game over
    and NPC dialogs, the keyboard handlers, and the deferred level advance.
  - `Lives`: the lives counter and heart display.
  - `Parallax`: the wrapping background offset.
  - `Textures`: the texture registry with its load counter and fallback
    colours.
- **The older platformer** (`apps/pixelGame/game.js`), module `Classic`. It
  has a world scroll that moves every entity list by the same amount, a
  landing loop without `break`, an unguarded jump impulse on both press and
  release, and a restart button.
- **The kanban board** (`apps/pixelKanban/js/kanban.js`,
  `apps/pixelKanban/js/userManager.js`), modules `Kanban` and `Users`:
  - task and user stores with monotonic id counters;
  - create, update, delete and move;
  - the per-column status filter;
  - the drop handler, which reads a task id back with `parseInt` and a
    status back from a column's element id;
  - user delete with unassignment;
  - user export and import.

Helper modules: `Maybe` (an option type), `Geometry` (rectangles and the
strict overlap test every collision uses), and `Strings` (`indexOf`,
`includes` and first-occurrence `replace`).

Modelling choices:

- **Timers.** A checkpoint's two-second `setTimeout` is a counter of pending
  advances. `FireAdvance` is the timer firing.
- **Level files.** A level file is a `Layout` of already scaled rectangles.
  Loading one replaces every entity list.
- **`confirm()`.** It is the boolean parameter `confirmed`.
- **The clock.** `new Date().toISOString()` is an opaque `Stamp` parameter.
- **Strict equality.** JavaScript `===` between a form string and a
  numeric id is modelled by `Kanban.JsVal`, which keeps strings and numbers
  apart.

Where the code and the evident purpose of a routine disagree, the model
follows the code:

- The crouch press in `apps/pixelGame/js/game.js:970-974` moves the player
  up while shrinking it, so the bottom edge rises by twice the height
  difference. It is not kept in place. Only the press/release round trip
  holds (`Physics.CrouchRoundTrip`).
- The enemy patrol tests the edges after the move, so an enemy ends a frame
  up to one step outside the canvas (`World.PatrolOvershootsEdge`).
- The collectable `forEach` with `splice` skips the element after a removed
  one (`World.SpliceSkipsNext`, `World.SpliceSkipsNeighbour`). A single pass can therefore leave an
  overlapping collectable behind.
- The restart button of `ui-manager.js` refers to `initGame`, `player`,
  `gameOver` and `parallaxManager`. All four are local to `game.js`'s
  `DOMContentLoaded` closure, so its `typeof` guards fail. Only the
  interface counters are reset, and a game that was over stays over
  (`Platformer.RestartLeavesGameOver`).
- `addTexture` counts a re-added name twice, although the name has one
  entry and loads one image. The all-loaded callback then never runs
  (`Textures.OverwriteStarvesCallback`).
- A task assigned through the task form stores the user id as a string.
  `getUserAssignedTasks` compares with `===` against a number, so such a
  task is never found (`Users.FormAssignmentIsInvisible`), and deleting
  that user does not clear it.
- In the older game:
  - the background offset wraps only on the left side
    (`Classic.DriftIsUnbounded`);
  - the jump impulse applies on key release as well as key press
    (`Classic.JumpTapIsDoubleImpulse`);
  - a restart does not cancel a pending level advance
    (`Classic.RestartKeepsPendingAdvance`).

## Model

| member | source | states |
|---|---|---|
| Geometry.OverlapsShiftInvariant | apps/pixelGame/game.js:318-326 | moving two rectangles by the same horizontal amount does not change whether they overlap |
| Geometry.TouchingIsNotOverlapping | apps/pixelGame/js/game.js:832-838 | the collision test is strict: rectangles that only share an edge do not collide |
| Strings.IndexOfFrom | apps/pixelKanban/js/kanban.js:214 | the result is the first index at or after `from` where the pattern occurs, and None exactly when there is none |
| Strings.Includes | apps/pixelGame/js/texture-manager.js:69-88 | `includes` is true exactly when the pattern occurs at some index |
| Strings.ReplaceFirst | apps/pixelKanban/js/kanban.js:214 | a string without the pattern is returned unchanged; otherwise only the first occurrence is replaced |
| Strings.StripAppended | apps/pixelKanban/js/kanban.js:214 | removing the suffix "-tasks" from `s + "-tasks"` gives back `s` when the pattern does not start earlier |
| Lives.New | apps/pixelGame/js/ui-manager.js:2-6 | a new manager has three lives, nothing collected, and no game-over panel |
| Lives.LoseLife | apps/pixelGame/js/ui-manager.js:77-86 | lives drop by exactly one with no lower bound; the result is true exactly when lives are at or below zero, which also shows the panel |
| Lives.SetLives | apps/pixelGame/js/ui-manager.js:244-252 | `getLives` after `setLives(n)` returns `n`, and nothing else changes |
| Lives.GetLives | apps/pixelGame/js/ui-manager.js:244-246 | reads the stored count; `SetLives` and `LoseLife` state its value after each change |
| Lives.SetCollected | apps/pixelGame/js/ui-manager.js:238-241 | the stored collectables count is the given one, and nothing else changes |
| Lives.Restart | apps/pixelGame/js/ui-manager.js:12-16 | restart restores the counters of a new manager |
| Lives.LostFlags | apps/pixelGame/js/ui-manager.js:56-67 | heart i, drawn from 2 down to 0, is marked lost exactly when i ≥ lives |
| Lives.LostCountFrom | apps/pixelGame/js/ui-manager.js:56-67 | the number of lost hearts among hearts `from`..0 as a function of the lives count |
| Lives.LostHeartCount | apps/pixelGame/js/ui-manager.js:49-74 | for lives in 0..3, exactly 3 − lives hearts are lost; below zero all three, above three none |
| Lives.ThirdLifeEndsGame | apps/pixelGame/js/ui-manager.js:77-86 | from a new manager the first two lost lives do not end the game and the third does, with every heart lost |
| Parallax.ScaledWidth | apps/pixelGame/js/parallax-manager.js:21-22 | the background copy is five canvas heights wide, so its width is positive |
| Parallax.PosDivMod | apps/pixelGame/js/parallax-manager.js:42 | JavaScript `%` on positive operands: a remainder in [0, m) with x = q·m + r |
| Parallax.Wrap | apps/pixelGame/js/parallax-manager.js:39-43 | a wrapped offset lies in [−W, 0]: at or below −W it becomes 0, in (−W, 0] it is unchanged, and above 0 it moves left by whole widths |
| Parallax.Update | apps/pixelGame/js/parallax-manager.js:19-44 | `update` records the player's x and leaves the offset in [−W, 0]; an offset that needs no wrap is the scrolled one |
| Parallax.Reset | apps/pixelGame/js/parallax-manager.js:60-63 | reset zeroes the offset and the last player x |
| Parallax.ScrollDirection | apps/pixelGame/js/parallax-manager.js:32-36 | without a wrap: right lowers the offset by the speed, left alone raises it, neither keeps it, and right wins over left |
| Parallax.StaysInRange | apps/pixelGame/js/parallax-manager.js:32-43 | an offset in [−W, 0] stays there over any sequence of frames, whatever the speed |
| Textures.New | apps/pixelGame/js/texture-manager.js:3-10 | a new registry has no names and both counters at zero |
| Textures.AddTexture | apps/pixelGame/js/texture-manager.js:13-20 | the name maps to a fresh unloaded texture; a new name is appended to the key order and an existing one keeps its place; the total grows by one either way |
| Textures.OnAllLoaded | apps/pixelGame/js/texture-manager.js:64-66 | registering the callback stores it and changes nothing else: names, textures, patterns and both counters are kept |
| Textures.LoadAll | apps/pixelGame/js/texture-manager.js:23-26 | one image request per key in key order, for the path registered under that key |
| Textures.OnEvent | apps/pixelGame/js/texture-manager.js:28-49 | a load or an error advances the count by one; a load marks only the named texture loaded and adds only its pattern, made from its path, while an error changes no texture or pattern; the callback runs exactly when the count reaches the total |
| Textures.Deliver | apps/pixelGame/js/texture-manager.js:28-49 | a sequence of events advances the count by its length and keeps the registry consistent |
| Textures.CallbackFiresOnce | apps/pixelGame/js/texture-manager.js:36-47 | from a count below the total, the callback runs once if the events reach the total and never otherwise |
| Textures.NeverFiresPastTotal | apps/pixelGame/js/texture-manager.js:36-47 | once the count has reached the total, no later event runs the callback |
| Textures.OverwriteStarvesCallback | apps/pixelGame/js/texture-manager.js:13-20 | when a name was added twice, one event per key never reaches the total and the callback never runs |
| Textures.CountBelowTotal | apps/pixelGame/js/texture-manager.js:36-47 | events that leave the count below the total never run the callback |
| Textures.AddTwiceCountsTwice | apps/pixelGame/js/texture-manager.js:13-20 | adding one name twice leaves one key, the later path, and a total of two |
| Textures.GetPattern | apps/pixelGame/js/texture-manager.js:54-56 | a pattern comes back exactly for names that have one, otherwise null |
| Textures.UnknownNameHasNothing | apps/pixelGame/js/texture-manager.js:54-61 | a name never added has no pattern and is not loaded |
| Textures.IsLoaded | apps/pixelGame/js/texture-manager.js:59-61 | definition: the name is registered and its texture is loaded |
| Textures.FirstKeyIn | apps/pixelGame/js/texture-manager.js:81-85 | the result is the first key, in insertion order, that is a substring of the name, or None when no key is |
| Textures.FallbackColor | apps/pixelGame/js/texture-manager.js:69-88 | the colour is that of the first key contained in the name, else "#ccc" |
| Textures.ConfigFallbacks | apps/pixelGame/js/config.js:50-58 | with the configured colours "platform" is black and a name containing no key gets the default grey |
| Textures.DefaultTextureConfig | apps/pixelGame/js/texture-manager.js:91-106 | the default configuration lists platform, checkpoint, scene and box in that order |
| Textures.DefaultPathsDecode | apps/pixelGame/js/texture-manager.js:100-105 | every default path is the texture directory, the chosen file name and ".svg", except scene with ".png" |
| Textures.LoadFromConfig | apps/pixelGame/js/texture-manager.js:125-130 | the total grows by the number of pairs; one request goes out per registered name in key order, and for every configured name it asks for the last path configured under that name |
| Textures.AddAll | apps/pixelGame/js/texture-manager.js:125-129 | adding a list of pairs keeps the registry consistent, grows the total by its length, keeps the load count and patterns, and keeps the names already registered at the front of the key order |
| Textures.AddAllKeepsOthers | apps/pixelGame/js/texture-manager.js:125-129 | a registered name that the configuration does not mention keeps its texture |
| Textures.AddAllLastPath | apps/pixelGame/js/texture-manager.js:125-129 | every configured name maps to the last path given for it, not yet loaded |
| Textures.AddAllOnlyConfigured | apps/pixelGame/js/texture-manager.js:125-129 | a name that appears only after the configuration is added is a configured name |
| Textures.StartupAdds | apps/pixelGame/js/texture-manager.js:91-129 | the default configuration registers platform, checkpoint, scene and box in that order with a total of four and none loaded |
| Textures.StartupRegistersFour | apps/pixelGame/js/texture-manager.js:125-130 | the default configuration registers four names in order with a total of four and four requests |
| World.StepEnemy | apps/pixelGame/js/game.js:382-391 | an enemy moves by speed × direction, and the direction flips exactly when the new position touches or crosses either edge; it stays ±1 |
| World.UpdateEnemies | apps/pixelGame/game.js:186-194 | every enemy takes its own step; none is added, removed or reordered |
| World.StepKeepsBand | apps/pixelGame/js/game.js:384-388 | the patrol band, at most one step past either edge and heading back, is kept by a step |
| World.PatrolStaysInBand | apps/pixelGame/js/game.js:384-388 | an enemy in the band stays in it for any number of frames |
| World.PatrolOvershootsEdge | apps/pixelGame/js/game.js:384-388 | an enemy one unit from the left edge, heading left at speed 2, ends the frame at x = −1 and turns |
| World.SpliceScan | apps/pixelGame/js/game.js:832-849 | the number removed plus the number left equals the number before, and only elements already present remain |
| World.Without | apps/pixelGame/js/game.js:839 | `splice(i, 1)` removes exactly the element at i and keeps every other one |
| World.SpliceRemovesOnlyOverlapping | apps/pixelGame/js/game.js:832-849 | only overlapping collectables disappear, and every non-overlapping one is still there |
| World.SpliceProgress | apps/pixelGame/js/game.js:832-849 | a pass removes at least one collectable when some overlap, and removes nothing when none does |
| World.Collect | apps/pixelGame/game.js:347-359 | removed collectables and counter increments match one for one |
| World.SpliceSkipsNeighbour | apps/pixelGame/js/game.js:832-849 | of two adjacent overlapping collectables one pass removes only the first |
| World.SpliceVisit | apps/pixelGame/js/game.js:837-841 | one visit removes the element at i when it overlaps, continues at i + 1, and keeps the elements before i |
| World.SplicePrefix | apps/pixelGame/js/game.js:832-849 | the scan from index i never changes the elements before i |
| World.SpliceCleanPrefix | apps/pixelGame/js/game.js:832-849 | with no overlap before i the whole pass equals the scan from i |
| World.SpliceSkipsNext | apps/pixelGame/js/game.js:832-849 | when the element at i overlaps, its successor moves into slot i and is never visited, in any array and for the whole pass when nothing before i overlaps |
| World.RemoveOverlapping | apps/pixelGame/js/game.js:832-849 | the intended filter keeps exactly the collectables the player does not overlap |
| World.CollectAgreesWhenNothingLeft | apps/pixelGame/js/game.js:832-849 | when a pass leaves no overlapping collectable, it leaves the same multiset as the intended filter |
| World.KeptIsFiltered | apps/pixelGame/js/game.js:832-849 | any sub-multiset that keeps all non-overlapping and no overlapping elements is the filter |
| World.FilterMultiset | apps/pixelGame/js/game.js:832-849 | the filter keeps each non-overlapping element with its multiplicity |
| World.Touch | apps/pixelGame/js/game.js:853-860 | a checkpoint ends claimed exactly when it was claimed or is overlapped, and an advance is scheduled exactly when it goes from unclaimed to claimed |
| World.ClaimCheckpoints | apps/pixelGame/game.js:361-384 | the claimed count grows by exactly the number of advances scheduled |
| World.LatchIsOneShot | apps/pixelGame/js/game.js:852-880 | a claimed checkpoint stays claimed; a second pass at the same place schedules nothing, and any pass schedules at most one per unclaimed checkpoint |
| World.ClaimedAtMostAll | apps/pixelGame/js/game.js:852-880 | no more checkpoints are claimed than exist |
| World.NextLevel | apps/pixelGame/js/game.js:869-872 | the next level after 1 is 2 and after 2 is 3; from 3 on it wraps to 1, so levels stay within 1..3 |
| World.LevelCycle | apps/pixelGame/game.js:373-376 | three advances return to the same level, and no advance stays put |
| Physics.RaycastHit | apps/pixelGame/js/game.js:726-740 | the probe finds ground exactly when some platform's top lies within ten units below the player and overlaps it horizontally |
| Physics.CanJump | apps/pixelGame/js/game.js:712-744 | the player can jump exactly when its top is within five units of the ground level or some platform supports it, regardless of which platform the loop meets first |
| Physics.Supports | apps/pixelGame/js/game.js:726-735 | definition of the probe hit: platform top within ten units below the bottom edge, overlapping horizontally |
| Physics.ApplyGravity | apps/pixelGame/js/game.js:777-788 | in the air the fall speed grows by gravity; on a surface a downward speed is cancelled and the jump ends, while an upward jump speed survives |
| Physics.Decay | apps/pixelGame/js/game.js:795-800 | friction multiplies the speed by 0.8 and sets it to zero exactly when the product is below 0.1; otherwise the product is the new speed, so it shrinks by the factor, keeps its sign, and a remaining speed is at least 0.1 |
| Physics.HorizontalVelocity | apps/pixelGame/js/game.js:790-801 | right gives +speed, left alone −speed, and neither gives friction decay |
| Physics.UpdatePlayer | apps/pixelGame/js/game.js:773-827 | the player moves by the frame's horizontal velocity when that keeps it inside the canvas, and is otherwise pinned to 0 or width − w with no horizontal speed; it moves by the vertical velocity after gravity unless that passes the ground level, where it is put on the ground with no vertical speed and the jump ended; the ground level becomes canvas height − player height |
| Physics.JumpSurvivesFirstFrame | apps/pixelGame/js/game.js:777-788 | the frame after a jump starts keeps the jump velocity and flag and lifts the player by the jump height |
| Physics.CoastBound | apps/pixelGame/js/game.js:795-800 | after n frames without keys the speed is at most 0.8ⁿ times the initial speed |
| Physics.ShrunkMono | apps/pixelGame/js/game.js:795-800 | repeated friction preserves the order of two speeds |
| Physics.ShrunkSix | apps/pixelGame/js/game.js:795-800 | six frames of the friction factor scale a speed by 0.262144 |
| Physics.ShrunkCompose | apps/pixelGame/js/game.js:795-800 | n + m frames of friction are n frames followed by m frames |
| Physics.CoastStops | apps/pixelGame/js/game.js:795-800 | released at walking speed, the player is at a complete stop after eighteen frames |
| Physics.CrouchRoundTrip | apps/pixelGame/js/game.js:970-974 | crouch then stand restores the player exactly; the crouch itself raises the bottom edge by twice the height difference |
| Physics.Crouch | apps/pixelGame/js/game.js:970-974 | the crouch sets the crouch height and lifts the top edge by the height difference, keeping x, width, velocity and jump flag |
| Physics.Stand | apps/pixelGame/js/game.js:932-936 | the release sets the full height and lowers the top edge by the height difference, keeping x, width, velocity and jump flag |
| Boxes.FirstLanding | apps/pixelGame/js/game.js:401-414 | the result is the first platform the falling box lands on, or None when it lands on none |
| Boxes.LandsOn | apps/pixelGame/js/game.js:403-407 | definition of the box landing test: falling, overlapping horizontally, bottom edge past the top by less than the box height plus the speed |
| Boxes.StepBox | apps/pixelGame/js/game.js:394-422 | a box never moves sideways; a landing box sits on the platform top with no speed; a box that neither lands nor passes the ground falls freely; a box whose landing or fall would pass the ground level is put exactly on it with no speed |
| Boxes.UpdateBoxes | apps/pixelGame/js/game.js:394-422 | every box takes its own step; none is added or removed |
| Boxes.RestingBoxStays | apps/pixelGame/js/game.js:394-422 | a box resting on a platform stays exactly where it is |
| Boxes.Contact | apps/pixelGame/js/game.js:428-464 | pushed from the left with the right key held, sideways and overlapping, the box moves two units right, and mirrored to the left; otherwise it stays. A player on top within ten units, not rising and horizontally centred over the box is put on its top with no vertical speed and the jump ended; otherwise the player is unchanged |
| Boxes.CheckBoxCollisions | apps/pixelGame/js/game.js:425-466 | box i is the contact of box i with the player as left by the contacts with boxes 0..i−1, and the final player is the one left by all of them; every box keeps its height and speed and moves at most two units; with no key held no box moves; the player keeps x, horizontal speed and size |
| Boxes.PlayerAfterStep | apps/pixelGame/js/game.js:425-466 | the player after n + 1 contacts is the player after the first contact followed by n contacts with the remaining boxes |
| Boxes.PlayerAfterKeeps | apps/pixelGame/js/game.js:454-463 | any number of contacts keeps the player's x, horizontal speed and size |
| Boxes.PassStep | apps/pixelGame/js/game.js:425-466 | prefixing the first contact to the pass over the remaining boxes gives the pass over all boxes, box by box |
| Boxes.PassBounds | apps/pixelGame/js/game.js:428-451 | in a pass every box keeps height and speed and moves at most two units, and none moves with no key held |
| Boxes.PushOneBox | apps/pixelGame/js/game.js:440-445 | a player left of a single box, overlapping it sideways with the right key held, pushes it two units right |
| Platformer.GetNpcMessage | apps/pixelGame/js/game.js:357-359 | an NPC never gets an empty message: the configured non-empty one, otherwise the default greeting |
| Platformer.ConfiguredMessages | apps/pixelGame/js/config.js:61-77 | the configured second message of level 2, and the default for a fourth NPC and for an unknown level |
| Platformer.BuildLevel | apps/pixelGame/js/game.js:196-271 | one entity per rectangle in file order: checkpoints unclaimed, enemies walking right, boxes at rest, NPCs not met with their level's messages |
| Platformer.Initial | apps/pixelGame/js/game.js:25-50 | the page starts on level one, not started and not over, with the player a configured-size rectangle at the spawn point |
| Platformer.InitGame | apps/pixelGame/js/game.js:362-365 | the current level's file replaces every entity list and the interface shows the game's count; nothing else changes |
| Platformer.Start | apps/pixelGame/js/game.js:368-379 | the game is started and the current level is loaded |
| Platformer.HitEnemies | apps/pixelGame/js/game.js:883-901 | each enemy hit costs exactly one life and sends the player to the spawn point; some hit happens exactly when some enemy overlaps the player as it entered; the game is over exactly when it was or a hit left no lives |
| Platformer.Meet | apps/pixelGame/js/game.js:904-918 | the first touch marks an NPC met and raises its marker; a met NPC never changes |
| Platformer.MeetNpcs | apps/pixelGame/js/game.js:904-918 | every NPC is tested against the player on its own |
| Platformer.CheckCollisions | apps/pixelGame/js/game.js:830-919 | the collectables and the count are those of the splice pass, the checkpoints and pending advances those of the claim pass, the player, lives and game-over flag those of the enemy pass, and the NPCs those of the meeting pass against the resulting player; touching an enemy costs a life and respawns, touching none changes neither; count plus remaining collectables is conserved and the invariant holds |
| Platformer.Frame | apps/pixelGame/js/game.js:694-707 | a frame keeps the conservation, the over latch, the level and the invariant, and leaves the background within one width |
| Platformer.FireAdvance | apps/pixelGame/js/game.js:868-877 | a firing timer loads the next level, wrapping after the third, puts the player at the spawn point and keeps the count; without a timer nothing happens |
| Platformer.RestartClicked | apps/pixelGame/js/ui-manager.js:12-35 | only the interface counters are reset; the game state is unchanged |
| Platformer.FirstShown | apps/pixelGame/js/game.js:980-983 | the result is the first NPC whose marker is up, or None when no marker is up |
| Platformer.Interact | apps/pixelGame/js/game.js:978-990 | the I key shows the message of the first NPC with its marker up and lowers only that marker; with none up nothing changes |
| Platformer.KeyDown | apps/pixelGame/js/game.js:940-991 | keys are ignored before the start and after game over; otherwise a right or left key sets exactly its own flag, a jump key starts a jump of the configured height exactly when there is ground below and no jump running and otherwise leaves the player as it is, the crouch key crouches, the I key runs the NPC dialog, and any other key leaves the player and NPCs unchanged |
| Platformer.KeyUp | apps/pixelGame/js/game.js:921-938 | keys are ignored before the start and after game over; otherwise a right or left key clears exactly its own flag, the crouch key stands the player up, and any other key leaves the player unchanged |
| Platformer.NoDoubleJump | apps/pixelGame/js/game.js:955-967 | during a jump no key changes the player's velocity |
| Platformer.JumpOnce | apps/pixelGame/js/game.js:955-967 | with ground below and no jump running a jump key starts a jump, and pressing it again during that jump changes nothing |
| Platformer.MoveKeyPressRelease | apps/pixelGame/js/game.js:921-952 | pressing and releasing a movement key restores the key flags |
| Platformer.CrouchPressRelease | apps/pixelGame/js/game.js:932-936 | pressing and releasing the crouch key at full height restores the player exactly |
| Platformer.RestartLeavesGameOver | apps/pixelGame/js/ui-manager.js:12-35 | after restart in a lost game the hearts are back but every key is still ignored |
| Platformer.DialogOfferedOnce | apps/pixelGame/js/game.js:904-918 | a met NPC's dialog is offered once: after the I key takes it, no later touch raises it again |
| Classic.BackgroundWidth | apps/pixelGame/game.js:269-270 | the background is five canvas heights wide |
| Classic.ScrollBackground | apps/pixelGame/game.js:276-286 | the background moves by 0.5 against the direction the player would walk, and not at all otherwise; the result resets to zero exactly when it reaches −W or below, and is the moved offset in every other case, so there is no reset on the right |
| Classic.DriftIsUnbounded | apps/pixelGame/game.js:279-286 | walking left for n frames raises the offset by n × 0.5 without any wrap |
| Classic.Fall | apps/pixelGame/game.js:295-303 | inside the canvas the fall speeds up, and a player above the top is put on it; otherwise the vertical speed is cancelled |
| Classic.Movement | apps/pixelGame/game.js:311-327 | inside the columns the player walks; at a column the world moves the other way instead; the two never both move |
| Classic.ShiftRects | apps/pixelGame/game.js:318-326 | every rectangle moves by the same amount and keeps its size |
| Classic.ShiftCheckpoints | apps/pixelGame/game.js:320-325 | every checkpoint moves by the same amount and keeps its claimed flag |
| Classic.ShiftEnemies | apps/pixelGame/game.js:321-326 | every enemy moves by the same amount and keeps its direction |
| Classic.Land | apps/pixelGame/game.js:331-341 | the player ends on the first platform that passes the landing test, with its bottom on the platform top and no vertical speed; with no platform passing nothing changes |
| Classic.LandsOn | apps/pixelGame/game.js:332-336 | definition of the landing test: horizontally over the platform, bottom edge at or above its top and reaching it with this frame's speed |
| Classic.UpdatePlayer | apps/pixelGame/game.js:290-342 | x becomes x + speed when that is inside [0, width − w), and is otherwise pinned to 0 or width − w; the velocity and the shift of all four entity lists are those `Movement` picks from the keys at the new x; the player falls and then lands on the first platform passing the test, or stays where it fell |
| Classic.RightAtColumnScrolls | apps/pixelGame/game.js:311-326 | holding right at the right column the player stays and platforms and enemies move five units left |
| Classic.ScrollKeepsLayout | apps/pixelGame/game.js:318-326 | the world scroll keeps every pairwise offset and every overlap between entities |
| Classic.CheckCollisions | apps/pixelGame/game.js:345-397 | the collectables and the count are those of the splice pass, the checkpoints and pending advances those of the claim pass, counts are conserved, and an enemy touch only shows the game-over panel, exactly when some enemy overlaps the player |
| Classic.Frame | apps/pixelGame/game.js:214-259 | a frame keeps the conservation, the level and the invariant, and never hides the game-over panel |
| Classic.LoadLevel | apps/pixelGame/game.js:49-128 | a level load replaces the four lists, with checkpoints unclaimed and enemies walking right, and changes nothing else |
| Classic.Start | apps/pixelGame/game.js:145-151 | the start button starts the game and loads the current level |
| Classic.FireAdvance | apps/pixelGame/game.js:372-381 | a firing timer loads the next level and puts the player at the spawn point, keeping the count; without a timer nothing happens |
| Classic.Restart | apps/pixelGame/game.js:446-453 | restart sets level 1, a zero count and the player at (50, 350), and hides the panel |
| Classic.RestartKeepsPendingAdvance | apps/pixelGame/game.js:446-453 | a level advance scheduled before a restart still fires and moves the restarted game to level 2 |
| Classic.MovePlayer | apps/pixelGame/game.js:400-426 | a movement key sets its flag and speed, zero on release; a jump key subtracts the jump height; the crouch key sets the crouch height; other keys change nothing |
| Classic.KeyDown | apps/pixelGame/game.js:437-440 | once started, a press is `movePlayer` at walking speed |
| Classic.KeyUp | apps/pixelGame/game.js:428-435 | once started, a release is `movePlayer` with zero speed, and the crouch key then sets height 30 |
| Classic.JumpTapIsDoubleImpulse | apps/pixelGame/game.js:408-413 | a jump key tap subtracts twice the jump height, with no ground check |
| Classic.CrouchTapSetsStandingHeight | apps/pixelGame/game.js:432-434 | a crouch tap leaves the fixed height 30 with the top edge in place |
| Kanban.NewBoard | apps/pixelKanban/js/kanban.js:5-10 | a new board has no tasks and satisfies the id invariant |
| Kanban.StringOr | apps/pixelKanban/js/kanban.js:24-28 | a missing or empty field takes the default, and any other keeps its value |
| Kanban.CreateTask | apps/pixelKanban/js/kanban.js:20-36 | the new task is appended with the counter's id, which then grows by one; missing or falsy fields take their defaults; ids stay distinct and below the counter |
| Kanban.FindTask | apps/pixelKanban/js/kanban.js:39 | the result is the first task with the id, or None when no task has it |
| Kanban.Merge | apps/pixelKanban/js/kanban.js:41 | every given field replaces the task's, every absent one is kept, and the update stamp is set |
| Kanban.MergeIdempotent | apps/pixelKanban/js/kanban.js:41 | merging the same update twice equals merging it once |
| Kanban.UpdateTask | apps/pixelKanban/js/kanban.js:38-45 | an unknown id changes nothing; otherwise only the first task with the id is merged, and ids are kept |
| Kanban.UpdateHitsOnlyItsTask | apps/pixelKanban/js/kanban.js:38-45 | on a valid board exactly the task with the id is merged and every other task is unchanged |
| Kanban.UpdateIdempotent | apps/pixelKanban/js/kanban.js:38-45 | applying an update twice equals applying it once |
| Kanban.FindAgrees | apps/pixelKanban/js/kanban.js:39 | lists with the same ids have the same first match |
| Kanban.WithoutId | apps/pixelKanban/js/kanban.js:48 | exactly the tasks without the id remain |
| Kanban.WithoutAbsentId | apps/pixelKanban/js/kanban.js:48 | filtering an id no task has changes nothing |
| Kanban.WithoutIdAppend | apps/pixelKanban/js/kanban.js:48 | filtering distributes over concatenation, so order is kept |
| Kanban.WithoutIdDistinct | apps/pixelKanban/js/kanban.js:48 | filtering keeps the ids distinct |
| Kanban.DeleteTask | apps/pixelKanban/js/kanban.js:47-51 | exactly the tasks with the id are removed, the rest keep their order, and the counter is kept |
| Kanban.DeleteKeepsValid | apps/pixelKanban/js/kanban.js:47-51 | deleting keeps the id invariant |
| Kanban.CreateThenDelete | apps/pixelKanban/js/kanban.js:20-51 | deleting a task right after creating it gives back the previous tasks |
| Kanban.MoveTask | apps/pixelKanban/js/kanban.js:53-55 | only the status and update stamp of the first task with the id change; an unknown id changes nothing |
| Kanban.ColumnTasks | apps/pixelKanban/js/kanban.js:63 | a column shows exactly the tasks whose status is its name |
| Kanban.OffBoard | apps/pixelKanban/js/kanban.js:58-66 | the hidden tasks are exactly those whose status names no column |
| Kanban.ColumnsPartition | apps/pixelKanban/js/kanban.js:58-66 | the four columns and the hidden tasks together account for every task exactly once |
| Kanban.ColumnIdRoundTrip | apps/pixelKanban/js/kanban.js:214 | stripping "-tasks" from a column's element id returns its status, for any status without an inner "-tasks" |
| Kanban.StatusOfColumn | apps/pixelKanban/js/kanban.js:214 | an id without "-tasks" is its own status; an id containing it loses exactly six characters |
| Kanban.ColumnsRoundTrip | apps/pixelKanban/js/kanban.js:8 | the round trip holds for all four columns |
| Kanban.Show | apps/pixelKanban/js/kanban.js:213 | a task id written as text is a non-empty digit string whose value is the id |
| Kanban.DigitRun | apps/pixelKanban/js/kanban.js:213 | the result is the longest digit prefix |
| Kanban.DigitRunOf | apps/pixelKanban/js/kanban.js:213 | a digit string followed by a non-digit is read in full |
| Kanban.TrimStart | apps/pixelKanban/js/kanban.js:213 | the result starts with no blank and is no longer than the input |
| Kanban.TrimStartDropsBlanks | apps/pixelKanban/js/kanban.js:213 | the trimmed text is a suffix of the input and every dropped character is a blank |
| Kanban.TrimBlanks | apps/pixelKanban/js/kanban.js:213 | blanks followed by a non-blank start are removed exactly |
| Kanban.Unsigned | apps/pixelKanban/js/kanban.js:213 | one leading sign is dropped, and text without one is kept |
| Kanban.ReadDigits | apps/pixelKanban/js/kanban.js:213 | no number exactly when the text starts without a digit; otherwise the decimal value of the leading digit run |
| Kanban.ParseInt | apps/pixelKanban/js/kanban.js:213 | `parseInt` gives NaN exactly when no digit follows the leading blanks and an optional sign; otherwise the decimal value of that digit run, negated after a minus sign |
| Kanban.ParseUnsigned | apps/pixelKanban/js/kanban.js:213 | text starting with a digit parses to the value of its leading digit run |
| Kanban.ParseShown | apps/pixelKanban/js/kanban.js:213 | the id written on a card parses back to the id, whatever non-digit text follows |
| Kanban.ParseAfterBlanks | apps/pixelKanban/js/kanban.js:213 | leading blanks do not change the parse |
| Kanban.ParseSignChar | apps/pixelKanban/js/kanban.js:213 | a sign followed by digits parses to the digit run's value, negated for "-" |
| Kanban.DigitsThenRest | apps/pixelKanban/js/kanban.js:213 | the digit run of digits followed by a non-digit is exactly those digits |
| Kanban.ParseSigned | apps/pixelKanban/js/kanban.js:213 | an optional sign, digits and a tail starting with a non-digit parse to the signed value of the digits |
| Kanban.ParseComposed | apps/pixelKanban/js/kanban.js:213 | blanks, an optional sign, digits and any tail not starting with a digit parse to the signed decimal value of the digits |
| Kanban.HandleDrop | apps/pixelKanban/js/kanban.js:209-219 | a NaN or zero id, or an empty status, moves nothing; otherwise the parsed task moves to the column's status |
| Kanban.DropMovesToColumn | apps/pixelKanban/js/kanban.js:209-219 | dropping a card with a nonzero id on a column moves that task to that column |
| Users.NewStore | apps/pixelKanban/js/userManager.js:5-9 | a new store has no users and satisfies the id invariant |
| Users.CreateUser | apps/pixelKanban/js/userManager.js:17-30 | the new user is appended with the counter's id, which grows by one; email defaults to "" and role to "developer"; ids stay distinct |
| Users.FindById | apps/pixelKanban/js/userManager.js:62 | the result is the first user with the id, or None when no user has it |
| Users.FindByEmail | apps/pixelKanban/js/userManager.js:66 | the result is the first user with the email, or None when no user has it |
| Users.GetUser | apps/pixelKanban/js/userManager.js:61-63 | a user comes back exactly when one has the id, and it is the first user with that id |
| Users.GetUserByEmail | apps/pixelKanban/js/userManager.js:65-67 | a user comes back exactly when one has the email, and it is the first user with that email, which matters because users created without an email all share the empty one |
| Users.CreatedUserIsFound | apps/pixelKanban/js/userManager.js:17-30 | a user just created is what `getUser` returns for its id |
| Users.FindByIdSkips | apps/pixelKanban/js/userManager.js:62 | the search passes over users without the id |
| Users.MergeUser | apps/pixelKanban/js/userManager.js:35 | the given fields replace the user's and the update stamp is set; id and creation stamp are kept |
| Users.UpdateUser | apps/pixelKanban/js/userManager.js:32-39 | an unknown id returns nothing and changes nothing; otherwise the merged user is returned and stored, and every other user is kept |
| Users.WithoutUser | apps/pixelKanban/js/userManager.js:56 | exactly the users without the id remain |
| Users.AssignedTasks | apps/pixelKanban/js/userManager.js:70-73 | no board gives no tasks; otherwise exactly the tasks whose assignee is strictly the number id |
| Users.Assigned | apps/pixelKanban/js/userManager.js:72 | exactly the tasks whose assignee is strictly the number id |
| Users.FormAssignmentIsInvisible | apps/pixelKanban/js/userManager.js:72 | a task whose assignee is a string is never among a user's assigned tasks |
| Users.AssignTaskToUser | apps/pixelKanban/js/userManager.js:75-79 | with a board, the task's assignee becomes the number user id; without one nothing happens |
| Users.AssignedTaskIsFound | apps/pixelKanban/js/userManager.js:75-79 | a task assigned this way is then among the user's assigned tasks |
| Users.UnassignAll | apps/pixelKanban/js/userManager.js:49-53 | unassigning keeps the number of tasks, their ids and the id invariant |
| Users.UnassignAllEffect | apps/pixelKanban/js/userManager.js:49-53 | exactly the tasks whose id is listed lose their assignee, and the rest are unchanged |
| Users.DeleteUser | apps/pixelKanban/js/userManager.js:41-59 | the result is false and nothing changes exactly when tasks are assigned and the confirmation is declined; otherwise exactly that user is removed |
| Users.DeleteUserUnassigns | apps/pixelKanban/js/userManager.js:48-56 | after a confirmed delete no task is assigned to the user, and each task that was is only cleared |
| Users.Export | apps/pixelKanban/js/userManager.js:207-212 | the export carries the users and the counter |
| Users.Import | apps/pixelKanban/js/userManager.js:214-222 | present users replace the list, a truthy counter replaces the counter, and a missing or falsy field leaves its part unchanged |
| Users.ExportImportRoundTrip | apps/pixelKanban/js/userManager.js:207-222 | importing an export gives back the exported store, into any store when its counter is nonzero |

## Left out

- Level files: fetching and parsing (`loadSVGLevel`, `DOMParser`) and the floating-point scaling of the rectangles are outside the model. A level is given as a `Layout` of rectangles, and a load happens at once instead of after the fetch.
- Drawing: canvas, Rough.js and parallax drawing, popups, the lives and counter DOM updates, audio, notifications, modals and the task and user forms.
- Timers as time: the two-second level-advance timer is a counter of pending advances.
- Animation loops: each start click begins another `animate` loop; the model runs one frame at a time and does not model a second loop running the same frame twice.
- Storage: localStorage and the JSON save and load of both stores.
- Stamps: `createdAt` and `updatedAt` are opaque stamp parameters, not dates.
- `confirm()`: it is the boolean parameter `confirmed` of `Users.DeleteUser`.
- Unreachable code: `checkPlatformCollisions` in apps/pixelGame/js/game.js is never called.
- Drag-and-drop plumbing: apps/pixelKanban/js/dragDrop.js is not part of this model. Its status-from-column-id rule is the one `Kanban.HandleDrop` models.
- Rendering: `getUserName` and the task rendering in kanban.js are not modelled. The card's id text is modelled by `Kanban.Show`.
- Configuration values: values from the configuration files are parameters or named constants. The canvas size comes from the window and is a parameter.
- Platformer.Frame: requires a positive canvas height. The background width is proportional to it, and JavaScript's `%` by a zero width gives NaN.
- Parallax.ScaledWidth: requires a positive canvas height, for the same reason.
- Parallax.Update: requires a positive canvas height, for the same reason.
- Kanban.ParseInt: base ten only. It has no `0x` prefix, and the leading blanks it skips are space, tab, newline and carriage return only.
- Numbers: ids, counts and lives are unbounded integers; JavaScript's double-precision limits are not modelled.
- Key repeat: an auto-repeated key press is an ordinary key-down event.
- Integer-like texture names: `Textures.Manager.names` keeps insertion order, whereas JavaScript lists integer-like object keys first; no texture name used by the game is integer-like.

=== FILE: boxes.dfy ===
/** Pushable boxes of the platformer (apps/pixelGame/js/game.js): gravity
    with landing on the first platform below and on the ground level, and
    the player/box contact that pushes a box sideways or lets the player
    stand on it. */
module Boxes {
  import opened Geometry
  import opened Maybe
  import opened Physics

  /** A box with its vertical speed (the game's `boxVelocities[index].y`,
      kept beside each box). */
  datatype Box = Box(shape: Rect, vy: real)

  /** How far one frame of contact pushes a box, and how far below a box's
      top edge the player's bottom edge may be and still stand on it. */
  const PushStep: real := 2.0
  const StandTolerance: real := 10.0

  /** The landing test of `updateBoxes`, taken after the fall of this frame:
      falling, overlapping the platform horizontally, and the bottom edge
      below the platform top by less than the box height plus the speed. */
  predicate LandsOn(b: Rect, vy: real, platform: Rect) {
    && vy >= 0.0
    && b.Right() > platform.Left()
    && b.Left() < platform.Right()
    && b.Bottom() > platform.Top()
    && b.Bottom() < platform.Top() + b.height + vy
  }

  /** The first platform at or after `from` the box lands on (the loop
      `break`s there). */
  function FirstLanding(b: Rect, vy: real, platforms: seq<Rect>, from: nat): (r: Option<nat>)
    ensures r.Some? ==> from <= r.value < |platforms| && LandsOn(b, vy, platforms[r.value])
    ensures r.Some? ==> forall j :: from <= j < r.value ==> !LandsOn(b, vy, platforms[j])
    ensures r.None? ==> forall j :: from <= j < |platforms| ==> !LandsOn(b, vy, platforms[j])
    decreases |platforms| - from
  {
    if from >= |platforms| then None
    else if LandsOn(b, vy, platforms[from]) then Some(from)
    else FirstLanding(b, vy, platforms, from + 1)
  }

  /** One box's frame: gravity, the fall, landing on the first platform it
      reaches, and the clamp to the ground level (the player's ground level,
      which game.js uses for boxes too). A box never moves sideways
      under gravity and never ends below the ground level; a box that lands
      sits exactly on the platform's top, stopped; a box that neither lands
      nor reaches the ground falls freely. */
  function StepBox(b: Box, platforms: seq<Rect>, gravity: real, groundLevel: real): (r: Box)
    ensures r.shape.pos.x == b.shape.pos.x
    ensures r.shape.width == b.shape.width && r.shape.height == b.shape.height
    ensures r.shape.pos.y <= groundLevel
    ensures var vy := b.vy + gravity;
            var fallen := b.shape.MoveTo(b.shape.pos.x, b.shape.pos.y + vy);
            match FirstLanding(fallen, vy, platforms, 0)
            case Some(i) =>
              && (platforms[i].Top() - b.shape.height <= groundLevel ==>
                    r.shape.Bottom() == platforms[i].Top() && r.vy == 0.0)
              && (platforms[i].Top() - b.shape.height > groundLevel ==>
                    r.shape.pos.y == groundLevel && r.vy == 0.0)
            case None =>
              && (fallen.pos.y <= groundLevel ==> r.shape == fallen && r.vy == vy)
              && (fallen.pos.y > groundLevel ==> r.shape.pos.y == groundLevel && r.vy == 0.0)
  {
    var vy := b.vy + gravity;
    var fallen := b.shape.MoveTo(b.shape.pos.x, b.shape.pos.y + vy);
    var (y1, vy1) := match FirstLanding(fallen, vy, platforms, 0)
      case Some(i) => (platforms[i].Top() - b.shape.height, 0.0)
      case None => (fallen.pos.y, vy);
    if y1 > groundLevel then Box(b.shape.MoveTo(b.shape.pos.x, groundLevel), 0.0)
    else Box(b.shape.MoveTo(b.shape.pos.x, y1), vy1)
  }

  /** `updateBoxes`: every box takes its step independently. */
  function UpdateBoxes(bs: seq<Box>, platforms: seq<Rect>, gravity: real, groundLevel: real): (r: seq<Box>)
    ensures |r| == |bs|
    ensures forall i :: 0 <= i < |r| ==> r[i] == StepBox(bs[i], platforms, gravity, groundLevel)
  {
    seq(|bs|, i requires 0 <= i < |bs| => StepBox(bs[i], platforms, gravity, groundLevel))
  }

  /** A box resting on a platform stays exactly where it is frame after
      frame: gravity pulls it a little into the platform and the landing
      puts it back on top. */
  lemma RestingBoxStays(b: Box, platform: Rect, gravity: real, groundLevel: real)
    requires b.vy == 0.0 && 0.0 < gravity && b.shape.height > 0.0
    requires b.shape.Bottom() == platform.Top()
    requires b.shape.Right() > platform.Left() && b.shape.Left() < platform.Right()
    requires b.shape.pos.y <= groundLevel
    ensures StepBox(b, [platform], gravity, groundLevel) == b
  {
    var fallen := b.shape.MoveTo(b.shape.pos.x, b.shape.pos.y + gravity);
    assert LandsOn(fallen, gravity, platform);
  }

  /** Horizontal and vertical centres of a rectangle. */
  function CenterX(r: Rect): real { r.pos.x + r.width / 2.0 }
  function CenterY(r: Rect): real { r.pos.y + r.height / 2.0 }

  /** The horizontal centre offset dominates the vertical one, so the
      contact is a sideways one. */
  predicate Sideways(p: Rect, b: Rect) {
    Abs(CenterX(p) - CenterX(b)) > Abs(CenterY(p) - CenterY(b))
  }

  /** A sideways contact from the left with the right key held, and its
      mirror image. */
  predicate PushesRight(keys: Keys, p: Rect, b: Rect) {
    Overlaps(p, b) && Sideways(p, b) && CenterX(p) < CenterX(b) && keys.right
  }

  predicate PushesLeft(keys: Keys, p: Rect, b: Rect) {
    Overlaps(p, b) && Sideways(p, b) && CenterX(p) > CenterX(b) && keys.left
  }

  /** A falling or resting player over the top of the box: the bottom edge
      at most ten below the box's top, the centres closer than the half
      widths. */
  predicate StandsOn(p: Player, b: Rect) {
    && Overlaps(p.shape, b)
    && p.shape.Bottom() <= b.Top() + StandTolerance
    && p.vel.y >= 0.0
    && Abs(CenterX(p.shape) - CenterX(b)) < (p.shape.width + b.width) / 2.0
  }

  /** One box of `checkBoxCollisions`. With the player overlapping the box:
      when the horizontal centre offset dominates, a held key toward the box
      pushes it two units that way; independently, a player falling onto
      the top of the box is put on top of it, stopped. Without overlap
      nothing happens. */
  function Contact(keys: Keys, p: Player, b: Box): (r: (Player, Box))
    ensures PushesRight(keys, p.shape, b.shape) ==> r.1 == b.(shape := b.shape.ShiftX(PushStep))
    ensures PushesLeft(keys, p.shape, b.shape) ==> r.1 == b.(shape := b.shape.ShiftX(-PushStep))
    ensures !PushesRight(keys, p.shape, b.shape) && !PushesLeft(keys, p.shape, b.shape) ==> r.1 == b
    ensures StandsOn(p, b.shape) ==>
              r.0 == Player(p.shape.MoveTo(p.shape.pos.x, b.shape.Top() - p.shape.height), Vec(p.vel.x, 0.0), false)
    ensures StandsOn(p, b.shape) ==> r.0.shape.Bottom() == b.shape.Top() && r.0.vel.y == 0.0 && !r.0.isJumping
    ensures !StandsOn(p, b.shape) ==> r.0 == p
    ensures r.1.shape.pos.y == b.shape.pos.y && r.1.vy == b.vy
    ensures r.1.shape.width == b.shape.width && r.1.shape.height == b.shape.height
    ensures r.0.shape.pos.x == p.shape.pos.x && r.0.vel.x == p.vel.x
    ensures r.0.shape.width == p.shape.width && r.0.shape.height == p.shape.height
  {
    if !Overlaps(p.shape, b.shape) then (p, b)
    else
      var dx := CenterX(p.shape) - CenterX(b.shape);
      var dy := CenterY(p.shape) - CenterY(b.shape);
      var pushed :=
        if Abs(dx) > Abs(dy) then
          if dx < 0.0 && keys.right then b.(shape := b.shape.ShiftX(PushStep))
          else if dx > 0.0 && keys.left then b.(shape := b.shape.ShiftX(-PushStep))
          else b
        else b;
      var stands := p.shape.Bottom() <= b.shape.Top() + StandTolerance && p.vel.y >= 0.0
                     && Abs(dx) < (p.shape.width + b.shape.width) / 2.0;
      var p1 := if stands then
                  Player(p.shape.MoveTo(p.shape.pos.x, b.shape.Top() - p.shape.height),
                         Vec(p.vel.x, 0.0), false)
                else p;
      (p1, pushed)
  }

  /** The player as the first `n` boxes' contacts leave it, one after the
      other. */
  function PlayerAfter(keys: Keys, p: Player, bs: seq<Box>, n: nat): Player
    requires n <= |bs|
  {
    if n == 0 then p else Contact(keys, PlayerAfter(keys, p, bs, n - 1), bs[n - 1]).0
  }

  /** Running the first contact and then the rest is the same as running
      the contacts in order. */
  lemma {:induction false} PlayerAfterStep(keys: Keys, p: Player, bs: seq<Box>, n: nat)
    requires 0 < |bs| && n < |bs|
    ensures PlayerAfter(keys, p, bs, n + 1) == PlayerAfter(keys, Contact(keys, p, bs[0]).0, bs[1..], n)
  {
    if n > 0 {
      PlayerAfterStep(keys, p, bs, n - 1);
      assert bs[1..][n - 1] == bs[n];
    }
  }

  /** The contacts never move the player sideways, change its horizontal
      speed or resize it. */
  lemma {:induction false} PlayerAfterKeeps(keys: Keys, p: Player, bs: seq<Box>, n: nat)
    requires n <= |bs|
    ensures var q := PlayerAfter(keys, p, bs, n);
            q.shape.pos.x == p.shape.pos.x && q.vel.x == p.vel.x
            && q.shape.width == p.shape.width && q.shape.height == p.shape.height
  {
    if n > 0 {
      PlayerAfterKeeps(keys, p, bs, n - 1);
    }
  }

  /** The boxes after `bs[0]` see the player its contact leaves: a pass
      over the rest from that player, put behind the first box's contact,
      is the pass over all of `bs`. */
  lemma PassStep(keys: Keys, p: Player, bs: seq<Box>, p2: Player, rest: seq<Box>)
    requires 0 < |bs| && |rest| == |bs| - 1
    requires forall i :: 0 <= i < |rest| ==>
               rest[i] == Contact(keys, PlayerAfter(keys, Contact(keys, p, bs[0]).0, bs[1..], i), bs[1..][i]).1
    requires p2 == PlayerAfter(keys, Contact(keys, p, bs[0]).0, bs[1..], |rest|)
    ensures forall i :: 0 <= i < |bs| ==>
              ([Contact(keys, p, bs[0]).1] + rest)[i] == Contact(keys, PlayerAfter(keys, p, bs, i), bs[i]).1
    ensures p2 == PlayerAfter(keys, p, bs, |bs|)
  {
    var r1 := [Contact(keys, p, bs[0]).1] + rest;
    forall i | 0 <= i < |bs| ensures r1[i] == Contact(keys, PlayerAfter(keys, p, bs, i), bs[i]).1 {
      if i > 0 {
        PlayerAfterStep(keys, p, bs, i - 1);
        assert bs[1..][i - 1] == bs[i];
        assert r1[i] == rest[i - 1];
      }
    }
    PlayerAfterStep(keys, p, bs, |bs| - 1);
  }

  /** Whatever player each box meets, a box moves at most one push
      sideways, never vertically, and not at all with no movement key held. */
  lemma PassBounds(keys: Keys, p: Player, bs: seq<Box>, r1: seq<Box>)
    requires |r1| == |bs|
    requires forall i :: 0 <= i < |bs| ==> r1[i] == Contact(keys, PlayerAfter(keys, p, bs, i), bs[i]).1
    ensures forall i :: 0 <= i < |bs| ==>
              && r1[i].shape.pos.y == bs[i].shape.pos.y && r1[i].vy == bs[i].vy
              && Abs(r1[i].shape.pos.x - bs[i].shape.pos.x) <= PushStep
    ensures !keys.right && !keys.left ==> forall i :: 0 <= i < |bs| ==> r1[i] == bs[i]
  {
    forall i | 0 <= i < |bs|
      ensures && r1[i].shape.pos.y == bs[i].shape.pos.y && r1[i].vy == bs[i].vy
              && Abs(r1[i].shape.pos.x - bs[i].shape.pos.x) <= PushStep
      ensures !keys.right && !keys.left ==> r1[i] == bs[i]
    {
      var c := Contact(keys, PlayerAfter(keys, p, bs, i), bs[i]);
      assert r1[i] == c.1;
    }
  }

  /** `checkBoxCollisions`: the boxes in order, each seeing the player as
      the boxes before it left them: box `i` gets the contact with the
      player after the first `i` contacts, and the player ends as all the
      contacts leave it. No box moves vertically or further than one push. */
  function CheckBoxCollisions(keys: Keys, p: Player, bs: seq<Box>): (r: (Player, seq<Box>))
    ensures |r.1| == |bs|
    ensures forall i :: 0 <= i < |bs| ==> r.1[i] == Contact(keys, PlayerAfter(keys, p, bs, i), bs[i]).1
    ensures r.0 == PlayerAfter(keys, p, bs, |bs|)
    ensures forall i :: 0 <= i < |bs| ==>
              && r.1[i].shape.pos.y == bs[i].shape.pos.y && r.1[i].vy == bs[i].vy
              && Abs(r.1[i].shape.pos.x - bs[i].shape.pos.x) <= PushStep
    ensures !keys.right && !keys.left ==> forall i :: 0 <= i < |bs| ==> r.1[i] == bs[i]
    ensures r.0.shape.pos.x == p.shape.pos.x && r.0.vel.x == p.vel.x
    ensures r.0.shape.width == p.shape.width && r.0.shape.height == p.shape.height
    decreases |bs|
  {
    if bs == [] then (p, [])
    else
      var c := Contact(keys, p, bs[0]);
      var rec := CheckBoxCollisions(keys, c.0, bs[1..]);
      PassStep(keys, p, bs, rec.0, rec.1);
      PassBounds(keys, p, bs, [c.1] + rec.1);
      PlayerAfterKeeps(keys, p, bs, |bs|);
      (rec.0, [c.1] + rec.1)
  }

  /** A player walking right into a single box beside it on the ground
      pushes it two units to the right. */
  lemma PushOneBox(keys: Keys, p: Player, b: Box)
    requires PushesRight(keys, p.shape, b.shape)
    ensures CheckBoxCollisions(keys, p, [b]).1 == [b.(shape := b.shape.ShiftX(PushStep))]
  {
  }
}

=== FILE: classic.dfy ===
/** The first version of the platformer (apps/pixelGame/game.js with its
    apps/pixelGame/config.js): the player moves freely only between two
    screen columns and beyond them the world scrolls instead; landing checks
    every platform; a jump is an impulse on every press and release of the
    jump key; touching an enemy only shows the game-over panel. */
module Classic {
  import opened Geometry
  import opened Physics
  import opened World

  /** The values of the first version's configuration file. */
  const PlayerWidth: real := 30.0
  const PlayerHeight: real := 30.0
  const PlayerSpeed: real := 5.0
  const JumpHeight: real := 6.0
  const CrouchHeight: real := 20.0
  const Gravity: real := 0.5
  const BackgroundSpeed: real := 0.5
  const EnemySpeed: real := 2.0

  /** The height the crouch key's release sets, whatever the configured
      height. */
  const ReleasedHeight: real := 30.0

  /** The screen columns between which the player itself moves. */
  const ScrollRight: real := 400.0
  const ScrollLeft: real := 100.0

  /** The rectangles a level file provides. */
  datatype Layout = Layout(
    platforms: seq<Rect>,
    collectables: seq<Rect>,
    checkpoints: seq<Rect>,
    enemies: seq<Rect>)

  datatype Game = Game(
    canvasWidth: real,
    canvasHeight: real,
    started: bool,
    level: int,
    collected: int,
    player: Rect,
    vel: Vec,
    keys: Keys,
    platforms: seq<Rect>,
    collectables: seq<Rect>,
    checkpoints: seq<Checkpoint>,
    enemies: seq<Enemy>,
    backgroundX: real,
    gameOverShown: bool,
    pendingAdvances: nat)

  /** The level number is one of the three levels and every enemy walks one
      way or the other. */
  predicate Inv(g: Game) {
    && 1 <= g.level <= LevelCount
    && forall i :: 0 <= i < |g.enemies| ==> g.enemies[i].direction == 1 || g.enemies[i].direction == -1
  }

  /** The width of the background image: 2000 units of a 400-unit-high
      drawing, scaled to the canvas height. */
  function BackgroundWidth(canvasHeight: real): (w: real)
    ensures w == 5.0 * canvasHeight
  {
    2000.0 * (canvasHeight / 400.0)
  }

  /** The background step of `drawParallaxBackground`, taken with the
      player's position before this frame's move: it scrolls only where the
      player itself would move, and it resets to zero once a whole width has
      gone by to the left. There is no reset on the other side. */
  function ScrollBackground(bx: real, canvasHeight: real, playerX: real, keys: Keys): (r: real)
    ensures r == 0.0 || r > -BackgroundWidth(canvasHeight)
    ensures keys.right && playerX < ScrollRight && bx - BackgroundSpeed > -BackgroundWidth(canvasHeight) ==>
              r == bx - BackgroundSpeed
    ensures !(keys.right && playerX < ScrollRight) && keys.left && playerX > ScrollLeft ==>
              r == bx + BackgroundSpeed || r == 0.0
    ensures !(keys.right && playerX < ScrollRight) && !(keys.left && playerX > ScrollLeft) ==>
              r == bx || r == 0.0
    ensures keys.right && playerX < ScrollRight && bx - BackgroundSpeed <= -BackgroundWidth(canvasHeight) ==>
              r == 0.0
    ensures !(keys.right && playerX < ScrollRight) && keys.left && playerX > ScrollLeft ==>
              if bx + BackgroundSpeed <= -BackgroundWidth(canvasHeight) then r == 0.0 else r == bx + BackgroundSpeed
    ensures !(keys.right && playerX < ScrollRight) && !(keys.left && playerX > ScrollLeft) ==>
              if bx <= -BackgroundWidth(canvasHeight) then r == 0.0 else r == bx
  {
    var x := if keys.right && playerX < ScrollRight then bx - BackgroundSpeed
             else if keys.left && playerX > ScrollLeft then bx + BackgroundSpeed
             else bx;
    if x <= -BackgroundWidth(canvasHeight) then 0.0 else x
  }

  /** The background after `n` frames of walking left away from the left
      column. */
  function DriftLeft(bx: real, canvasHeight: real, playerX: real, n: nat): real {
    if n == 0 then bx else ScrollBackground(DriftLeft(bx, canvasHeight, playerX, n - 1), canvasHeight, playerX, Keys(false, true))
  }

  /** Walking left the background offset grows without bound: nothing wraps
      it back on that side. */
  lemma {:induction false} DriftIsUnbounded(canvasHeight: real, playerX: real, n: nat)
    requires canvasHeight >= 0.0 && playerX > ScrollLeft
    ensures DriftLeft(0.0, canvasHeight, playerX, n) == (n as real) * BackgroundSpeed
  {
    if n > 0 {
      DriftIsUnbounded(canvasHeight, playerX, n - 1);
    }
  }

  /** Gravity after the move: if the player would still be inside the
      canvas after another step at the current speed, the fall speeds up,
      and a player above the top edge is put on it with one gravity step of
      speed already; otherwise the vertical speed is cancelled. */
  function Fall(y: real, vy: real, height: real, canvasHeight: real): (r: (real, real))
    ensures y + height + vy <= canvasHeight && y < 0.0 ==> r == (0.0, 2.0 * Gravity)
    ensures y + height + vy <= canvasHeight && y >= 0.0 ==> r == (y, vy + Gravity)
    ensures y + height + vy > canvasHeight ==> r == (y, 0.0)
  {
    if y + height + vy <= canvasHeight then
      if y < 0.0 then (0.0, Gravity + Gravity) else (y, vy + Gravity)
    else (y, 0.0)
  }

  /** The movement step: inside the columns the player gets the walking
      speed; at a column the player stops and the world moves the other way
      by the walking speed instead. The player and the world never both
      move. */
  function Movement(keys: Keys, x: real): (r: (real, real))
    ensures r.0 == 0.0 || r.1 == 0.0
    ensures r.0 == PlayerSpeed <==> keys.right && x < ScrollRight
    ensures r.0 == -PlayerSpeed <==> !(keys.right && x < ScrollRight) && keys.left && x > ScrollLeft
    ensures r.1 == -PlayerSpeed <==> r.0 == 0.0 && keys.right
    ensures r.1 == PlayerSpeed <==> r.0 == 0.0 && !keys.right && keys.left
    ensures !keys.right && !keys.left ==> r == (0.0, 0.0)
  {
    if keys.right && x < ScrollRight then (PlayerSpeed, 0.0)
    else if keys.left && x > ScrollLeft then (-PlayerSpeed, 0.0)
    else if keys.right then (0.0, -PlayerSpeed)
    else if keys.left then (0.0, PlayerSpeed)
    else (0.0, 0.0)
  }

  function ShiftRects(rs: seq<Rect>, dx: real): (r: seq<Rect>)
    ensures |r| == |rs|
    ensures forall i :: 0 <= i < |rs| ==> r[i] == rs[i].ShiftX(dx)
  {
    seq(|rs|, i requires 0 <= i < |rs| => rs[i].ShiftX(dx))
  }

  function ShiftCheckpoints(cs: seq<Checkpoint>, dx: real): (r: seq<Checkpoint>)
    ensures |r| == |cs|
    ensures forall i :: 0 <= i < |cs| ==> r[i] == cs[i].(shape := cs[i].shape.ShiftX(dx))
  {
    seq(|cs|, i requires 0 <= i < |cs| => cs[i].(shape := cs[i].shape.ShiftX(dx)))
  }

  function ShiftEnemies(es: seq<Enemy>, dx: real): (r: seq<Enemy>)
    ensures |r| == |es|
    ensures forall i :: 0 <= i < |es| ==> r[i] == es[i].(shape := es[i].shape.ShiftX(dx))
  {
    seq(|es|, i requires 0 <= i < |es| => es[i].(shape := es[i].shape.ShiftX(dx)))
  }

  /** The landing test of one platform: horizontally over it, the bottom
      edge at or above its top and reaching it with this frame's speed. */
  predicate LandsOn(p: Rect, vy: real, platform: Rect) {
    && p.Left() < platform.Right()
    && p.Right() > platform.Left()
    && p.Bottom() <= platform.Top()
    && p.Bottom() + vy >= platform.Top()
  }

  /** Platform `i` is the first one that passes the landing test. */
  predicate FirstLandsOn(p: Rect, vy: real, platforms: seq<Rect>, i: int) {
    && 0 <= i < |platforms|
    && LandsOn(p, vy, platforms[i])
    && forall j :: 0 <= j < i ==> !LandsOn(p, vy, platforms[j])
  }

  /** The platform loop of `updatePlayer`, which has no `break`: every
      platform that passes the test puts the player on its top and stops
      the fall. The first platform that passes decides the outcome: the
      player ends on its top with no vertical speed, since a stopped player
      passes a later test only when already standing on that platform's
      top. With no platform passing, nothing changes. */
  function Land(p: Rect, vy: real, platforms: seq<Rect>): (r: (Rect, real))
    ensures forall i :: FirstLandsOn(p, vy, platforms, i) ==>
              r == (p.MoveTo(p.pos.x, platforms[i].Top() - p.height), 0.0)
    ensures (forall i :: 0 <= i < |platforms| ==> !LandsOn(p, vy, platforms[i])) ==> r == (p, vy)
    ensures vy == 0.0 ==> r == (p, 0.0)
    ensures r.0 == p.MoveTo(p.pos.x, r.0.pos.y)
    ensures p.pos.y <= r.0.pos.y
    ensures r.0.pos.y == p.pos.y || r.0.pos.y <= p.pos.y + vy
    ensures r.1 == vy || r.1 == 0.0
    decreases |platforms|
  {
    if platforms == [] then (p, vy)
    else
      var (p1, vy1) := if LandsOn(p, vy, platforms[0])
                       then (p.MoveTo(p.pos.x, platforms[0].Top() - p.height), 0.0)
                       else (p, vy);
      var r := Land(p1, vy1, platforms[1..]);
      assert forall i :: FirstLandsOn(p, vy, platforms, i) ==>
               r == (p.MoveTo(p.pos.x, platforms[i].Top() - p.height), 0.0) by {
        forall i | FirstLandsOn(p, vy, platforms, i)
          ensures r == (p.MoveTo(p.pos.x, platforms[i].Top() - p.height), 0.0)
        {
          if i > 0 {
            assert FirstLandsOn(p, vy, platforms[1..], i - 1) by {
              forall j | 0 <= j < i - 1 ensures !LandsOn(p, vy, platforms[1..][j]) {
                assert platforms[1..][j] == platforms[j + 1];
              }
            }
          }
        }
      }
      assert (forall i :: 0 <= i < |platforms| ==> !LandsOn(p, vy, platforms[i])) ==> r == (p, vy) by {
        if forall i :: 0 <= i < |platforms| ==> !LandsOn(p, vy, platforms[i]) {
          forall i | 0 <= i < |platforms[1..]| ensures !LandsOn(p, vy, platforms[1..][i]) {
            assert platforms[1..][i] == platforms[i + 1];
          }
        }
      }
      r
  }

  /** `updatePlayer`: the move by the current velocity, gravity, the clamp
      to the canvas sides, the movement or world scroll, and the landing on
      the platforms where the scroll left them.
      - the player's column is the moved column clamped to the canvas;
      - the keys and that column choose through `Movement` both the new
        horizontal speed and the one shift all four entity lists take;
      - after gravity, the first platform that passes the landing test
        carries the player on its top with no vertical speed, and with
        none passing the player stays where gravity left it. */
  function UpdatePlayer(g: Game): (r: Game)
    ensures r.player.width == g.player.width && r.player.height == g.player.height
    ensures r.player.pos.x <= g.canvasWidth - g.player.width
    ensures g.canvasWidth >= g.player.width ==> 0.0 <= r.player.pos.x
    ensures 0.0 <= g.player.pos.x + g.vel.x < g.canvasWidth - g.player.width ==>
              r.player.pos.x == g.player.pos.x + g.vel.x
    ensures g.player.pos.x + g.vel.x < 0.0 && g.canvasWidth >= g.player.width ==> r.player.pos.x == 0.0
    ensures g.player.pos.x + g.vel.x >= g.canvasWidth - g.player.width ==>
              r.player.pos.x == g.canvasWidth - g.player.width
    ensures var (vx, d) := Movement(g.keys, r.player.pos.x);
            && r.vel.x == vx
            && r.platforms == ShiftRects(g.platforms, d)
            && r.collectables == ShiftRects(g.collectables, d)
            && r.checkpoints == ShiftCheckpoints(g.checkpoints, d)
            && r.enemies == ShiftEnemies(g.enemies, d)
    ensures var (y, vy) := Fall(g.player.pos.y + g.vel.y, g.vel.y, g.player.height, g.canvasHeight);
            var fallen := g.player.MoveTo(r.player.pos.x, y);
            && y <= r.player.pos.y
            && (forall i :: FirstLandsOn(fallen, vy, r.platforms, i) ==>
                  r.player.Bottom() == r.platforms[i].Top() && r.vel.y == 0.0)
            && ((forall i :: 0 <= i < |r.platforms| ==> !LandsOn(fallen, vy, r.platforms[i])) ==>
                  r.player == fallen && r.vel.y == vy)
    ensures r.(player := g.player, vel := g.vel, platforms := g.platforms, collectables := g.collectables,
               checkpoints := g.checkpoints, enemies := g.enemies) == g
  {
    var x := g.player.pos.x + g.vel.x;
    var (y, vy) := Fall(g.player.pos.y + g.vel.y, g.vel.y, g.player.height, g.canvasHeight);
    var x1 := if x < 0.0 then 0.0 else x;
    var x2 := if x1 >= g.canvasWidth - g.player.width then g.canvasWidth - g.player.width else x1;
    var (vx, d) := Movement(g.keys, x2);
    var platforms := ShiftRects(g.platforms, d);
    var (p, vy1) := Land(g.player.MoveTo(x2, y), vy, platforms);
    g.(player := p, vel := Vec(vx, vy1), platforms := platforms,
       collectables := ShiftRects(g.collectables, d),
       checkpoints := ShiftCheckpoints(g.checkpoints, d),
       enemies := ShiftEnemies(g.enemies, d))
  }

  /** Holding right alone at or beyond the right column moves the player no
      further and instead shifts every entity of the level five units to
      the left. */
  lemma RightAtColumnScrolls(g: Game)
    requires g.keys.right && !g.keys.left && g.vel.x == 0.0
    requires ScrollRight <= g.player.pos.x < g.canvasWidth - g.player.width
    ensures UpdatePlayer(g).player.pos.x == g.player.pos.x
    ensures UpdatePlayer(g).platforms == ShiftRects(g.platforms, -PlayerSpeed)
    ensures UpdatePlayer(g).enemies == ShiftEnemies(g.enemies, -PlayerSpeed)
  {
    var r := UpdatePlayer(g);
    assert r.player.pos.x == g.player.pos.x;
    assert Movement(g.keys, r.player.pos.x) == (0.0, -PlayerSpeed);
  }

  /** The world scroll changes no relation between two things in it: every
      pair of entities overlaps afterwards exactly when it did before. */
  lemma ScrollKeepsLayout(rs: seq<Rect>, ts: seq<Rect>, d: real, i: nat, j: nat)
    requires i < |rs| && j < |ts|
    ensures ShiftRects(rs, d)[i].Left() - ShiftRects(ts, d)[j].Left() == rs[i].Left() - ts[j].Left()
    ensures Overlaps(ShiftRects(rs, d)[i], ShiftRects(ts, d)[j]) <==> Overlaps(rs[i], ts[j])
  {
    OverlapsShiftInvariant(rs[i], ts[j], d);
  }

  /** `checkCollisions`: the collectable pass with its skipping splice and
      the counter, the checkpoint latch that schedules a level advance, and
      the enemy test, which only shows the game-over panel and never stops
      the game. */
  function CheckCollisions(g: Game): (r: Game)
    ensures r.collected + |r.collectables| == g.collected + |g.collectables|
    ensures r.collected >= g.collected
    ensures ClaimedCount(r.checkpoints) - ClaimedCount(g.checkpoints) == r.pendingAdvances - g.pendingAdvances
    ensures r.gameOverShown <==> g.gameOverShown || exists i :: 0 <= i < |g.enemies| && Overlaps(g.player, g.enemies[i].shape)
    ensures r.(collected := g.collected, collectables := g.collectables, checkpoints := g.checkpoints,
               pendingAdvances := g.pendingAdvances, gameOverShown := g.gameOverShown) == g
    ensures var c := Collect(g.player, g.collectables);
            r.collectables == c.0 && r.collected == g.collected + c.1
    ensures var k := ClaimCheckpoints(g.player, g.checkpoints);
            r.checkpoints == k.0 && r.pendingAdvances == g.pendingAdvances + k.1
  {
    var (left, n) := Collect(g.player, g.collectables);
    var (cps, k) := ClaimCheckpoints(g.player, g.checkpoints);
    var hit := exists i :: 0 <= i < |g.enemies| && Overlaps(g.player, g.enemies[i].shape);
    g.(collected := g.collected + n, collectables := left, checkpoints := cps,
       pendingAdvances := g.pendingAdvances + k, gameOverShown := g.gameOverShown || hit)
  }

  /** One animation frame: background, player, enemies, collisions. */
  function Frame(g: Game): (r: Game)
    ensures Inv(g) ==> Inv(r)
    ensures r.collected + |r.collectables| == g.collected + |g.collectables|
    ensures r.level == g.level && r.started == g.started && r.keys == g.keys
    ensures r.pendingAdvances >= g.pendingAdvances
    ensures g.gameOverShown ==> r.gameOverShown
    ensures r.backgroundX == 0.0 || r.backgroundX > -BackgroundWidth(g.canvasHeight)
  {
    var bx := ScrollBackground(g.backgroundX, g.canvasHeight, g.player.pos.x, g.keys);
    var g1 := UpdatePlayer(g.(backgroundX := bx));
    var enemies := UpdateEnemies(g1.enemies, EnemySpeed, g1.canvasWidth);
    var g2 := g1.(enemies := enemies);
    assert Inv(g) ==> Inv(g2) by {
      if Inv(g) {
        forall i | 0 <= i < |enemies|
          ensures enemies[i].direction == 1 || enemies[i].direction == -1
        {
          assert enemies[i] == StepEnemy(g1.enemies[i], EnemySpeed, g1.canvasWidth);
        }
      }
    }
    CheckCollisions(g2)
  }

  /** `initGame` with the level file's rectangles: every list is replaced
      and checkpoints start unclaimed, enemies walking right. */
  function LoadLevel(g: Game, layout: Layout): (r: Game)
    ensures r.platforms == layout.platforms && r.collectables == layout.collectables
    ensures |r.checkpoints| == |layout.checkpoints| && |r.enemies| == |layout.enemies|
    ensures forall i :: 0 <= i < |r.checkpoints| ==> r.checkpoints[i] == Checkpoint(layout.checkpoints[i], false)
    ensures forall i :: 0 <= i < |r.enemies| ==> r.enemies[i] == Enemy(layout.enemies[i], 1)
    ensures r.(platforms := g.platforms, collectables := g.collectables,
               checkpoints := g.checkpoints, enemies := g.enemies) == g
    ensures Inv(g) ==> Inv(r)
  {
    g.(platforms := layout.platforms,
       collectables := layout.collectables,
       checkpoints := seq(|layout.checkpoints|, i requires 0 <= i < |layout.checkpoints| =>
                          Checkpoint(layout.checkpoints[i], false)),
       enemies := seq(|layout.enemies|, i requires 0 <= i < |layout.enemies| => Enemy(layout.enemies[i], 1)))
  }

  /** The start button: the game starts and the current level's file loads;
      the level number, the count and the player are left as they were. */
  function Start(g: Game, layout: Layout): (r: Game)
    ensures r.started && r.level == g.level && r.collected == g.collected
    ensures r.player == g.player && r.vel == g.vel && r.pendingAdvances == g.pendingAdvances
    ensures r.platforms == layout.platforms && r.collectables == layout.collectables
    ensures Inv(g) ==> Inv(r)
  {
    LoadLevel(g.(started := true), layout)
  }

  /** A checkpoint's timer firing: next level, its file loaded, the player
      at the spawn point. With no timer pending nothing happens. */
  function FireAdvance(g: Game, layout: Layout): (r: Game)
    ensures g.pendingAdvances == 0 ==> r == g
    ensures g.pendingAdvances > 0 ==>
              && r.pendingAdvances == g.pendingAdvances - 1
              && r.level == NextLevel(g.level)
              && r.platforms == layout.platforms
              && r.player.pos == Vec(SpawnX, SpawnY)
              && r.collected == g.collected
    ensures Inv(g) ==> Inv(r)
  {
    if g.pendingAdvances == 0 then g
    else
      var g1 := LoadLevel(g.(level := NextLevel(g.level), pendingAdvances := g.pendingAdvances - 1), layout);
      g1.(player := g1.player.MoveTo(SpawnX, SpawnY))
  }

  /** The restart button: panel hidden, level one loaded, count cleared,
      player at the spawn point. Timers already scheduled still fire. */
  function Restart(g: Game, layout: Layout): (r: Game)
    ensures r.level == 1 && r.collected == 0 && !r.gameOverShown
    ensures r.player.pos == Vec(SpawnX, SpawnY) && r.player.height == g.player.height
    ensures r.pendingAdvances == g.pendingAdvances && r.vel == g.vel
    ensures r.platforms == layout.platforms
    ensures Inv(g) ==> Inv(r)
  {
    var g1 := LoadLevel(g.(gameOverShown := false, level := 1, collected := 0), layout);
    g1.(player := g1.player.MoveTo(SpawnX, SpawnY))
  }

  /** A restart while a checkpoint's timer is pending does not cancel it: the
      timer still moves the restarted game on to level two. */
  lemma RestartKeepsPendingAdvance(g: Game, l1: Layout, l2: Layout)
    requires g.pendingAdvances > 0
    ensures FireAdvance(Restart(g, l1), l2).level == 2
  {
  }

  predicate IsRightKey(key: string) { key == "ArrowRight" || key == "d" || key == "D" }
  predicate IsLeftKey(key: string) { key == "ArrowLeft" || key == "a" || key == "A" }
  predicate IsJumpKey(key: string) { key == "ArrowUp" || key == " " || key == "w" || key == "W" }
  predicate IsCrouchKey(key: string) { key == "s" || key == "S" }

  /** `movePlayer`: a movement key sets its flag and the horizontal speed
      (zero on release, whatever the other key); a jump key takes the jump
      height off the vertical speed on press and release alike, with no
      ground test; the crouch key sets the crouch height. */
  function MovePlayer(g: Game, key: string, xVelocity: real, isPressed: bool): (r: Game)
    ensures IsLeftKey(key) ==> r.keys.left == isPressed && r.vel.x == (if isPressed then -xVelocity else 0.0)
    ensures IsRightKey(key) ==> r.keys.right == isPressed && r.vel.x == (if isPressed then xVelocity else 0.0)
    ensures IsJumpKey(key) ==> r == g.(vel := g.vel.(y := g.vel.y - JumpHeight))
    ensures IsCrouchKey(key) ==> r == g.(player := g.player.(height := CrouchHeight))
    ensures !IsLeftKey(key) && !IsRightKey(key) && !IsJumpKey(key) && !IsCrouchKey(key) ==> r == g
    ensures r.(keys := g.keys, vel := g.vel, player := g.player) == g
    ensures r.player.pos == g.player.pos
  {
    if IsLeftKey(key) then
      g.(keys := g.keys.(left := isPressed), vel := g.vel.(x := if isPressed then -xVelocity else 0.0))
    else if IsJumpKey(key) then g.(vel := g.vel.(y := g.vel.y - JumpHeight))
    else if IsRightKey(key) then
      g.(keys := g.keys.(right := isPressed), vel := g.vel.(x := if isPressed then xVelocity else 0.0))
    else if IsCrouchKey(key) then g.(player := g.player.(height := CrouchHeight))
    else g
  }

  /** `keydown`: once started, `movePlayer` with the walking speed. */
  function KeyDown(g: Game, key: string): (r: Game)
    ensures !g.started ==> r == g
    ensures g.started ==> r == MovePlayer(g, key, PlayerSpeed, true)
    ensures Inv(g) ==> Inv(r)
  {
    if !g.started then g else MovePlayer(g, key, PlayerSpeed, true)
  }

  /** `keyup`: once started, `movePlayer` as a release, and the crouch key
      then sets the fixed standing height. */
  function KeyUp(g: Game, key: string): (r: Game)
    ensures !g.started ==> r == g
    ensures g.started && !IsCrouchKey(key) ==> r == MovePlayer(g, key, 0.0, false)
    ensures g.started && IsCrouchKey(key) ==> r == g.(player := g.player.(height := ReleasedHeight))
    ensures Inv(g) ==> Inv(r)
  {
    if !g.started then g
    else
      var g1 := MovePlayer(g, key, 0.0, false);
      if IsCrouchKey(key) then g1.(player := g1.player.(height := ReleasedHeight)) else g1
  }

  /** Tapping the jump key applies the impulse twice, once on the press and
      once on the release, wherever the player is — also in mid-air. */
  lemma JumpTapIsDoubleImpulse(g: Game)
    requires g.started
    ensures KeyUp(KeyDown(g, " "), " ").vel.y == g.vel.y - 2.0 * JumpHeight
    ensures KeyUp(KeyDown(g, " "), " ").player == g.player
  {
  }

  /** A crouch press and release leaves the player at the fixed standing
      height with the top edge in place, so the bottom edge moves. */
  lemma CrouchTapSetsStandingHeight(g: Game, key: string)
    requires g.started && IsCrouchKey(key)
    ensures KeyUp(KeyDown(g, key), key).player == g.player.(height := ReleasedHeight)
    ensures KeyDown(g, key).player.Bottom() == g.player.Top() + CrouchHeight
  {
  }
}

=== FILE: geometry.dfy ===
/** Axis-aligned rectangles in canvas coordinates: `x` grows to the right and
    `y` grows downwards, so a rectangle's top edge is `pos.y` and its bottom
    edge is `pos.y + height`. */
module Geometry {

  datatype Vec = Vec(x: real, y: real)

  /** The `{ position: {x, y}, width, height }` shape every game object has. */
  datatype Rect = Rect(pos: Vec, width: real, height: real) {
    function Left(): real { pos.x }
    function Right(): real { pos.x + width }
    function Top(): real { pos.y }
    function Bottom(): real { pos.y + height }

    /** The same rectangle moved `dx` along the x axis. */
    function ShiftX(dx: real): (r: Rect)
      ensures r.pos.y == pos.y && r.width == width && r.height == height
      ensures r.Left() - Left() == dx
    {
      Rect(Vec(pos.x + dx, pos.y), width, height)
    }

    /** The same rectangle with its top-left corner at (x, y). */
    function MoveTo(x: real, y: real): (r: Rect)
      ensures r.pos == Vec(x, y) && r.width == width && r.height == height
    {
      Rect(Vec(x, y), width, height)
    }
  }

  /** The strict AABB overlap test every collision check of the game uses:
      `a.x + a.w > b.x && a.x < b.x + b.w && a.y + a.h > b.y && a.y < b.y + b.h`. */
  predicate Overlaps(a: Rect, b: Rect) {
    && a.Right() > b.Left()
    && a.Left() < b.Right()
    && a.Bottom() > b.Top()
    && a.Top() < b.Bottom()
  }

  /** Overlap is a property of the relative position only: moving both
      rectangles by the same horizontal amount does not change it. */
  lemma OverlapsShiftInvariant(a: Rect, b: Rect, dx: real)
    ensures Overlaps(a.ShiftX(dx), b.ShiftX(dx)) <==> Overlaps(a, b)
  {
  }

  /** Rectangles that only touch along an edge do not overlap. */
  lemma TouchingIsNotOverlapping(a: Rect, b: Rect)
    requires a.Right() == b.Left()
    ensures !Overlaps(a, b) && !Overlaps(b, a)
  {
  }
}

=== FILE: kanban.dfy ===
/** The task store of the kanban board (apps/pixelKanban/js/kanban.js): an
    ordered list of tasks with an id counter, create/update/delete/move, the
    per-column status filter of the board, and the drop handler that reads
    a task id and a column's status back from strings. */
module Kanban {
  import opened Maybe
  import opened Strings

  /** A JavaScript value as far as strict equality sees it: a string is
      never `===` to a number. */
  datatype JsVal = JStr(s: string) | JNum(n: int)

  /** The falsy values among them: the empty string and zero. */
  predicate Falsy(v: JsVal) {
    v == JStr("") || v == JNum(0)
  }

  /** Creation and update times are opaque stamps taken from the clock. */
  type Stamp = string

  datatype Task = Task(
    id: int,
    title: string,
    description: string,
    assignee: JsVal,
    priority: string,
    status: string,
    dueDate: string,
    createdAt: Stamp,
    updatedAt: Stamp)

  /** The data a new task is made from; None is a missing field. */
  datatype TaskData = TaskData(
    title: string,
    description: Option<string>,
    assignee: Option<JsVal>,
    priority: Option<string>,
    status: Option<string>,
    dueDate: Option<string>)

  /** The fields an update carries; None is a field the update leaves alone. */
  datatype Updates = Updates(
    title: Option<string>,
    description: Option<string>,
    assignee: Option<JsVal>,
    priority: Option<string>,
    status: Option<string>,
    dueDate: Option<string>)

  datatype Board = Board(tasks: seq<Task>, nextTaskId: int)

  /** The board's columns, left to right. */
  const Columns: seq<string> := ["backlog", "todo", "in-progress", "done"]

  /** A board as constructed: no tasks, ids counted from one. */
  function NewBoard(): (b: Board)
    ensures Valid(b) && b.tasks == []
  {
    Board([], 1)
  }

  /** Every id was handed out by the counter, and no two tasks share one. */
  predicate Valid(b: Board) {
    && (forall i :: 0 <= i < |b.tasks| ==> b.tasks[i].id < b.nextTaskId)
    && DistinctIds(b.tasks)
  }

  predicate DistinctIds(ts: seq<Task>) {
    forall i, j :: 0 <= i < j < |ts| ==> ts[i].id != ts[j].id
  }

  /** `value || default` for an optional string. */
  function StringOr(o: Option<string>, default: string): (r: string)
    ensures o.Some? && o.value != "" ==> r == o.value
    ensures o.None? || o.value == "" ==> r == default
  {
    if o.Some? && o.value != "" then o.value else default
  }

  /** `createTask`: the task takes the counter's id, missing or empty fields
      take their defaults, and it is appended after all existing tasks. */
  function CreateTask(b: Board, data: TaskData, now: Stamp): (r: (Board, Task))
    ensures r.0.tasks == b.tasks + [r.1]
    ensures r.1.id == b.nextTaskId && r.0.nextTaskId == b.nextTaskId + 1
    ensures r.1.title == data.title
    ensures r.1.description == StringOr(data.description, "")
    ensures r.1.dueDate == StringOr(data.dueDate, "")
    ensures r.1.priority == StringOr(data.priority, "medium")
    ensures r.1.status == StringOr(data.status, "backlog")
    ensures data.assignee.None? || Falsy(data.assignee.value) ==> r.1.assignee == JStr("")
    ensures data.assignee.Some? && !Falsy(data.assignee.value) ==> r.1.assignee == data.assignee.value
    ensures r.1.createdAt == now && r.1.updatedAt == now
    ensures Valid(b) ==> Valid(r.0)
  {
    var assignee := if data.assignee.Some? && !Falsy(data.assignee.value) then data.assignee.value else JStr("");
    var t := Task(b.nextTaskId, data.title, StringOr(data.description, ""), assignee,
                  StringOr(data.priority, "medium"), StringOr(data.status, "backlog"),
                  StringOr(data.dueDate, ""), now, now);
    (Board(b.tasks + [t], b.nextTaskId + 1), t)
  }

  /** The first task at or after `from` with the given id (`find`). */
  function FindTask(ts: seq<Task>, id: int, from: nat): (r: Option<nat>)
    ensures r.Some? ==> from <= r.value < |ts| && ts[r.value].id == id
    ensures r.Some? ==> forall j :: from <= j < r.value ==> ts[j].id != id
    ensures r.None? ==> forall j :: from <= j < |ts| ==> ts[j].id != id
    decreases |ts| - from
  {
    if from >= |ts| then None
    else if ts[from].id == id then Some(from)
    else FindTask(ts, id, from + 1)
  }

  /** `Object.assign(task, updates, { updatedAt })`: every field the update
      carries is copied, whatever its value; the id and creation time stay. */
  function Merge(t: Task, u: Updates, now: Stamp): (r: Task)
    ensures r.id == t.id && r.createdAt == t.createdAt && r.updatedAt == now
    ensures u.title.Some? ==> r.title == u.title.value
    ensures u.title.None? ==> r.title == t.title
    ensures u.description.Some? ==> r.description == u.description.value
    ensures u.description.None? ==> r.description == t.description
    ensures u.assignee.Some? ==> r.assignee == u.assignee.value
    ensures u.assignee.None? ==> r.assignee == t.assignee
    ensures u.priority.Some? ==> r.priority == u.priority.value
    ensures u.priority.None? ==> r.priority == t.priority
    ensures u.status.Some? ==> r.status == u.status.value
    ensures u.status.None? ==> r.status == t.status
    ensures u.dueDate.Some? ==> r.dueDate == u.dueDate.value
    ensures u.dueDate.None? ==> r.dueDate == t.dueDate
  {
    Task(t.id, u.title.GetOr(t.title), u.description.GetOr(t.description), u.assignee.GetOr(t.assignee),
         u.priority.GetOr(t.priority), u.status.GetOr(t.status), u.dueDate.GetOr(t.dueDate),
         t.createdAt, now)
  }

  /** Merging the same update twice is merging it once. */
  lemma MergeIdempotent(t: Task, u: Updates, now: Stamp)
    ensures Merge(Merge(t, u, now), u, now) == Merge(t, u, now)
  {
  }

  /** `updateTask`: the first task with the id gets the update merged in; an
      unknown id changes nothing. */
  function UpdateTask(b: Board, id: int, u: Updates, now: Stamp): (r: Board)
    ensures FindTask(b.tasks, id, 0).None? ==> r == b
    ensures FindTask(b.tasks, id, 0).Some? ==>
              var i := FindTask(b.tasks, id, 0).value;
              r == b.(tasks := b.tasks[i := Merge(b.tasks[i], u, now)])
    ensures |r.tasks| == |b.tasks| && r.nextTaskId == b.nextTaskId
    ensures forall i :: 0 <= i < |r.tasks| ==> r.tasks[i].id == b.tasks[i].id
    ensures Valid(b) ==> Valid(r)
  {
    match FindTask(b.tasks, id, 0)
    case None => b
    case Some(i) => b.(tasks := b.tasks[i := Merge(b.tasks[i], u, now)])
  }

  /** On a valid board the task an update reaches is the only one with the
      id: every task is either that one, merged, or untouched. */
  lemma UpdateHitsOnlyItsTask(b: Board, id: int, u: Updates, now: Stamp)
    requires Valid(b)
    ensures forall i :: 0 <= i < |b.tasks| ==>
              UpdateTask(b, id, u, now).tasks[i] ==
                (if b.tasks[i].id == id then Merge(b.tasks[i], u, now) else b.tasks[i])
  {
    match FindTask(b.tasks, id, 0)
    case None =>
    case Some(k) =>
      forall i | 0 <= i < |b.tasks| && i != k ensures b.tasks[i].id != id {
        if i < k {
          assert b.tasks[i].id != b.tasks[k].id;
        } else {
          assert b.tasks[k].id != b.tasks[i].id;
        }
      }
  }

  /** The same update applied twice leaves the board as one application. */
  lemma UpdateIdempotent(b: Board, id: int, u: Updates, now: Stamp)
    ensures UpdateTask(UpdateTask(b, id, u, now), id, u, now) == UpdateTask(b, id, u, now)
  {
    var b1 := UpdateTask(b, id, u, now);
    match FindTask(b.tasks, id, 0)
    case None =>
    case Some(i) =>
      MergeIdempotent(b.tasks[i], u, now);
      assert FindTask(b1.tasks, id, 0) == Some(i) by {
        FindAgrees(b.tasks, b1.tasks, id, 0);
      }
  }

  /** Two lists with the same ids have the same first match for any id. */
  lemma {:induction false} FindAgrees(ts: seq<Task>, us: seq<Task>, id: int, from: nat)
    requires |ts| == |us|
    requires forall i :: 0 <= i < |ts| ==> ts[i].id == us[i].id
    ensures FindTask(ts, id, from) == FindTask(us, id, from)
    decreases |ts| - from
  {
    if from < |ts| && ts[from].id != id {
      FindAgrees(ts, us, id, from + 1);
    }
  }

  /** `tasks.filter(t => t.id !== id)`. */
  function WithoutId(ts: seq<Task>, id: int): (r: seq<Task>)
    ensures forall t :: t in r <==> t in ts && t.id != id
    ensures |r| <= |ts|
  {
    if ts == [] then []
    else (if ts[0].id == id then [] else [ts[0]]) + WithoutId(ts[1..], id)
  }

  /** A filter that drops nothing keeps the list as it is. */
  lemma {:induction false} WithoutAbsentId(ts: seq<Task>, id: int)
    requires forall i :: 0 <= i < |ts| ==> ts[i].id != id
    ensures WithoutId(ts, id) == ts
  {
    if ts != [] {
      WithoutAbsentId(ts[1..], id);
    }
  }

  lemma {:induction false} WithoutIdAppend(a: seq<Task>, c: seq<Task>, id: int)
    ensures WithoutId(a + c, id) == WithoutId(a, id) + WithoutId(c, id)
  {
    if a == [] {
      assert a + c == c;
    } else {
      assert (a + c)[1..] == a[1..] + c;
      WithoutIdAppend(a[1..], c, id);
    }
  }

  /** The filter keeps the ids of the kept tasks pairwise distinct. */
  lemma {:induction false} WithoutIdDistinct(ts: seq<Task>, id: int)
    requires DistinctIds(ts)
    ensures DistinctIds(WithoutId(ts, id))
  {
    if ts != [] {
      var rest := WithoutId(ts[1..], id);
      WithoutIdDistinct(ts[1..], id);
      if ts[0].id != id {
        var r := [ts[0]] + rest;
        forall i, j | 0 <= i < j < |r| ensures r[i].id != r[j].id {
          if i == 0 {
            assert r[0] == ts[0] && r[j] == rest[j - 1];
            assert rest[j - 1] in rest;
            assert r[j] in ts[1..];
            var k :| 0 <= k < |ts[1..]| && ts[1..][k] == r[j];
            assert ts[k + 1] == r[j];
            assert ts[0].id != ts[k + 1].id;
          } else {
            assert r[i] == rest[i - 1] && r[j] == rest[j - 1];
            assert rest[i - 1].id != rest[j - 1].id;
          }
        }
      } else {
        assert WithoutId(ts, id) == rest;
      }
    }
  }

  /** `deleteTask`: exactly the tasks with that id are gone and the rest
      keep their order; the counter never goes back, so an id is not reused. */
  function DeleteTask(b: Board, id: int): (r: Board)
    ensures r.tasks == WithoutId(b.tasks, id) && r.nextTaskId == b.nextTaskId
    ensures forall t :: t in r.tasks <==> t in b.tasks && t.id != id
    ensures Valid(b) ==> Valid(r)
  {
    DeleteKeepsValid(b, id);
    Board(WithoutId(b.tasks, id), b.nextTaskId)
  }

  lemma DeleteKeepsValid(b: Board, id: int)
    ensures Valid(b) ==> Valid(Board(WithoutId(b.tasks, id), b.nextTaskId))
  {
    var r := Board(WithoutId(b.tasks, id), b.nextTaskId);
    if Valid(b) {
      WithoutIdDistinct(b.tasks, id);
      forall i | 0 <= i < |r.tasks| ensures r.tasks[i].id < r.nextTaskId {
        assert r.tasks[i] in b.tasks;
      }
    }
  }

  /** Deleting a task right after creating it gives back the tasks there
      were before. */
  lemma CreateThenDelete(b: Board, data: TaskData, now: Stamp)
    requires Valid(b)
    ensures var (b1, t) := CreateTask(b, data, now);
            DeleteTask(b1, t.id).tasks == b.tasks
  {
    var (b1, t) := CreateTask(b, data, now);
    WithoutIdAppend(b.tasks, [t], t.id);
    WithoutAbsentId(b.tasks, t.id);
    assert WithoutId([t], t.id) == [];
  }

  /** The update `moveTask` sends: the status and nothing else. */
  function StatusOnly(status: string): Updates {
    Updates(None, None, None, None, Some(status), None)
  }

  /** `moveTask`: only the status (and the update stamp) of the first task
      with the id changes. */
  function MoveTask(b: Board, id: int, status: string, now: Stamp): (r: Board)
    ensures FindTask(b.tasks, id, 0).None? ==> r == b
    ensures FindTask(b.tasks, id, 0).Some? ==>
              var i := FindTask(b.tasks, id, 0).value;
              r == b.(tasks := b.tasks[i := b.tasks[i].(status := status, updatedAt := now)])
    ensures Valid(b) ==> Valid(r)
  {
    UpdateTask(b, id, StatusOnly(status), now)
  }

  /** The tasks `renderBoard` puts in the column for `status`, in order. */
  function ColumnTasks(ts: seq<Task>, status: string): (r: seq<Task>)
    ensures forall t :: t in r <==> t in ts && t.status == status
    ensures |r| <= |ts|
  {
    if ts == [] then []
    else (if ts[0].status == status then [ts[0]] else []) + ColumnTasks(ts[1..], status)
  }

  /** The tasks no column shows: their status is not a column's name. */
  function OffBoard(ts: seq<Task>): (r: seq<Task>)
    ensures forall t :: t in r <==> t in ts && t.status !in Columns
  {
    if ts == [] then []
    else (if ts[0].status !in Columns then [ts[0]] else []) + OffBoard(ts[1..])
  }

  /** The columns partition the tasks: every task is shown exactly once if
      its status names a column and not at all otherwise, so the column
      sizes and the hidden tasks add up to all tasks. */
  lemma {:induction false} ColumnsPartition(ts: seq<Task>)
    ensures |ColumnTasks(ts, "backlog")| + |ColumnTasks(ts, "todo")| + |ColumnTasks(ts, "in-progress")|
            + |ColumnTasks(ts, "done")| + |OffBoard(ts)| == |ts|
  {
    if ts != [] {
      ColumnsPartition(ts[1..]);
    }
  }

  /** A column's element id for a status, `${status}-tasks`. */
  function ColumnId(status: string): string {
    status + "-tasks"
  }

  /** The status `handleDrop` reads from a column's element id: the id
      itself when it holds no `-tasks`, and otherwise six characters
      shorter, the first `-tasks` cut out. */
  function StatusOfColumn(columnId: string): (r: string)
    ensures !Includes(columnId, "-tasks") ==> r == columnId
    ensures Includes(columnId, "-tasks") ==> |r| + 6 == |columnId|
  {
    ReplaceFirst(columnId, "-tasks", "")
  }

  /** A status in which no `-t` pair starts, so `-tasks` can only be the
      suffix its column id adds. */
  predicate NoMarker(s: string) {
    forall j :: 0 <= j < |s| - 1 ==> !(s[j] == '-' && s[j + 1] == 't')
  }

  /** The column id gives its status back for every status that does not
      itself contain the start of `-tasks`. */
  lemma ColumnIdRoundTrip(s: string)
    requires NoMarker(s)
    ensures StatusOfColumn(ColumnId(s)) == s
  {
    var t := s + "-tasks";
    forall j | 0 <= j < |s| ensures !OccursAt(t, "-tasks", j) {
      if j + 6 <= |t| {
        var w := t[j..j + 6];
        assert w[0] == t[j] && w[1] == t[j + 1];
        if j + 1 < |s| {
          assert t[j] == s[j] && t[j + 1] == s[j + 1];
        } else {
          assert t[j + 1] == '-';
        }
        assert w != "-tasks";
      }
    }
    StripAppended(s, "-tasks");
  }

  /** All four columns read back their own status. */
  lemma ColumnsRoundTrip()
    ensures forall c :: c in Columns ==> StatusOfColumn(ColumnId(c)) == c
  {
    forall c | c in Columns ensures StatusOfColumn(ColumnId(c)) == c {
      assert c == "backlog" || c == "todo" || c == "in-progress" || c == "done";
      if c == "in-progress" {
        assert c[2] == '-' && c[3] == 'p';
      }
      assert NoMarker(c);
      ColumnIdRoundTrip(c);
    }
  }

  // ------------------------------------------------------------- parseInt

  predicate IsDigit(c: char) {
    '0' <= c <= '9'
  }

  predicate AllDigits(s: string) {
    forall i :: 0 <= i < |s| ==> IsDigit(s[i])
  }

  /** The value of a run of decimal digits. */
  function DigitsValue(s: string): nat
    requires AllDigits(s)
  {
    if s == [] then 0 else DigitsValue(s[..|s| - 1]) * 10 + (s[|s| - 1] as int - '0' as int)
  }

  /** The decimal text of a number, as `String(n)` writes it. */
  function Show(n: nat): (s: string)
    ensures |s| >= 1 && AllDigits(s)
    ensures DigitsValue(s) == n
  {
    var d := ['0' + (n % 10) as char];
    if n < 10 then d
    else
      var s := Show(n / 10) + d;
      assert s[..|s| - 1] == Show(n / 10);
      s
  }

  /** The length of the run of digits at the start of `s`. */
  function DigitRun(s: string): (k: nat)
    ensures k <= |s| && AllDigits(s[..k])
    ensures k < |s| ==> !IsDigit(s[k])
  {
    if s == [] || !IsDigit(s[0]) then 0
    else
      var k := DigitRun(s[1..]);
      assert s[..k + 1] == [s[0]] + s[1..][..k];
      k + 1
  }

  /** A run of digits followed by something that is not a digit is read to
      its end. */
  lemma {:induction false} DigitRunOf(s: string, tail: string)
    requires AllDigits(s)
    requires tail == [] || !IsDigit(tail[0])
    ensures DigitRun(s + tail) == |s|
    decreases |s|
  {
    if s != [] {
      assert (s + tail)[1..] == s[1..] + tail;
      DigitRunOf(s[1..], tail);
    }
  }

  predicate IsSpace(c: char) {
    c == ' ' || c == '\t' || c == '\n' || c == '\r'
  }

  /** The leading blanks of `s` dropped: what remains starts with no
      blank. */
  function TrimStart(s: string): (r: string)
    ensures |r| <= |s|
    ensures r == [] || !IsSpace(r[0])
  {
    if s != [] && IsSpace(s[0]) then TrimStart(s[1..]) else s
  }

  /** What `TrimStart` drops is a prefix of blanks and nothing else. */
  lemma {:induction false} TrimStartDropsBlanks(s: string)
    ensures var r := TrimStart(s);
            && r == s[|s| - |r|..]
            && forall i :: 0 <= i < |s| - |r| ==> IsSpace(s[i])
    decreases |s|
  {
    if s != [] && IsSpace(s[0]) {
      TrimStartDropsBlanks(s[1..]);
      var r := TrimStart(s);
      assert r == s[1..][|s| - 1 - |r|..];
      forall i | 1 <= i < |s| - |r| ensures IsSpace(s[i]) {
        assert s[i] == s[1..][i - 1];
      }
    }
  }

  /** The text after one leading sign, if there is one. */
  function Unsigned(t: string): (u: string)
    ensures t != [] && (t[0] == '-' || t[0] == '+') ==> u == t[1..]
    ensures t == [] || (t[0] != '-' && t[0] != '+') ==> u == t
  {
    if t != [] && (t[0] == '-' || t[0] == '+') then t[1..] else t
  }

  /** The value of the digit run at the start of `u`, or NaN (None) when
      there is none. */
  function ReadDigits(u: string): (r: Option<nat>)
    ensures r.None? <==> DigitRun(u) == 0
    ensures r.Some? ==> r.value == DigitsValue(u[..DigitRun(u)])
  {
    var k := DigitRun(u);
    if k == 0 then None else Some(DigitsValue(u[..k]))
  }

  /** `parseInt(s)` in base ten: leading blanks and one sign are skipped,
      then the longest run of digits is read; no digits gives NaN (None). */
  function ParseInt(s: string): (r: Option<int>)
    ensures r.None? <==> DigitRun(Unsigned(TrimStart(s))) == 0
    ensures r.Some? ==>
              var t := TrimStart(s);
              var u := Unsigned(t);
              var v := DigitsValue(u[..DigitRun(u)]) as int;
              r.value == (if t[0] == '-' then -v else v)
  {
    var t := TrimStart(s);
    match ReadDigits(Unsigned(t))
    case None => None
    case Some(v) => Some(if t != [] && t[0] == '-' then -(v as int) else v as int)
  }

  /** The id a task card carries as text parses back to the id, whatever
      non-digit text follows it. */
  lemma ParseShown(n: nat, tail: string)
    requires tail == [] || !IsDigit(tail[0])
    ensures ParseInt(Show(n) + tail) == Some(n)
  {
    var s := Show(n);
    var w := s + tail;
    assert w[0] == s[0];
    ParseUnsigned(w);
    DigitRunOf(s, tail);
    assert w[..|s|] == s;
  }

  /** Text that starts with a digit parses to the value of its digit run. */
  lemma ParseUnsigned(w: string)
    requires w != [] && IsDigit(w[0])
    ensures ParseInt(w) == Some(DigitsValue(w[..DigitRun(w)]) as int)
  {
    assert TrimStart(w) == w;
    assert Unsigned(w) == w;
    assert ReadDigits(w) == Some(DigitsValue(w[..DigitRun(w)]));
  }

  /** Leading blanks are skipped up to the first character that is not
      one. */
  lemma {:induction false} TrimBlanks(blanks: string, w: string)
    requires forall i :: 0 <= i < |blanks| ==> IsSpace(blanks[i])
    requires w == [] || !IsSpace(w[0])
    ensures TrimStart(blanks + w) == w
    decreases |blanks|
  {
    if blanks != [] {
      assert (blanks + w)[1..] == blanks[1..] + w;
      TrimBlanks(blanks[1..], w);
    }
  }

  /** Leading blanks do not change what `parseInt` reads. */
  lemma ParseAfterBlanks(blanks: string, w: string)
    requires forall i :: 0 <= i < |blanks| ==> IsSpace(blanks[i])
    requires w == [] || !IsSpace(w[0])
    ensures ParseInt(blanks + w) == ParseInt(w)
  {
    TrimBlanks(blanks, w);
    assert TrimStart(w) == w;
  }

  /** A sign character in front of a digit: the sign of the value. */
  lemma ParseSignChar(c: char, u: string)
    requires c == '-' || c == '+'
    requires u != [] && IsDigit(u[0])
    ensures var v := DigitsValue(u[..DigitRun(u)]) as int;
            ParseInt([c] + u) == Some(if c == '-' then -v else v)
  {
    var w := [c] + u;
    assert TrimStart(w) == w;
    assert w[1..] == u;
    assert Unsigned(w) == u;
    assert ReadDigits(u) == Some(DigitsValue(u[..DigitRun(u)]));
  }

  /** A sign in front of a digit run is read as the sign of the value. */
  lemma ParseSigned(sign: string, digits: string, rest: string)
    requires sign == "" || sign == "-" || sign == "+"
    requires digits != [] && AllDigits(digits)
    requires rest == [] || !IsDigit(rest[0])
    ensures var w := sign + (digits + rest);
            && !IsSpace(w[0])
            && ParseInt(w) == Some(if sign == "-" then -(DigitsValue(digits) as int) else DigitsValue(digits) as int)
  {
    var u := digits + rest;
    DigitsThenRest(digits, rest);
    if sign == "" {
      assert sign + u == u;
      ParseUnsigned(u);
    } else {
      assert sign == [sign[0]];
      assert sign + u == [sign[0]] + u;
      ParseSignChar(sign[0], u);
    }
  }

  /** A digit run followed by a non-digit: the run is read to its end. */
  lemma DigitsThenRest(digits: string, rest: string)
    requires digits != [] && AllDigits(digits)
    requires rest == [] || !IsDigit(rest[0])
    ensures var u := digits + rest;
            && IsDigit(u[0]) && DigitRun(u) == |digits| && u[..DigitRun(u)] == digits
  {
    DigitRunOf(digits, rest);
    assert (digits + rest)[..|digits|] == digits;
  }

  /** `parseInt` on text built by its grammar: blanks, at most one sign,
      a run of digits and then anything that does not start with a digit
      gives the digits' value with the sign applied. Together with the
      NaN case of `ParseInt`'s contract this covers every text. */
  lemma ParseComposed(blanks: string, sign: string, digits: string, rest: string)
    requires forall i :: 0 <= i < |blanks| ==> IsSpace(blanks[i])
    requires sign == "" || sign == "-" || sign == "+"
    requires digits != [] && AllDigits(digits)
    requires rest == [] || !IsDigit(rest[0])
    ensures ParseInt(blanks + (sign + (digits + rest)))
            == Some(if sign == "-" then -(DigitsValue(digits) as int) else DigitsValue(digits) as int)
  {
    ParseSigned(sign, digits, rest);
    ParseAfterBlanks(blanks, sign + (digits + rest));
  }

  /** `handleDrop`: the dragged card's id text and the target column's id
      decide the move; a NaN or zero id, or an empty status, moves nothing. */
  function HandleDrop(b: Board, idText: string, columnId: string, now: Stamp): (r: Board)
    ensures ParseInt(idText).None? || ParseInt(idText) == Some(0) ==> r == b
    ensures StatusOfColumn(columnId) == "" ==> r == b
    ensures ParseInt(idText).Some? && ParseInt(idText) != Some(0) && StatusOfColumn(columnId) != "" ==>
              r == MoveTask(b, ParseInt(idText).value, StatusOfColumn(columnId), now)
    ensures Valid(b) ==> Valid(r)
  {
    var id := ParseInt(idText);
    var status := StatusOfColumn(columnId);
    if id.None? || id.value == 0 || status == "" then b
    else MoveTask(b, id.value, status, now)
  }

  /** Dropping a task's card on a column moves that task to that column. */
  lemma DropMovesToColumn(b: Board, id: nat, column: string, now: Stamp)
    requires id != 0 && column in Columns
    ensures HandleDrop(b, Show(id), ColumnId(column), now) == MoveTask(b, id, column, now)
  {
    ParseShown(id, "");
    assert Show(id) + "" == Show(id);
    ColumnsRoundTrip();
  }
}

=== FILE: lives.dfy ===
/** The UI manager's game counters (apps/pixelGame/js/ui-manager.js): the
    lives counter with its three-heart display and the collectables count,
    plus whether the game-over panel is shown. */
module Lives {

  /** Number of hearts the lives display draws. */
  const HeartCount: nat := 3

  datatype Ui = Ui(lives: int, collected: int, gameOverShown: bool)

  /** A freshly constructed manager. */
  function New(): (u: Ui)
    ensures u.lives == 3 && u.collected == 0 && !u.gameOverShown
  {
    Ui(HeartCount, 0, false)
  }

  /** `loseLife`: one life fewer, the game-over panel shown once the count
      reaches zero or below, and the returned flag says whether it did.
      There is no lower bound: the count keeps falling below zero. */
  function LoseLife(u: Ui): (r: (Ui, bool))
    ensures r.0.lives == u.lives - 1
    ensures r.1 <==> r.0.lives <= 0
    ensures r.0.collected == u.collected
    ensures r.0.gameOverShown <==> u.gameOverShown || r.1
  {
    var lives := u.lives - 1;
    (u.(lives := lives, gameOverShown := u.gameOverShown || lives <= 0), lives <= 0)
  }

  function GetLives(u: Ui): int {
    u.lives
  }

  /** `setLives`: the stored count is exactly the given one. */
  function SetLives(u: Ui, n: int): (r: Ui)
    ensures GetLives(r) == n
    ensures r.collected == u.collected && r.gameOverShown == u.gameOverShown
  {
    u.(lives := n)
  }

  /** `setCollectablesCollected`: the stored count is exactly the given one. */
  function SetCollected(u: Ui, c: int): (r: Ui)
    ensures r.collected == c
    ensures r.lives == u.lives && r.gameOverShown == u.gameOverShown
  {
    u.(collected := c)
  }

  /** The restart button's handler: panel hidden, three lives, no
      collectables — the same counters as a fresh manager. */
  function Restart(u: Ui): (r: Ui)
    ensures r == New()
  {
    Ui(HeartCount, 0, false)
  }

  /** Heart `i` is drawn with the `lost` class when `i >= lives`. */
  predicate HeartLost(i: int, lives: int) {
    i >= lives
  }

  /** The `lost` flags of the hearts in drawing order, which runs from heart
      `from` down to heart 0 (`for (let i = 2; i >= 0; i--)`). */
  function LostFlags(from: int, lives: int): (flags: seq<bool>)
    requires from >= -1
    ensures |flags| == from + 1
    ensures forall k :: 0 <= k < |flags| ==> (flags[k] <==> HeartLost(from - k, lives))
    decreases from + 1
  {
    if from < 0 then [] else [HeartLost(from, lives)] + LostFlags(from - 1, lives)
  }

  /** How many of the given flags are set. */
  function CountSet(flags: seq<bool>): nat {
    if flags == [] then 0 else (if flags[0] then 1 else 0) + CountSet(flags[1..])
  }

  /** The hearts the display marks lost. */
  function LostHearts(lives: int): seq<bool> {
    LostFlags(HeartCount - 1, lives)
  }

  /** The number of lost hearts from hearts `from`..0 is the number of those
      indices at or above `lives`. */
  lemma {:induction false} LostCountFrom(from: int, lives: int)
    requires from >= -1
    ensures CountSet(LostFlags(from, lives)) ==
            if lives <= 0 then from + 1
            else if lives > from then 0
            else from + 1 - lives
    decreases from + 1
  {
    if from >= 0 {
      var flags := LostFlags(from, lives);
      assert flags[1..] == LostFlags(from - 1, lives);
      LostCountFrom(from - 1, lives);
    }
  }

  /** For a lives count in 0..3 exactly `3 - lives` hearts are drawn lost;
      below zero all three, above three none. */
  lemma LostHeartCount(lives: int)
    ensures 0 <= lives <= 3 ==> CountSet(LostHearts(lives)) == 3 - lives
    ensures lives < 0 ==> CountSet(LostHearts(lives)) == 3
    ensures lives > 3 ==> CountSet(LostHearts(lives)) == 0
  {
    LostCountFrom(HeartCount - 1, lives);
  }

  /** Starting from a fresh manager, the first two lost lives do not end the
      game and the third does, leaving every heart lost. */
  lemma ThirdLifeEndsGame()
    ensures var (u1, over1) := LoseLife(New());
            var (u2, over2) := LoseLife(u1);
            var (u3, over3) := LoseLife(u2);
            !over1 && !over2 && over3 && u3.lives == 0 && u3.gameOverShown
            && CountSet(LostHearts(u3.lives)) == 3
  {
    LostHeartCount(0);
  }
}

=== FILE: maybe.dfy ===
/** The optional value that JavaScript expresses with `undefined`: an absent
    object field, the result of `Array.prototype.find` that matched nothing. */
module Maybe {

  datatype Option<+T> = None | Some(value: T) {

    /** The value, or `default` when there is none (JavaScript's `x || d`
        for a field whose only falsy value is `undefined`). */
    function GetOr(default: T): T {
      match this
      case Some(v) => v
      case None => default
    }
  }
}

=== FILE: parallax.dfy ===
/** The scrolling background of the platformer
    (apps/pixelGame/js/parallax-manager.js): an offset that moves against the
    held direction key and wraps around the width of one background copy. */
module Parallax {

  datatype State = State(backgroundX: real, lastPlayerX: real)

  /** A new manager, and the state `reset` restores. */
  function Initial(): State {
    State(0.0, 0.0)
  }

  /** The width one background copy is drawn at: the 2000x400 image scaled
      to the canvas height. */
  function ScaledWidth(canvasHeight: real): (w: real)
    requires canvasHeight > 0.0
    ensures w > 0.0
    ensures w == 5.0 * canvasHeight
  {
    2000.0 * (canvasHeight / 400.0)
  }

  lemma MulMono(a: real, b: real, m: real)
    requires a <= b && m > 0.0
    ensures a * m <= b * m
  {
  }

  lemma MulStrictMono(a: real, b: real, m: real)
    requires a < b && m > 0.0
    ensures a * m < b * m
  {
  }

  /** JavaScript's `x % m` for a positive `x` and a positive `m`, together
      with the number of whole `m`s taken away: `x == q * m + r`. */
  function PosDivMod(x: real, m: real): (qr: (nat, real))
    requires x > 0.0 && m > 0.0
    ensures 0.0 <= qr.1 < m
    ensures x == (qr.0 as real) * m + qr.1
  {
    var q := x / m;
    var k := q.Floor;
    assert q * m == x;
    MulMono(k as real, q, m);
    MulStrictMono(q, (k as real) + 1.0, m);
    assert ((k as real) + 1.0) * m == (k as real) * m + m;
    assert k >= 0;
    var r := x - (k as real) * m;
    assert x < (k as real) * m + m;
    assert r < m;
    (k, r)
  }

  /** The offset after the held keys moved it: right wins over left. */
  function Scrolled(x: real, speed: real, right: bool, left: bool): real {
    if right then x - speed else if left then x + speed else x
  }

  /** The wrap rule: at or past one width to the left, back to zero; right
      of zero, back into the copy to the left. */
  function Wrap(x: real, w: real): (r: real)
    requires w > 0.0
    ensures -w <= r <= 0.0
    ensures x <= -w ==> r == 0.0
    ensures -w < x <= 0.0 ==> r == x
    ensures x > 0.0 ==> x == r + ((PosDivMod(x, w).0 + 1) as real) * w
  {
    if x <= -w then 0.0
    else if x > 0.0 then
      var (q, m) := PosDivMod(x, w);
      assert ((q + 1) as real) * w == (q as real) * w + w;
      -w + m
    else x
  }

  /** `update(player, keys)`: record the player's x, move the offset, wrap it. */
  function Update(s: State, canvasHeight: real, backgroundSpeed: real,
                  playerX: real, right: bool, left: bool): (r: State)
    requires canvasHeight > 0.0
    ensures r.lastPlayerX == playerX
    ensures -ScaledWidth(canvasHeight) <= r.backgroundX <= 0.0
    ensures var x := Scrolled(s.backgroundX, backgroundSpeed, right, left);
            -ScaledWidth(canvasHeight) < x <= 0.0 ==> r.backgroundX == x
  {
    var w := ScaledWidth(canvasHeight);
    State(Wrap(Scrolled(s.backgroundX, backgroundSpeed, right, left), w), playerX)
  }

  function Reset(s: State): (r: State)
    ensures r.backgroundX == 0.0 && r.lastPlayerX == 0.0
  {
    Initial()
  }

  /** With right held the offset drops by the speed, with only left held it
      rises by it, and with neither it stays, as long as no wrap happens;
      holding both behaves as holding right. */
  lemma ScrollDirection(s: State, canvasHeight: real, speed: real, playerX: real, right: bool, left: bool)
    requires canvasHeight > 0.0
    requires -ScaledWidth(canvasHeight) < Scrolled(s.backgroundX, speed, right, left) <= 0.0
    ensures var r := Update(s, canvasHeight, speed, playerX, right, left);
            && (right ==> r.backgroundX == s.backgroundX - speed)
            && (!right && left ==> r.backgroundX == s.backgroundX + speed)
            && (!right && !left ==> r.backgroundX == s.backgroundX)
            && (right && left ==> r == Update(s, canvasHeight, speed, playerX, true, false))
  {
  }

  /** Once inside [-W, 0] the offset stays there frame after frame, whatever
      the speed and keys. */
  lemma {:induction false} StaysInRange(s: State, canvasHeight: real, speed: real,
                                        xs: seq<real>, keys: seq<(bool, bool)>)
    requires canvasHeight > 0.0
    requires |xs| == |keys|
    requires -ScaledWidth(canvasHeight) <= s.backgroundX <= 0.0
    ensures var r := Run(s, canvasHeight, speed, xs, keys);
            -ScaledWidth(canvasHeight) <= r.backgroundX <= 0.0
    decreases |xs|
  {
    if xs != [] {
      StaysInRange(Update(s, canvasHeight, speed, xs[0], keys[0].0, keys[0].1),
                   canvasHeight, speed, xs[1..], keys[1..]);
    }
  }

  /** Successive frames: player x positions and held (right, left) keys. */
  function Run(s: State, canvasHeight: real, speed: real, xs: seq<real>, keys: seq<(bool, bool)>): State
    requires canvasHeight > 0.0
    requires |xs| == |keys|
    decreases |xs|
  {
    if xs == [] then s
    else Run(Update(s, canvasHeight, speed, xs[0], keys[0].0, keys[0].1), canvasHeight, speed, xs[1..], keys[1..])
  }
}

=== FILE: physics.dfy ===
/** Per-frame player physics of the platformer (apps/pixelGame/js/game.js):
    the ground/platform probe that decides whether the player can jump, the
    gravity rule that spares an upward jump velocity, horizontal movement
    with friction, and the clamp to the canvas. */
module Physics {
  import opened Geometry

  /** The configured constants the physics reads (apps/pixelGame/js/config.js)
      together with the canvas size, which the browser window decides. */
  datatype Config = Config(
    canvasWidth: real,
    canvasHeight: real,
    gravity: real,
    speed: real,
    jumpHeight: real,
    width: real,
    height: real,
    crouchHeight: real,
    enemySpeed: real,
    backgroundSpeed: real)

  /** The values of the game's configuration file for a given window size. */
  function GameConfig(canvasWidth: real, canvasHeight: real): Config {
    Config(canvasWidth, canvasHeight, 0.5, 5.0, 9.0, 45.0, 60.0, 40.0, 2.0, 0.5)
  }

  /** The player's rectangle, its velocity (`playerVelocity`) and the
      `isJumping` flag. */
  datatype Player = Player(shape: Rect, vel: Vec, isJumping: bool)

  datatype Keys = Keys(right: bool, left: bool)

  /** How far above its bottom edge a platform counts as ground to jump
      from, and how close to the ground level counts as standing on it. */
  const RaycastDistance: real := 10.0
  const GroundTolerance: real := 5.0

  /** Friction factor per frame with no movement key held, and the speed
      below which the player stops. */
  const Friction: real := 0.8
  const StopBelow: real := 0.1

  /** The platform is just below the player: its top lies within the probe
      distance under the player's bottom edge, and the two overlap
      horizontally. */
  predicate Supports(p: Rect, platform: Rect) {
    && p.Bottom() <= platform.Top()
    && p.Bottom() + RaycastDistance >= platform.Top()
    && p.Right() > platform.Left()
    && p.Left() < platform.Right()
  }

  /** The platform loop of `canPlayerJump`, which returns on the first hit. */
  function RaycastHit(p: Rect, platforms: seq<Rect>): (hit: bool)
    ensures hit <==> exists i :: 0 <= i < |platforms| && Supports(p, platforms[i])
  {
    if platforms == [] then false
    else if Supports(p, platforms[0]) then true
    else
      var hit := RaycastHit(p, platforms[1..]);
      assert hit ==> exists i :: 1 <= i < |platforms| && Supports(p, platforms[i]) by {
        if hit {
          var j :| 0 <= j < |platforms[1..]| && Supports(p, platforms[1..][j]);
          assert platforms[j + 1] == platforms[1..][j];
        }
      }
      assert (exists i :: 1 <= i < |platforms| && Supports(p, platforms[i])) ==> hit by {
        if i :| 1 <= i < |platforms| && Supports(p, platforms[i]) {
          assert platforms[1..][i - 1] == platforms[i];
        }
      }
      hit
  }

  /** `canPlayerJump`: near the ground level, or a platform just below. The
      loop's early return makes it true exactly when some platform supports
      the player, whichever one the loop happens to meet first. */
  predicate CanJump(p: Rect, groundLevel: real, platforms: seq<Rect>): (b: bool)
    ensures b <==> p.Top() >= groundLevel - GroundTolerance
                   || exists i :: 0 <= i < |platforms| && Supports(p, platforms[i])
  {
    p.Top() >= groundLevel - GroundTolerance || RaycastHit(p, platforms)
  }

  /** The gravity rule at the start of `updatePlayer`: in the air the fall
      speed grows by gravity; on a surface a downward velocity is cancelled
      (ending the jump), while an upward one — the jump just started — is
      left alone. Nothing else about the player changes. */
  function ApplyGravity(p: Player, onSurface: bool, gravity: real): (r: Player)
    ensures r.shape == p.shape && r.vel.x == p.vel.x
    ensures !onSurface ==> r.vel.y == p.vel.y + gravity && r.isJumping == p.isJumping
    ensures onSurface && p.vel.y > 0.0 ==> r.vel.y == 0.0 && !r.isJumping
    ensures onSurface && p.vel.y <= 0.0 ==> r == p
  {
    if !onSurface then p.(vel := p.vel.(y := p.vel.y + gravity))
    else if p.vel.y > 0.0 then p.(vel := p.vel.(y := 0.0), isJumping := false)
    else p
  }

  function Abs(x: real): real {
    if x < 0.0 then -x else x
  }

  /** One frame of friction: the speed decays by the friction factor and a
      speed that drops below the threshold becomes zero. The speed shrinks
      at least by the factor, the sign never flips, and a remaining velocity
      is never below the threshold. A decayed speed at or above the
      threshold is kept as it is; the player stops exactly when it falls
      below. */
  function Decay(vx: real): (r: real)
    ensures Abs(r) <= Friction * Abs(vx)
    ensures (vx >= 0.0 ==> r >= 0.0) && (vx <= 0.0 ==> r <= 0.0)
    ensures r == 0.0 || Abs(r) >= StopBelow
    ensures Friction * Abs(vx) >= StopBelow ==> r == Friction * vx
    ensures r == 0.0 <==> Friction * Abs(vx) < StopBelow
  {
    var v := vx * Friction;
    if Abs(v) < StopBelow then 0.0 else v
  }

  /** The horizontal velocity for this frame: right wins over left, and with
      neither held the velocity decays. */
  function HorizontalVelocity(vx: real, keys: Keys, speed: real): (r: real)
    ensures keys.right ==> r == speed
    ensures !keys.right && keys.left ==> r == -speed
    ensures !keys.right && !keys.left ==> r == Decay(vx)
  {
    if keys.right then speed else if keys.left then -speed else Decay(vx)
  }

  /** `updatePlayer`: gravity decided by the probe at the start of the frame,
      horizontal velocity, the move, the clamp to the canvas sides and to
      the ground level of the start of the frame, and finally the new ground
      level for the player's current height. The second component is that
      new ground level. */
  function UpdatePlayer(cfg: Config, p: Player, keys: Keys, groundLevel: real, platforms: seq<Rect>)
    : (r: (Player, real))
    ensures r.0.shape.width == p.shape.width && r.0.shape.height == p.shape.height
    ensures r.0.shape.pos.x <= cfg.canvasWidth - p.shape.width
    ensures cfg.canvasWidth >= p.shape.width ==> 0.0 <= r.0.shape.pos.x
    ensures r.0.shape.pos.y <= groundLevel
    ensures r.1 == cfg.canvasHeight - p.shape.height
    ensures r.0.vel.x != 0.0 ==> r.0.shape.pos.x == p.shape.pos.x + r.0.vel.x
    ensures r.0.vel.y != 0.0 ==> r.0.shape.pos.y == p.shape.pos.y + r.0.vel.y
    ensures r.0.vel.x != 0.0 ==> r.0.vel.x == HorizontalVelocity(p.vel.x, keys, cfg.speed)
    ensures r.0.vel.y != 0.0 ==>
              r.0.vel.y == ApplyGravity(p, CanJump(p.shape, groundLevel, platforms), cfg.gravity).vel.y
    ensures var vx := HorizontalVelocity(p.vel.x, keys, cfg.speed);
            var x := p.shape.pos.x + vx;
            && (0.0 <= x < cfg.canvasWidth - p.shape.width ==> r.0.shape.pos.x == x && r.0.vel.x == vx)
            && (x < 0.0 && 0.0 < cfg.canvasWidth - p.shape.width ==> r.0.shape.pos.x == 0.0 && r.0.vel.x == 0.0)
            && (x >= cfg.canvasWidth - p.shape.width ==>
                  r.0.shape.pos.x == cfg.canvasWidth - p.shape.width && r.0.vel.x == 0.0)
    ensures var g := ApplyGravity(p, CanJump(p.shape, groundLevel, platforms), cfg.gravity);
            var y := p.shape.pos.y + g.vel.y;
            && (y > groundLevel ==> r.0.shape.pos.y == groundLevel && r.0.vel.y == 0.0 && !r.0.isJumping)
            && (y <= groundLevel ==> r.0.shape.pos.y == y && r.0.vel.y == g.vel.y && r.0.isJumping == g.isJumping)
  {
    var g := ApplyGravity(p, CanJump(p.shape, groundLevel, platforms), cfg.gravity);
    var vx := HorizontalVelocity(g.vel.x, keys, cfg.speed);
    var x := p.shape.pos.x + vx;
    var y := p.shape.pos.y + g.vel.y;
    // left side
    var (x1, vx1) := if x < 0.0 then (0.0, 0.0) else (x, vx);
    // right side
    var (x2, vx2) := if x1 >= cfg.canvasWidth - p.shape.width then (cfg.canvasWidth - p.shape.width, 0.0) else (x1, vx1);
    // ground
    var (y1, vy1, jumping) := if y > groundLevel then (groundLevel, 0.0, false) else (y, g.vel.y, g.isJumping);
    (Player(p.shape.MoveTo(x2, y1), Vec(vx2, vy1), jumping), cfg.canvasHeight - p.shape.height)
  }

  /** A jump is not cancelled by the frame that follows it: standing on a
      surface with the upward jump velocity, the player rises by the full
      jump height and keeps both the velocity and the jumping flag. */
  lemma JumpSurvivesFirstFrame(cfg: Config, p: Player, keys: Keys, groundLevel: real, platforms: seq<Rect>)
    requires cfg.jumpHeight > 0.0
    requires CanJump(p.shape, groundLevel, platforms)
    requires p.vel.y == -cfg.jumpHeight && p.isJumping
    requires p.shape.pos.y <= groundLevel
    ensures var (q, _) := UpdatePlayer(cfg, p, keys, groundLevel, platforms);
            q.vel.y == -cfg.jumpHeight && q.isJumping
            && q.shape.pos.y == p.shape.pos.y - cfg.jumpHeight
  {
  }

  /** A speed after n frames of the friction factor alone. */
  function Shrunk(a: real, n: nat): real {
    if n == 0 then a else Friction * Shrunk(a, n - 1)
  }

  /** The horizontal velocity after n frames with no movement key held. */
  function Coast(vx: real, n: nat): real {
    if n == 0 then vx else Decay(Coast(vx, n - 1))
  }

  /** Coasting shrinks the speed at least geometrically. */
  lemma {:induction false} CoastBound(vx: real, n: nat)
    ensures Abs(Coast(vx, n)) <= Shrunk(Abs(vx), n)
  {
    if n > 0 {
      CoastBound(vx, n - 1);
    }
  }

  lemma {:induction false} ShrunkMono(a: real, b: real, n: nat)
    requires a <= b
    ensures Shrunk(a, n) <= Shrunk(b, n)
  {
    if n > 0 {
      ShrunkMono(a, b, n - 1);
    }
  }

  /** Six frames of friction scale a speed by 0.8^6. */
  lemma ShrunkSix(a: real)
    ensures Shrunk(a, 6) == 0.262144 * a
  {
    assert Shrunk(a, 1) == 0.8 * a;
    assert Shrunk(a, 2) == 0.64 * a;
    assert Shrunk(a, 3) == 0.512 * a;
    assert Shrunk(a, 4) == 0.4096 * a;
    assert Shrunk(a, 5) == 0.32768 * a;
  }

  lemma {:induction false} ShrunkCompose(a: real, n: nat, m: nat)
    ensures Shrunk(a, n + m) == Shrunk(Shrunk(a, n), m)
    decreases m
  {
    if m > 0 {
      ShrunkCompose(a, n, m - 1);
    }
  }

  /** Released at walking speed, the player comes to a complete stop within
      eighteen frames: 5 * 0.8^18 is below the stopping threshold. */
  lemma CoastStops(vx: real)
    requires Abs(vx) <= 5.0
    ensures Coast(vx, 18) == 0.0
  {
    CoastBound(vx, 18);
    ShrunkMono(Abs(vx), 5.0, 18);
    assert Shrunk(5.0, 18) < StopBelow by {
      ShrunkCompose(5.0, 6, 12);
      ShrunkCompose(Shrunk(5.0, 6), 6, 6);
      ShrunkSix(5.0);
      ShrunkSix(Shrunk(5.0, 6));
      ShrunkSix(Shrunk(Shrunk(5.0, 6), 6));
    }
    assert Coast(vx, 18) == Decay(Coast(vx, 17));
  }

  /** The crouch key press: the rectangle loses the height difference and
      moves up by it, so its top edge rises by the difference and its bottom
      edge by twice the difference when the player was at full height.
      Velocity, jump flag, x and width are kept. */
  function Crouch(cfg: Config, p: Player): (r: Player)
    ensures r.vel == p.vel && r.isJumping == p.isJumping
    ensures r.shape.pos.x == p.shape.pos.x && r.shape.width == p.shape.width
    ensures r.shape.height == cfg.crouchHeight
    ensures r.shape.Top() == p.shape.Top() - (cfg.height - cfg.crouchHeight)
    ensures r.shape.Bottom() == p.shape.Bottom() - (cfg.height - cfg.crouchHeight) - (p.shape.height - cfg.crouchHeight)
  {
    var d := cfg.height - cfg.crouchHeight;
    p.(shape := Rect(Vec(p.shape.pos.x, p.shape.pos.y - d), p.shape.width, cfg.crouchHeight))
  }

  /** The crouch key release: back down by the difference, full height.
      From crouch height the bottom edge drops by twice the difference. */
  function Stand(cfg: Config, p: Player): (r: Player)
    ensures r.vel == p.vel && r.isJumping == p.isJumping
    ensures r.shape.pos.x == p.shape.pos.x && r.shape.width == p.shape.width
    ensures r.shape.height == cfg.height
    ensures r.shape.Top() == p.shape.Top() + (cfg.height - cfg.crouchHeight)
    ensures r.shape.Bottom() == p.shape.Bottom() + (cfg.height - cfg.crouchHeight) + (cfg.height - p.shape.height)
  {
    var d := cfg.height - cfg.crouchHeight;
    p.(shape := Rect(Vec(p.shape.pos.x, p.shape.pos.y + d), p.shape.width, cfg.height))
  }

  /** Pressing and releasing the crouch key from full height gives back the
      player exactly; the press itself raises the bottom edge by twice the
      height difference instead of keeping it in place. */
  lemma CrouchRoundTrip(cfg: Config, p: Player)
    requires p.shape.height == cfg.height
    ensures Stand(cfg, Crouch(cfg, p)) == p
    ensures Crouch(cfg, p).shape.height == cfg.crouchHeight
    ensures Crouch(cfg, p).shape.Bottom() == p.shape.Bottom() - 2.0 * (cfg.height - cfg.crouchHeight)
  {
  }
}

=== FILE: platformer.dfy ===
/** The running platformer of apps/pixelGame/js/game.js: the game state the
    page's closure keeps, the level built from a level file, the per-frame
    update, the collision pass with its counters, lives and latches, the
    keyboard handlers, and the deferred level advance after a checkpoint. */
module Platformer {
  import opened Geometry
  import opened Maybe
  import Lives
  import Parallax
  import opened Physics
  import opened World
  import opened Boxes

  /** The greeting an NPC gets when the configuration has no message for it. */
  const DefaultNpcMessage: string := "Hello! Keep going to find more collectables!"

  /** The `npcMessages` table of the game's configuration, by level. */
  const NpcMessages: map<int, seq<string>> := map[
    1 := ["Hello there! Welcome to level 1. Collect all the gold coins to proceed!",
          "Watch out for enemies! They'll reduce your lives.",
          "Use arrow keys to move and space to jump!"],
    2 := ["Level 2 is more challenging! Be careful with the platforms.",
          "Remember, you can crouch with the S key!",
          "The checkpoint is at the end - reach it to complete the level!"],
    3 := ["Final level! This one has more complex platforms.",
          "You're doing great! Almost there!",
          "Collect all coins to get the best score!"]]

  /** An NPC: the area that triggers it, its message, whether its dialog
      marker is up, and whether it was ever met. */
  datatype Npc = Npc(showLayer: Rect, message: string, showHideLayer: bool, interacted: bool)

  /** The rectangles a level file provides, already scaled to the canvas. */
  datatype Layout = Layout(
    platforms: seq<Rect>,
    collectables: seq<Rect>,
    checkpoints: seq<Rect>,
    enemies: seq<Rect>,
    boxes: seq<Rect>,
    npcs: seq<Rect>)

  /** The live entities of the current level. */
  datatype Level = Level(
    platforms: seq<Rect>,
    collectables: seq<Rect>,
    checkpoints: seq<Checkpoint>,
    enemies: seq<Enemy>,
    boxes: seq<Box>,
    npcs: seq<Npc>)

  /** The game state. `pendingAdvances` counts the level advances scheduled
      by claimed checkpoints whose two-second timers have not fired yet. */
  datatype Game = Game(
    cfg: Config,
    started: bool,
    over: bool,
    level: int,
    collected: int,
    player: Player,
    groundLevel: real,
    keys: Keys,
    world: Level,
    ui: Lives.Ui,
    pendingAdvances: nat,
    parallax: Parallax.State)

  /** `getNPCMessage`: the configured message for the NPC, unless there is
      none or it is empty, in which case the default greeting. An NPC never
      gets an empty message. */
  function GetNpcMessage(messages: map<int, seq<string>>, level: int, index: nat): (r: string)
    ensures r != []
    ensures level in messages && index < |messages[level]| && messages[level][index] != [] ==>
              r == messages[level][index]
    ensures r != DefaultNpcMessage ==>
              level in messages && index < |messages[level]| && r == messages[level][index]
  {
    if level in messages && index < |messages[level]| && messages[level][index] != [] then
      messages[level][index]
    else
      DefaultNpcMessage
  }

  /** Every level has its three messages, and a fourth NPC on a level falls
      back to the default greeting. */
  lemma ConfiguredMessages()
    ensures GetNpcMessage(NpcMessages, 2, 1) == "Remember, you can crouch with the S key!"
    ensures GetNpcMessage(NpcMessages, 1, 3) == DefaultNpcMessage
    ensures GetNpcMessage(NpcMessages, 4, 0) == DefaultNpcMessage
  {
  }

  /** A level just loaded: no checkpoint claimed, every enemy walking right,
      every box at rest and no NPC met yet. */
  predicate Fresh(l: Level) {
    && (forall i :: 0 <= i < |l.checkpoints| ==> !l.checkpoints[i].claimed)
    && (forall i :: 0 <= i < |l.enemies| ==> l.enemies[i].direction == 1)
    && (forall i :: 0 <= i < |l.boxes| ==> l.boxes[i].vy == 0.0)
    && (forall i :: 0 <= i < |l.npcs| ==> !l.npcs[i].showHideLayer && !l.npcs[i].interacted)
  }

  /** The entity lists `loadSVGLevel` builds from a level file's rectangles:
      one entity per rectangle in file order, with the level's NPC messages
      looked up by position. */
  function BuildLevel(level: int, layout: Layout): (r: Level)
    ensures Fresh(r)
    ensures r.platforms == layout.platforms && r.collectables == layout.collectables
    ensures |r.checkpoints| == |layout.checkpoints| && |r.enemies| == |layout.enemies|
    ensures |r.boxes| == |layout.boxes| && |r.npcs| == |layout.npcs|
    ensures forall i :: 0 <= i < |r.checkpoints| ==> r.checkpoints[i].shape == layout.checkpoints[i]
    ensures forall i :: 0 <= i < |r.enemies| ==> r.enemies[i].shape == layout.enemies[i]
    ensures forall i :: 0 <= i < |r.boxes| ==> r.boxes[i].shape == layout.boxes[i]
    ensures forall i :: 0 <= i < |r.npcs| ==>
              r.npcs[i].showLayer == layout.npcs[i]
              && r.npcs[i].message == GetNpcMessage(NpcMessages, level, i)
  {
    Level(
      layout.platforms,
      layout.collectables,
      seq(|layout.checkpoints|, i requires 0 <= i < |layout.checkpoints| => Checkpoint(layout.checkpoints[i], false)),
      seq(|layout.enemies|, i requires 0 <= i < |layout.enemies| => Enemy(layout.enemies[i], 1)),
      seq(|layout.boxes|, i requires 0 <= i < |layout.boxes| => Box(layout.boxes[i], 0.0)),
      seq(|layout.npcs|, i requires 0 <= i < |layout.npcs| =>
        Npc(layout.npcs[i], GetNpcMessage(NpcMessages, level, i), false, false)))
  }

  /** What the game keeps true at every event: the level number is one of
      the three levels, every enemy walks one way or the other, and an NPC's
      dialog marker is only ever up for an NPC that was met. */
  predicate Inv(g: Game) {
    && 1 <= g.level <= LevelCount
    && (forall i :: 0 <= i < |g.world.enemies| ==>
          g.world.enemies[i].direction == 1 || g.world.enemies[i].direction == -1)
    && (forall i :: 0 <= i < |g.world.npcs| ==>
          g.world.npcs[i].showHideLayer ==> g.world.npcs[i].interacted)
  }

  /** The page as loaded: not started, level one, nothing collected, the
      player at the spawn point at full height with the ground level below
      it, no key held, no level loaded yet. */
  function Initial(cfg: Config): (g: Game)
    ensures Inv(g) && !g.started && !g.over
    ensures g.collected == 0 && g.pendingAdvances == 0 && g.ui == Lives.New()
    ensures g.groundLevel == cfg.canvasHeight - g.player.shape.height
    ensures g.player.shape == Rect(Vec(SpawnX, SpawnY), cfg.width, cfg.height)
  {
    Game(cfg, false, false, 1, 0,
         Player(Rect(Vec(SpawnX, SpawnY), cfg.width, cfg.height), Vec(0.0, 0.0), false),
         cfg.canvasHeight - cfg.height, Keys(false, false),
         Level([], [], [], [], [], []), Lives.New(), 0, Parallax.Initial())
  }

  /** `initGame`: the current level's file replaces every entity list, and
      the interface's collectables count is set to the game's. */
  function InitGame(g: Game, layout: Layout): (r: Game)
    ensures r.world == BuildLevel(g.level, layout) && Fresh(r.world)
    ensures r.ui.collected == g.collected
    ensures r.ui.lives == g.ui.lives && r.ui.gameOverShown == g.ui.gameOverShown
    ensures r.(world := g.world, ui := g.ui) == g
    ensures Inv(g) ==> Inv(r)
  {
    g.(world := BuildLevel(g.level, layout), ui := Lives.SetCollected(g.ui, g.collected))
  }

  /** The start button: the game starts and the current level loads. */
  function Start(g: Game, layout: Layout): (r: Game)
    ensures r.started && r.over == g.over && r.level == g.level
    ensures r.world == BuildLevel(g.level, layout)
    ensures Inv(g) ==> Inv(r)
  {
    InitGame(g.(started := true), layout)
  }

  /** The enemy pass of `checkCollisions`, in order: each enemy touching the
      player where the player now is costs a life and sends the player back
      to the spawn point; the game is over once a hit leaves no lives. The
      last component is the number of hits. */
  function HitEnemies(p: Player, ui: Lives.Ui, over: bool, es: seq<Enemy>)
    : (r: (Player, Lives.Ui, bool, nat))
    ensures r.3 <= |es|
    ensures r.1.lives == ui.lives - r.3 && r.1.collected == ui.collected
    ensures r.2 <==> over || (r.3 > 0 && r.1.lives <= 0)
    ensures r.1.gameOverShown <==> ui.gameOverShown || (r.3 > 0 && r.1.lives <= 0)
    ensures r.3 == 0 ==> r.0 == p && r.1 == ui && r.2 == over
    ensures r.3 > 0 ==> r.0 == p.(shape := p.shape.MoveTo(SpawnX, SpawnY))
    ensures r.3 > 0 <==> exists i :: 0 <= i < |es| && Overlaps(p.shape, es[i].shape)
    decreases |es|
  {
    if es == [] then (p, ui, over, 0)
    else if Overlaps(p.shape, es[0].shape) then
      var (ui1, ended) := Lives.LoseLife(ui);
      var p1 := p.(shape := p.shape.MoveTo(SpawnX, SpawnY));
      var (p2, ui2, over2, n) := HitEnemies(p1, ui1, over || ended, es[1..]);
      (p2, ui2, over2, n + 1)
    else
      var r := HitEnemies(p, ui, over, es[1..]);
      assert (exists i :: 0 <= i < |es| && Overlaps(p.shape, es[i].shape))
             ==> exists i :: 0 <= i < |es[1..]| && Overlaps(p.shape, es[1..][i].shape) by {
        if i :| 0 <= i < |es| && Overlaps(p.shape, es[i].shape) {
          assert es[1..][i - 1] == es[i];
        }
      }
      r
  }

  /** The NPC pass of `checkCollisions`: the first touch of an NPC raises its
      dialog marker and marks it met; a met NPC is never touched again. */
  function Meet(p: Rect, n: Npc): (r: Npc)
    ensures r.showLayer == n.showLayer && r.message == n.message
    ensures r.interacted <==> n.interacted || Overlaps(p, n.showLayer)
    ensures r.showHideLayer <==> n.showHideLayer || (!n.interacted && Overlaps(p, n.showLayer))
    ensures n.interacted ==> r == n
  {
    if Overlaps(p, n.showLayer) && !n.interacted then n.(showHideLayer := true, interacted := true)
    else n
  }

  function MeetNpcs(p: Rect, ns: seq<Npc>): (r: seq<Npc>)
    ensures |r| == |ns|
    ensures forall i :: 0 <= i < |ns| ==> r[i] == Meet(p, ns[i])
  {
    seq(|ns|, i requires 0 <= i < |ns| => Meet(p, ns[i]))
  }

  /** `checkCollisions`: collectables (with the skipping splice), then
      checkpoints, then enemies, then NPCs, each against the player as the
      previous passes left it.
      - every collectable that disappears is counted, so the count plus the
        collectables left is unchanged, and the interface shows the new
        count whenever something was collected;
      - every newly claimed checkpoint schedules one level advance;
      - a game that is over stays over, and a game that ends here has no
        lives left; the level and the other lists do not change. */
  function CheckCollisions(g: Game): (r: Game)
    ensures r.collected + |r.world.collectables| == g.collected + |g.world.collectables|
    ensures r.collected >= g.collected
    ensures r.collected > g.collected ==> r.ui.collected == r.collected
    ensures r.collected == g.collected ==> r.ui.collected == g.ui.collected
    ensures ClaimedCount(r.world.checkpoints) - ClaimedCount(g.world.checkpoints)
            == r.pendingAdvances - g.pendingAdvances
    ensures |r.world.checkpoints| == |g.world.checkpoints|
    ensures g.over ==> r.over
    ensures r.over && !g.over ==> r.ui.lives <= 0 && r.ui.gameOverShown
    ensures r.ui.lives <= g.ui.lives
    ensures r.level == g.level && r.started == g.started && r.keys == g.keys
    ensures r.world.platforms == g.world.platforms && r.world.enemies == g.world.enemies
    ensures r.world.boxes == g.world.boxes
    ensures Inv(g) ==> Inv(r)
    ensures var c := Collect(g.player.shape, g.world.collectables);
            r.world.collectables == c.0 && r.collected == g.collected + c.1
    ensures var k := ClaimCheckpoints(g.player.shape, g.world.checkpoints);
            r.world.checkpoints == k.0 && r.pendingAdvances == g.pendingAdvances + k.1
    ensures var ui := if r.collected > g.collected then Lives.SetCollected(g.ui, r.collected) else g.ui;
            var h := HitEnemies(g.player, ui, g.over, g.world.enemies);
            r.player == h.0 && r.ui == h.1 && r.over == h.2
    ensures r.world.npcs == MeetNpcs(r.player.shape, g.world.npcs)
    ensures (exists i :: 0 <= i < |g.world.enemies| && Overlaps(g.player.shape, g.world.enemies[i].shape)) ==>
              r.ui.lives < g.ui.lives && r.player.shape == g.player.shape.MoveTo(SpawnX, SpawnY)
    ensures (forall i :: 0 <= i < |g.world.enemies| ==> !Overlaps(g.player.shape, g.world.enemies[i].shape)) ==>
              r.ui.lives == g.ui.lives && r.player == g.player && r.over == g.over
  {
    var p := g.player;
    var (left, n) := Collect(p.shape, g.world.collectables);
    var collected := g.collected + n;
    var ui := if n > 0 then Lives.SetCollected(g.ui, collected) else g.ui;
    var (cps, k) := ClaimCheckpoints(p.shape, g.world.checkpoints);
    var (p1, ui1, over, _) := HitEnemies(p, ui, g.over, g.world.enemies);
    var npcs := MeetNpcs(p1.shape, g.world.npcs);
    g.(collected := collected, ui := ui1, over := over, player := p1,
       pendingAdvances := g.pendingAdvances + k,
       world := g.world.(collectables := left, checkpoints := cps, npcs := npcs))
  }

  /** One animation frame, in the loop's order: background scroll, player
      physics, enemy patrol, box gravity, box contact, then collisions. The
      counters and latches keep the guarantees of the collision pass, the
      background stays within one scaled width, and the invariant holds. */
  function Frame(g: Game): (r: Game)
    requires g.cfg.canvasHeight > 0.0
    ensures Inv(g) ==> Inv(r)
    ensures r.collected + |r.world.collectables| == g.collected + |g.world.collectables|
    ensures g.over ==> r.over
    ensures r.level == g.level && r.started == g.started && r.keys == g.keys && r.cfg == g.cfg
    ensures r.pendingAdvances >= g.pendingAdvances
    ensures -Parallax.ScaledWidth(g.cfg.canvasHeight) <= r.parallax.backgroundX <= 0.0
    ensures r.groundLevel == g.cfg.canvasHeight - g.player.shape.height
    ensures |r.world.enemies| == |g.world.enemies| && |r.world.boxes| == |g.world.boxes|
  {
    var cfg := g.cfg;
    var bg := Parallax.Update(g.parallax, cfg.canvasHeight, cfg.backgroundSpeed,
                              g.player.shape.pos.x, g.keys.right, g.keys.left);
    var (p1, ground) := UpdatePlayer(cfg, g.player, g.keys, g.groundLevel, g.world.platforms);
    var enemies := UpdateEnemies(g.world.enemies, cfg.enemySpeed, cfg.canvasWidth);
    var boxes := UpdateBoxes(g.world.boxes, g.world.platforms, cfg.gravity, ground);
    var (p2, boxes1) := CheckBoxCollisions(g.keys, p1, boxes);
    var g1 := g.(parallax := bg, player := p2, groundLevel := ground,
                 world := g.world.(enemies := enemies, boxes := boxes1));
    assert Inv(g) ==> Inv(g1) by {
      if Inv(g) {
        forall i | 0 <= i < |enemies|
          ensures enemies[i].direction == 1 || enemies[i].direction == -1
        {
          assert enemies[i] == StepEnemy(g.world.enemies[i], cfg.enemySpeed, cfg.canvasWidth);
        }
      }
    }
    CheckCollisions(g1)
  }

  /** A timer of a claimed checkpoint firing: the next level (after the
      third comes the first again) loads, the player is put back at the
      spawn point, and the count of pending advances drops by one. With no
      timer pending nothing happens. */
  function FireAdvance(g: Game, layout: Layout): (r: Game)
    ensures g.pendingAdvances == 0 ==> r == g
    ensures g.pendingAdvances > 0 ==>
              && r.pendingAdvances == g.pendingAdvances - 1
              && r.level == NextLevel(g.level)
              && r.world == BuildLevel(r.level, layout)
              && r.player.shape.pos == Vec(SpawnX, SpawnY)
              && r.player.vel == g.player.vel
              && r.collected == g.collected && r.ui.collected == g.collected
              && r.over == g.over
    ensures Inv(g) ==> Inv(r)
  {
    if g.pendingAdvances == 0 then g
    else
      var g1 := InitGame(g.(level := NextLevel(g.level), pendingAdvances := g.pendingAdvances - 1), layout);
      g1.(player := g1.player.(shape := g1.player.shape.MoveTo(SpawnX, SpawnY)))
  }

  /** The restart button of the interface: only the interface's counters are
      reset. The game's own state lives inside the page's closure, out of
      the interface's reach, so a game that was over stays over. */
  function RestartClicked(g: Game): (r: Game)
    ensures r.ui == Lives.New()
    ensures r.(ui := g.ui) == g
  {
    g.(ui := Lives.Restart(g.ui))
  }

  predicate IsRightKey(key: string) { key == "ArrowRight" || key == "d" || key == "D" }
  predicate IsLeftKey(key: string) { key == "ArrowLeft" || key == "a" || key == "A" }
  predicate IsJumpKey(key: string) { key == "ArrowUp" || key == " " || key == "w" || key == "W" }
  predicate IsCrouchKey(key: string) { key == "s" || key == "S" }
  predicate IsInteractKey(key: string) { key == "i" || key == "I" }

  /** The first NPC at or after `from` whose dialog marker is up. */
  function FirstShown(ns: seq<Npc>, from: nat): (r: Option<nat>)
    ensures r.Some? ==> from <= r.value < |ns| && ns[r.value].showHideLayer
    ensures r.Some? ==> forall j :: from <= j < r.value ==> !ns[j].showHideLayer
    ensures r.None? ==> forall j :: from <= j < |ns| ==> !ns[j].showHideLayer
    decreases |ns| - from
  {
    if from >= |ns| then None
    else if ns[from].showHideLayer then Some(from)
    else FirstShown(ns, from + 1)
  }

  /** The `I` key: the first NPC with its marker up has its message shown
      and its marker lowered; without one nothing happens. */
  function Interact(ns: seq<Npc>): (r: (seq<Npc>, Option<string>))
    ensures r.1.None? <==> forall j :: 0 <= j < |ns| ==> !ns[j].showHideLayer
    ensures r.1.None? ==> r.0 == ns
    ensures r.1.Some? ==>
              exists i :: 0 <= i < |ns| && ns[i].showHideLayer
                && (forall j :: 0 <= j < i ==> !ns[j].showHideLayer)
                && r.1.value == ns[i].message
                && r.0 == ns[i := ns[i].(showHideLayer := false)]
  {
    match FirstShown(ns, 0)
    case None => (ns, None)
    case Some(i) => (ns[i := ns[i].(showHideLayer := false)], Some(ns[i].message))
  }

  /** The handlers act only on a started game that is not over. */
  predicate Live(g: Game) { g.started && !g.over }

  /** `keydown`: ignored before the start and after the game is over.
      Movement keys set their flag; a jump key starts a jump exactly when
      the probe finds ground and no jump is under way; the crouch key
      shrinks the player; the `I` key shows the first pending NPC dialog,
      whose message is the second component. Nothing else changes. */
  function KeyDown(g: Game, key: string): (r: (Game, Option<string>))
    ensures !Live(g) ==> r == (g, None)
    ensures Live(g) ==> (r.0.keys.right <==> g.keys.right || IsRightKey(key))
    ensures Live(g) ==> (r.0.keys.left <==> g.keys.left || IsLeftKey(key))
    ensures Live(g) && IsJumpKey(key) && CanJump(g.player.shape, g.groundLevel, g.world.platforms)
              && !g.player.isJumping ==>
              r.0.player == g.player.(vel := g.player.vel.(y := -g.cfg.jumpHeight), isJumping := true)
    ensures r.0.player.vel.y != g.player.vel.y ==>
              && IsJumpKey(key) && !g.player.isJumping
              && CanJump(g.player.shape, g.groundLevel, g.world.platforms)
              && r.0.player.vel.y == -g.cfg.jumpHeight && r.0.player.isJumping
    ensures Live(g) && IsJumpKey(key)
              && !(CanJump(g.player.shape, g.groundLevel, g.world.platforms) && !g.player.isJumping) ==>
              r.0.player == g.player
    ensures Live(g) && IsCrouchKey(key) ==> r.0.player == Crouch(g.cfg, g.player)
    ensures !IsJumpKey(key) && !IsCrouchKey(key) ==> r.0.player == g.player
    ensures Live(g) && IsInteractKey(key) ==> (r.0.world.npcs, r.1) == Interact(g.world.npcs)
    ensures !IsInteractKey(key) ==> r.0.world.npcs == g.world.npcs && r.1 == None
    ensures r.0.(keys := g.keys, player := g.player, world := g.world) == g
    ensures r.0.world.(npcs := g.world.npcs) == g.world
    ensures Inv(g) ==> Inv(r.0)
  {
    if !Live(g) then (g, None)
    else
      var keys := if IsRightKey(key) then g.keys.(right := true)
                  else if IsLeftKey(key) then g.keys.(left := true)
                  else g.keys;
      var p := g.player;
      var p1 := if IsJumpKey(key) && CanJump(p.shape, g.groundLevel, g.world.platforms) && !p.isJumping
                then p.(vel := p.vel.(y := -g.cfg.jumpHeight), isJumping := true)
                else p;
      var p2 := if IsCrouchKey(key) then Crouch(g.cfg, p1) else p1;
      var (npcs, shown) := if IsInteractKey(key) then Interact(g.world.npcs) else (g.world.npcs, None);
      (g.(keys := keys, player := p2, world := g.world.(npcs := npcs)), shown)
  }

  /** `keyup`: ignored before the start and after the game is over; a
      movement key clears its flag, the crouch key restores full height,
      and nothing else changes. */
  function KeyUp(g: Game, key: string): (r: Game)
    ensures !Live(g) ==> r == g
    ensures Live(g) ==> (r.keys.right <==> g.keys.right && !IsRightKey(key))
    ensures Live(g) ==> (r.keys.left <==> g.keys.left && !IsLeftKey(key))
    ensures Live(g) && IsCrouchKey(key) ==> r.player == Stand(g.cfg, g.player)
    ensures !IsCrouchKey(key) ==> r.player == g.player
    ensures r.(keys := g.keys, player := g.player) == g
    ensures r.player.vel == g.player.vel && r.player.isJumping == g.player.isJumping
    ensures Inv(g) ==> Inv(r)
  {
    if !Live(g) then g
    else
      var keys := if IsRightKey(key) then g.keys.(right := false)
                  else if IsLeftKey(key) then g.keys.(left := false)
                  else g.keys;
      var p := if IsCrouchKey(key) then Stand(g.cfg, g.player) else g.player;
      g.(keys := keys, player := p)
  }

  /** A jump key pressed while a jump is under way changes nothing about the
      player's motion: there is no double jump. */
  lemma NoDoubleJump(g: Game, key: string)
    requires g.player.isJumping
    ensures KeyDown(g, key).0.player.vel == g.player.vel
  {
  }

  /** A jump from the ground happens once: the press starts it, and the
      same key pressed again at once — still on the ground, as no frame ran
      in between — is ignored, since the first jump is still under way. */
  lemma JumpOnce(g: Game, key: string)
    requires Live(g) && IsJumpKey(key) && !g.player.isJumping
    requires CanJump(g.player.shape, g.groundLevel, g.world.platforms)
    ensures var g1 := KeyDown(g, key).0;
            && g1.player.vel.y == -g.cfg.jumpHeight && g1.player.isJumping
            && KeyDown(g1, key).0 == g1
  {
  }

  /** Holding a movement key and letting it go restores the key flags. */
  lemma MoveKeyPressRelease(g: Game, key: string)
    requires Live(g) && (IsRightKey(key) || IsLeftKey(key))
    requires !g.keys.right && !g.keys.left
    ensures KeyUp(KeyDown(g, key).0, key).keys == g.keys
  {
  }

  /** Pressing and releasing the crouch key at full height gives the player
      back exactly, position and height; while crouched the bottom edge is
      twice the height difference higher than before. */
  lemma CrouchPressRelease(g: Game, key: string)
    requires g.started && !g.over && IsCrouchKey(key)
    requires g.player.shape.height == g.cfg.height
    ensures KeyUp(KeyDown(g, key).0, key).player == g.player
    ensures KeyDown(g, key).0.player.shape.Bottom()
            == g.player.shape.Bottom() - 2.0 * (g.cfg.height - g.cfg.crouchHeight)
  {
    CrouchRoundTrip(g.cfg, g.player);
  }

  /** Pressing the restart button after the game ended brings the hearts back
      but leaves the game over, so every key is still ignored afterwards. */
  lemma RestartLeavesGameOver(g: Game, key: string)
    requires g.over
    ensures var r := RestartClicked(g);
            r.over && r.ui.lives == 3 && KeyDown(r, key) == (r, None) && KeyUp(r, key) == r
  {
  }

  /** An NPC's dialog is offered once: met, its marker goes up; after the
      `I` key lowers it, no later touch raises it again. */
  lemma DialogOfferedOnce(p: Rect, q: Rect, n: Npc)
    requires !n.interacted && !n.showHideLayer && Overlaps(p, n.showLayer)
    ensures var met := MeetNpcs(p, [n]);
            var (after, shown) := Interact(met);
            && met[0].showHideLayer
            && shown == Some(n.message)
            && !MeetNpcs(q, after)[0].showHideLayer
  {
  }
}

=== FILE: strings.dfy ===
/** The few `String.prototype` operations the model needs, on `seq<char>`:
    `includes`, `indexOf` and `replace` with a plain-string pattern. */
module Strings {
  import opened Maybe

  /** `sub` occurs in `s` starting at index `i`. */
  predicate OccursAt(s: string, sub: string, i: int) {
    0 <= i && i + |sub| <= |s| && s[i..i + |sub|] == sub
  }

  /** The first occurrence of `sub` in `s` at or after `from`, or None.
      This is the search loop of `indexOf`. */
  function IndexOfFrom(s: string, sub: string, from: nat): (r: Option<nat>)
    ensures r.Some? ==> from <= r.value && OccursAt(s, sub, r.value)
    ensures r.Some? ==> forall j :: from <= j < r.value ==> !OccursAt(s, sub, j)
    ensures r.None? ==> forall j :: from <= j ==> !OccursAt(s, sub, j)
    decreases |s| - from
  {
    if from + |sub| > |s| then None
    else if s[from..from + |sub|] == sub then Some(from)
    else IndexOfFrom(s, sub, from + 1)
  }

  /** `s.indexOf(sub)`, with None for JavaScript's -1. */
  function IndexOf(s: string, sub: string): Option<nat> {
    IndexOfFrom(s, sub, 0)
  }

  /** `s.includes(sub)`: some occurrence exists. */
  function Includes(s: string, sub: string): (b: bool)
    ensures b <==> exists i :: OccursAt(s, sub, i)
  {
    IndexOf(s, sub).Some?
  }

  /** `s.replace(pat, rep)` with a string pattern: only the first occurrence
      is replaced, and a string without one is returned unchanged. */
  function ReplaceFirst(s: string, pat: string, rep: string): (r: string)
    ensures (forall i :: !OccursAt(s, pat, i)) ==> r == s
    ensures forall k ::
      (OccursAt(s, pat, k) && forall j :: 0 <= j < k ==> !OccursAt(s, pat, j)) ==>
        r == s[..k] + rep + s[k + |pat|..]
  {
    match IndexOf(s, pat)
    case None => s
    case Some(k) => s[..k] + rep + s[k + |pat|..]
  }

  /** Replacing the first occurrence of `pat` by nothing in `s + pat` gives
      `s` back when `pat` does not already start anywhere inside `s + pat`
      before the appended copy. */
  lemma {:induction false} StripAppended(s: string, pat: string)
    requires forall j :: 0 <= j < |s| ==> !OccursAt(s + pat, pat, j)
    ensures ReplaceFirst(s + pat, pat, "") == s
  {
    var t := s + pat;
    assert OccursAt(t, pat, |s|) by { assert t[|s|..|s| + |pat|] == pat; }
    assert t[..|s|] + "" + t[|s| + |pat|..] == s;
  }
}

=== FILE: textures.dfy ===
/** The texture registry of the platformer
    (apps/pixelGame/js/texture-manager.js): textures by name in insertion
    order, the load/error counters with their all-loaded callback, pattern
    lookup, and the fallback fill colours. Image decoding is an event the
    host delivers; a created canvas pattern is represented by the path it was
    made from. */
module Textures {
  import opened Maybe
  import Strings

  datatype Texture = Texture(path: string, loaded: bool)

  /** `names` lists the keys of the `textures` object in insertion order.
      JavaScript enumerates integer-like keys first, in numeric order; no
      texture name is one, so plain insertion order is the order used. */
  datatype Manager = Manager(
    names: seq<string>,
    textures: map<string, Texture>,
    patterns: map<string, string>,
    loadedCount: int,
    totalTextures: int,
    hasCallback: bool)
  {
    /** The key list and the texture object agree, with no repeated key. */
    ghost predicate Valid() {
      && (forall i, j :: 0 <= i < j < |names| ==> names[i] != names[j])
      && (forall n :: n in textures <==> n in names)
      && patterns.Keys <= textures.Keys
    }
  }

  function New(): (m: Manager)
    ensures m.Valid() && m.loadedCount == 0 && m.totalTextures == 0 && m.names == []
  {
    Manager([], map[], map[], 0, 0, false)
  }

  /** `addTexture(name, path)`: the entry under `name` is (re)placed by an
      unloaded one — a new name goes to the end of the key order, an
      existing one keeps its place — and the total grows by one either way. */
  function AddTexture(m: Manager, name: string, path: string): (r: Manager)
    requires m.Valid()
    ensures r.Valid()
    ensures r.textures == m.textures[name := Texture(path, false)]
    ensures r.totalTextures == m.totalTextures + 1
    ensures name in m.textures ==> r.names == m.names
    ensures name !in m.textures ==> r.names == m.names + [name]
    ensures r.loadedCount == m.loadedCount && r.patterns == m.patterns
  {
    var names := if name in m.textures then m.names else m.names + [name];
    m.(names := names, textures := m.textures[name := Texture(path, false)],
       totalTextures := m.totalTextures + 1)
  }

  /** `onAllLoaded(callback)`: the callback is stored and nothing else
      about the registry changes. */
  function OnAllLoaded(m: Manager): (r: Manager)
    ensures r.hasCallback && r.names == m.names && r.loadedCount == m.loadedCount
    ensures r.totalTextures == m.totalTextures && r.textures == m.textures && r.patterns == m.patterns
  {
    m.(hasCallback := true)
  }

  /** `loadAll`: the image requests it starts, one per key in key order,
      each for the path registered under that key. */
  function LoadAll(m: Manager): (reqs: seq<(string, string)>)
    requires m.Valid()
    ensures |reqs| == |m.names|
    ensures forall i :: 0 <= i < |reqs| ==>
              reqs[i].0 == m.names[i] && reqs[i].1 == m.textures[m.names[i]].path
  {
    seq(|m.names|, i requires 0 <= i < |m.names| => (m.names[i], m.textures[m.names[i]].path))
  }

  /** What the browser reports for one requested image. */
  datatype Event = Loaded(name: string) | Failed(name: string)

  /** The `onload` / `onerror` handler for one image: either way one more
      image is accounted for; a load also marks the texture loaded and
      creates its pattern. The result's flag says whether this event ran the
      all-loaded callback. */
  function OnEvent(m: Manager, e: Event): (r: (Manager, bool))
    requires m.Valid() && e.name in m.textures
    ensures r.0.Valid()
    ensures r.0.loadedCount == m.loadedCount + 1
    ensures r.0.totalTextures == m.totalTextures && r.0.names == m.names
    ensures r.0.hasCallback == m.hasCallback
    ensures r.1 <==> r.0.loadedCount == r.0.totalTextures && m.hasCallback
    ensures e.Loaded? ==> IsLoaded(r.0, e.name) && GetPattern(r.0, e.name).Some?
    ensures e.Failed? ==> r.0.textures == m.textures && r.0.patterns == m.patterns
    ensures e.Loaded? ==> r.0.textures == m.textures[e.name := m.textures[e.name].(loaded := true)]
    ensures e.Loaded? ==> r.0.patterns.Keys == m.patterns.Keys + {e.name}
                          && r.0.patterns[e.name] == m.textures[e.name].path
                          && forall n :: n in m.patterns && n != e.name ==> r.0.patterns[n] == m.patterns[n]
  {
    var count := m.loadedCount + 1;
    var m1 := match e
      case Loaded(n) =>
        m.(textures := m.textures[n := m.textures[n].(loaded := true)],
           patterns := m.patterns[n := m.textures[n].path],
           loadedCount := count)
      case Failed(_) => m.(loadedCount := count);
    (m1, count == m.totalTextures && m.hasCallback)
  }

  /** Delivers the events in order; the result counts how many of them ran
      the callback. */
  function Deliver(m: Manager, es: seq<Event>): (r: (Manager, nat))
    requires m.Valid()
    requires forall i :: 0 <= i < |es| ==> es[i].name in m.textures
    ensures r.0.Valid()
    ensures r.0.loadedCount == m.loadedCount + |es|
    ensures r.0.totalTextures == m.totalTextures && r.0.names == m.names
    ensures r.0.textures.Keys == m.textures.Keys
    ensures r.0.hasCallback == m.hasCallback
    decreases |es|
  {
    if es == [] then (m, 0)
    else
      var (m1, fired) := OnEvent(m, es[0]);
      var (m2, n) := Deliver(m1, es[1..]);
      (m2, n + (if fired then 1 else 0))
  }

  /** Every event moves the count by exactly one, so the callback runs on
      exactly one event: the one that brings the count up to the total. */
  lemma {:induction false} CallbackFiresOnce(m: Manager, es: seq<Event>)
    requires m.Valid() && m.hasCallback
    requires forall i :: 0 <= i < |es| ==> es[i].name in m.textures
    requires m.loadedCount < m.totalTextures
    ensures Deliver(m, es).1 == if m.loadedCount + |es| >= m.totalTextures then 1 else 0
    decreases |es|
  {
    if es != [] {
      var (m1, fired) := OnEvent(m, es[0]);
      if m1.loadedCount < m1.totalTextures {
        CallbackFiresOnce(m1, es[1..]);
      } else {
        NeverFiresPastTotal(m1, es[1..]);
      }
    }
  }

  /** Once the count has reached the total no later event runs the callback. */
  lemma {:induction false} NeverFiresPastTotal(m: Manager, es: seq<Event>)
    requires m.Valid()
    requires forall i :: 0 <= i < |es| ==> es[i].name in m.textures
    requires m.loadedCount >= m.totalTextures
    ensures Deliver(m, es).1 == 0
    decreases |es|
  {
    if es != [] {
      NeverFiresPastTotal(OnEvent(m, es[0]).0, es[1..]);
    }
  }

  /** Each image reports once, so at most one event arrives per key. When
      the total exceeds the number of keys — some name was added twice —
      the count never reaches the total and the callback never runs. */
  lemma {:induction false} OverwriteStarvesCallback(m: Manager, es: seq<Event>)
    requires m.Valid() && m.loadedCount == 0
    requires forall i :: 0 <= i < |es| ==> es[i].name in m.textures
    requires |es| <= |m.names| < m.totalTextures
    ensures Deliver(m, es).1 == 0
    decreases |es|
  {
    CountBelowTotal(m, es);
  }

  lemma {:induction false} CountBelowTotal(m: Manager, es: seq<Event>)
    requires m.Valid()
    requires forall i :: 0 <= i < |es| ==> es[i].name in m.textures
    requires m.loadedCount + |es| < m.totalTextures
    ensures Deliver(m, es).1 == 0
    decreases |es|
  {
    if es != [] {
      CountBelowTotal(OnEvent(m, es[0]).0, es[1..]);
    }
  }

  /** Adding the same name twice leaves one key but a total of two. */
  lemma AddTwiceCountsTwice(name: string, p1: string, p2: string)
    ensures var m := AddTexture(AddTexture(New(), name, p1), name, p2);
            m.names == [name] && m.totalTextures == 2 && m.textures[name].path == p2
  {
  }

  /** `getPattern(name)`: the pattern made for `name`, or null. */
  function GetPattern(m: Manager, name: string): (r: Option<string>)
    ensures r.Some? <==> name in m.patterns
    ensures r.Some? ==> r.value == m.patterns[name]
  {
    if name in m.patterns then Some(m.patterns[name]) else None
  }

  /** `isLoaded(name)`: falsy for a name never added. */
  predicate IsLoaded(m: Manager, name: string) {
    name in m.textures && m.textures[name].loaded
  }

  /** A name never added has neither a pattern nor a loaded texture. */
  lemma UnknownNameHasNothing(m: Manager, name: string)
    requires m.Valid() && name !in m.names
    ensures GetPattern(m, name) == None && !IsLoaded(m, name)
  {
  }

  /** Colour returned when no fallback key matches. */
  const DefaultColor: string := "#ccc"

  /** The index of the first key, in insertion order, that occurs inside
      `name`, at or after `from`. */
  function FirstKeyIn(colors: seq<(string, string)>, name: string, from: nat): (r: Option<nat>)
    ensures r.Some? ==> from <= r.value < |colors| && Strings.Includes(name, colors[r.value].0)
    ensures r.Some? ==> forall j :: from <= j < r.value ==> !Strings.Includes(name, colors[j].0)
    ensures r.None? ==> forall j :: from <= j < |colors| ==> !Strings.Includes(name, colors[j].0)
    decreases |colors| - from
  {
    if from >= |colors| then None
    else if Strings.Includes(name, colors[from].0) then Some(from)
    else FirstKeyIn(colors, name, from + 1)
  }

  /** `getFallbackColor(name)`: the colour of the first key that is a
      substring of `name`, else "#ccc". */
  function FallbackColor(colors: seq<(string, string)>, name: string): (c: string)
    ensures forall i :: 0 <= i < |colors| && Strings.Includes(name, colors[i].0)
              && (forall j :: 0 <= j < i ==> !Strings.Includes(name, colors[j].0))
              ==> c == colors[i].1
    ensures (forall i :: 0 <= i < |colors| ==> !Strings.Includes(name, colors[i].0))
              ==> c == DefaultColor
  {
    match FirstKeyIn(colors, name, 0)
    case Some(i) => colors[i].1
    case None => DefaultColor
  }

  /** The fallback colours of the game's configuration, in declaration order. */
  const ConfigColors: seq<(string, string)> := [
    ("platform", "#000"), ("checkpoint", "green"), ("scene", "#121ca0ff"),
    ("box", "#8B4513"), ("collectable", "gold"), ("enemy", "red"), ("player", "blue")]

  /** The texture file names the game's configuration chooses. */
  datatype TextureVars = TextureVars(platform: string, checkpoint: string, scene: string, box: string)

  const ConfigTextureVars := TextureVars("diagonal-stripes", "radiant-gradient",
                                         "repeating-chevrons", "stacked-steps-haikei")

  const TextureDir: string := "assets/textures/"

  /** `getDefaultTextureConfig()`: name/path pairs in declaration order. */
  function DefaultTextureConfig(v: TextureVars): (cfg: seq<(string, string)>)
    ensures |cfg| == 4
    ensures cfg[0].0 == "platform" && cfg[1].0 == "checkpoint" && cfg[2].0 == "scene" && cfg[3].0 == "box"
  {
    [("platform", TextureDir + v.platform + ".svg"),
     ("checkpoint", TextureDir + v.checkpoint + ".svg"),
     ("scene", TextureDir + v.scene + ".png"),
     ("box", TextureDir + v.box + ".svg")]
  }

  /** The file name a default path was built from can be read back by
      dropping the directory prefix and the four-character extension; the
      extension is ".png" for the scene texture and ".svg" for the rest. */
  lemma DefaultPathsDecode(v: TextureVars)
    ensures var cfg := DefaultTextureConfig(v);
            forall i :: 0 <= i < 4 ==>
              && |cfg[i].1| == |TextureDir| + |FileName(v, i)| + 4
              && cfg[i].1[..|TextureDir|] == TextureDir
              && cfg[i].1[|TextureDir|..|cfg[i].1| - 4] == FileName(v, i)
              && cfg[i].1[|cfg[i].1| - 4..] == (if i == 2 then ".png" else ".svg")
  {
    var cfg := DefaultTextureConfig(v);
    forall i | 0 <= i < 4
      ensures cfg[i].1[..|TextureDir|] == TextureDir
      ensures cfg[i].1[|TextureDir|..|cfg[i].1| - 4] == FileName(v, i)
      ensures cfg[i].1[|cfg[i].1| - 4..] == (if i == 2 then ".png" else ".svg")
    {
      var ext := if i == 2 then ".png" else ".svg";
      assert cfg[i].1 == TextureDir + FileName(v, i) + ext;
    }
  }

  /** The file name chosen for the i-th default texture. */
  function FileName(v: TextureVars, i: int): string {
    if i == 0 then v.platform else if i == 1 then v.checkpoint else if i == 2 then v.scene else v.box
  }

  /** `loadTexturesFromConfig(config)`: every pair added in order, then
      `loadAll`; the result carries the image requests it started. Every
      configured name is requested once, with the path of its last pair. */
  function LoadFromConfig(m: Manager, cfg: seq<(string, string)>): (r: (Manager, seq<(string, string)>))
    requires m.Valid()
    ensures r.0.Valid()
    ensures r.0.totalTextures == m.totalTextures + |cfg|
    ensures |r.1| == |r.0.names|
    ensures forall i :: 0 <= i < |cfg| && LastFor(cfg, i) ==> cfg[i] in r.1
    ensures forall i :: 0 <= i < |r.1| ==> r.1[i].0 == r.0.names[i]
  {
    var m1 := AddAll(m, cfg);
    var reqs := LoadAll(m1);
    AddAllLastPath(m, cfg);
    assert forall i :: 0 <= i < |cfg| && LastFor(cfg, i) ==> cfg[i] in reqs by {
      forall i | 0 <= i < |cfg| && LastFor(cfg, i) ensures cfg[i] in reqs {
        var k :| 0 <= k < |m1.names| && m1.names[k] == cfg[i].0;
        assert reqs[k] == cfg[i];
      }
    }
    (m1, reqs)
  }

  /** The pairs added one by one, in order: the existing keys keep their
      order, with any new names after them. */
  function AddAll(m: Manager, cfg: seq<(string, string)>): (r: Manager)
    requires m.Valid()
    ensures r.Valid()
    ensures r.totalTextures == m.totalTextures + |cfg|
    ensures r.loadedCount == m.loadedCount && r.patterns == m.patterns
    ensures |m.names| <= |r.names| && r.names[..|m.names|] == m.names
    decreases |cfg|
  {
    if cfg == [] then m
    else
      var m1 := AddTexture(m, cfg[0].0, cfg[0].1);
      var r := AddAll(m1, cfg[1..]);
      assert r.names[..|m.names|] == r.names[..|m1.names|][..|m.names|];
      r
  }

  /** Pair `i` is the last one for its name: a later pair would overwrite
      it. */
  predicate LastFor(cfg: seq<(string, string)>, i: int)
    requires 0 <= i < |cfg|
  {
    forall j :: i < j < |cfg| ==> cfg[j].0 != cfg[i].0
  }

  /** A texture whose name no pair mentions is left as it was. */
  lemma {:induction false} AddAllKeepsOthers(m: Manager, cfg: seq<(string, string)>, n: string)
    requires m.Valid() && n in m.textures
    requires forall i :: 0 <= i < |cfg| ==> cfg[i].0 != n
    ensures n in AddAll(m, cfg).textures && AddAll(m, cfg).textures[n] == m.textures[n]
    decreases |cfg|
  {
    if cfg != [] {
      var m1 := AddTexture(m, cfg[0].0, cfg[0].1);
      forall j | 0 <= j < |cfg[1..]| ensures cfg[1..][j].0 != n {
        assert cfg[1..][j] == cfg[j + 1];
      }
      AddAllKeepsOthers(m1, cfg[1..], n);
    }
  }

  /** Every configured name ends registered, unloaded, with the path of its
      last pair. */
  lemma {:induction false} AddAllLastPath(m: Manager, cfg: seq<(string, string)>)
    requires m.Valid()
    ensures forall i :: 0 <= i < |cfg| && LastFor(cfg, i) ==>
              cfg[i].0 in AddAll(m, cfg).textures && AddAll(m, cfg).textures[cfg[i].0] == Texture(cfg[i].1, false)
    decreases |cfg|
  {
    if cfg != [] {
      var m1 := AddTexture(m, cfg[0].0, cfg[0].1);
      var r := AddAll(m1, cfg[1..]);
      assert r == AddAll(m, cfg);
      AddAllLastPath(m1, cfg[1..]);
      forall i | 0 <= i < |cfg| && LastFor(cfg, i)
        ensures cfg[i].0 in r.textures && r.textures[cfg[i].0] == Texture(cfg[i].1, false)
      {
        if i == 0 {
          forall j | 0 <= j < |cfg[1..]| ensures cfg[1..][j].0 != cfg[0].0 {
            assert cfg[1..][j] == cfg[j + 1];
          }
          AddAllKeepsOthers(m1, cfg[1..], cfg[0].0);
        } else {
          assert cfg[1..][i - 1] == cfg[i];
          assert LastFor(cfg[1..], i - 1) by {
            forall j | i - 1 < j < |cfg[1..]| ensures cfg[1..][j].0 != cfg[1..][i - 1].0 {
              assert cfg[1..][j] == cfg[j + 1];
            }
          }
        }
      }
    }
  }

  /** No name other than the existing ones and the configured ones is
      registered. */
  lemma {:induction false} AddAllOnlyConfigured(m: Manager, cfg: seq<(string, string)>, n: string)
    requires m.Valid() && n in AddAll(m, cfg).textures && n !in m.textures
    ensures exists i :: 0 <= i < |cfg| && cfg[i].0 == n
    decreases |cfg|
  {
    if cfg != [] {
      var m1 := AddTexture(m, cfg[0].0, cfg[0].1);
      if n != cfg[0].0 {
        AddAllOnlyConfigured(m1, cfg[1..], n);
        var j :| 0 <= j < |cfg[1..]| && cfg[1..][j].0 == n;
        assert cfg[j + 1] == cfg[1..][j];
      }
    }
  }

  /** The game's start-up: a fresh manager fed the default configuration
      has the four names in order, a total of four, nothing counted yet, and
      one image request per name. */
  lemma StartupRegistersFour()
    ensures var (m, reqs) := LoadFromConfig(New(), DefaultTextureConfig(ConfigTextureVars));
            && m.names == ["platform", "checkpoint", "scene", "box"]
            && m.totalTextures == 4 && m.loadedCount == 0 && |reqs| == 4
  {
    var cfg := DefaultTextureConfig(ConfigTextureVars);
    StartupAdds(cfg);
    assert LoadFromConfig(New(), cfg).0 == AddAll(New(), cfg);
  }

  /** Adding the four default pairs one by one to a fresh manager. */
  lemma StartupAdds(cfg: seq<(string, string)>)
    requires cfg == DefaultTextureConfig(ConfigTextureVars)
    ensures AddAll(New(), cfg).names == ["platform", "checkpoint", "scene", "box"]
    ensures AddAll(New(), cfg).totalTextures == 4 && AddAll(New(), cfg).loadedCount == 0
  {
    var m1 := AddTexture(New(), cfg[0].0, cfg[0].1);
    assert m1.names == ["platform"];
    var m2 := AddTexture(m1, cfg[1].0, cfg[1].1);
    assert m2.names == ["platform", "checkpoint"];
    var m3 := AddTexture(m2, cfg[2].0, cfg[2].1);
    assert m3.names == ["platform", "checkpoint", "scene"];
    var m4 := AddTexture(m3, cfg[3].0, cfg[3].1);
    assert m4.names == ["platform", "checkpoint", "scene", "box"];
    assert AddAll(m3, cfg[3..]) == m4 by {
      assert cfg[3..][0] == cfg[3] && cfg[3..][1..] == [];
    }
    assert AddAll(m2, cfg[2..]) == m4 by {
      assert cfg[2..][0] == cfg[2] && cfg[2..][1..] == cfg[3..];
    }
    assert AddAll(m1, cfg[1..]) == m4 by {
      assert cfg[1..][0] == cfg[1] && cfg[1..][1..] == cfg[2..];
    }
  }

  /** With the configured colours, "platform" gets black and "background",
      which no key matches, gets the default grey. */
  lemma ConfigFallbacks()
    ensures FallbackColor(ConfigColors, "platform") == "#000"
    ensures FallbackColor(ConfigColors, "background") == DefaultColor
  {
    assert Strings.OccursAt("platform", "platform", 0);
    var name := "background";
    forall i | 0 <= i < |ConfigColors|
      ensures !Strings.Includes(name, ConfigColors[i].0)
    {
      var key := ConfigColors[i].0;
      forall k | 0 <= k < |name| - 1
        ensures !(name[k] == key[0] && name[k + 1] == key[1])
      {
      }
      NotIncluded(name, key);
    }
  }

  /** A key whose first two characters never appear side by side in the
      name is not a substring of it. */
  lemma NotIncluded(name: string, key: string)
    requires |key| >= 2
    requires forall k :: 0 <= k < |name| - 1 ==> !(name[k] == key[0] && name[k + 1] == key[1])
    ensures !Strings.Includes(name, key)
  {
    forall i
      ensures !Strings.OccursAt(name, key, i)
    {
      if 0 <= i && i + |key| <= |name| {
        var w := name[i..i + |key|];
        assert w[0] == name[i] && w[1] == name[i + 1];
        assert !(name[i] == key[0] && name[i + 1] == key[1]);
        assert w != key;
      }
    }
  }
}

=== FILE: users.dfy ===
/** The user store of the kanban board (apps/pixelKanban/js/userManager.js):
    an ordered list of users with an id counter, create/update/delete with
    the task unassignment a delete asks to confirm, lookups, and the
    export/import pair. */
module Users {
  import opened Maybe
  import opened Kanban

  datatype User = User(id: int, name: string, email: string, role: string, createdAt: Stamp, updatedAt: Stamp)

  /** The data a new user is made from; None is a missing field. */
  datatype UserData = UserData(name: string, email: Option<string>, role: Option<string>)

  /** The fields an update carries; None is a field it leaves alone. */
  datatype UserUpdates = UserUpdates(name: Option<string>, email: Option<string>, role: Option<string>)

  datatype Store = Store(users: seq<User>, nextUserId: int)

  /** What `exportUsers` hands out and `importUsers` takes; in an import a
      field may be missing (None). */
  datatype Exported = Exported(users: Option<seq<User>>, nextUserId: Option<int>)

  function NewStore(): (s: Store)
    ensures Valid(s) && s.users == []
  {
    Store([], 1)
  }

  /** Every id was handed out by the counter, and no two users share one. */
  predicate Valid(s: Store) {
    && (forall i :: 0 <= i < |s.users| ==> s.users[i].id < s.nextUserId)
    && (forall i, j :: 0 <= i < j < |s.users| ==> s.users[i].id != s.users[j].id)
  }

  /** `createUser`: the counter's id, an empty email and the developer role
      when those are missing or empty, appended at the end. */
  function CreateUser(s: Store, data: UserData, now: Stamp): (r: (Store, User))
    ensures r.0.users == s.users + [r.1]
    ensures r.1.id == s.nextUserId && r.0.nextUserId == s.nextUserId + 1
    ensures r.1.name == data.name
    ensures r.1.email == StringOr(data.email, "")
    ensures r.1.role == StringOr(data.role, "developer")
    ensures Valid(s) ==> Valid(r.0)
  {
    var u := User(s.nextUserId, data.name, StringOr(data.email, ""), StringOr(data.role, "developer"), now, now);
    (Store(s.users + [u], s.nextUserId + 1), u)
  }

  /** The first user at or after `from` satisfying the id or email test. */
  function FindById(us: seq<User>, id: int, from: nat): (r: Option<nat>)
    ensures r.Some? ==> from <= r.value < |us| && us[r.value].id == id
    ensures r.Some? ==> forall j :: from <= j < r.value ==> us[j].id != id
    ensures r.None? ==> forall j :: from <= j < |us| ==> us[j].id != id
    decreases |us| - from
  {
    if from >= |us| then None
    else if us[from].id == id then Some(from)
    else FindById(us, id, from + 1)
  }

  function FindByEmail(us: seq<User>, email: string, from: nat): (r: Option<nat>)
    ensures r.Some? ==> from <= r.value < |us| && us[r.value].email == email
    ensures r.Some? ==> forall j :: from <= j < r.value ==> us[j].email != email
    ensures r.None? ==> forall j :: from <= j < |us| ==> us[j].email != email
    decreases |us| - from
  {
    if from >= |us| then None
    else if us[from].email == email then Some(from)
    else FindByEmail(us, email, from + 1)
  }

  /** `getUser`: the first user with the id, or nothing. */
  function GetUser(s: Store, id: int): (r: Option<User>)
    ensures r.Some? <==> exists i :: 0 <= i < |s.users| && s.users[i].id == id
    ensures r.Some? ==> r.value.id == id && r.value in s.users
    ensures r.Some? ==> exists i :: 0 <= i < |s.users| && r.value == s.users[i]
                                    && forall j :: 0 <= j < i ==> s.users[j].id != id
  {
    match FindById(s.users, id, 0)
    case None => None
    case Some(i) => Some(s.users[i])
  }

  /** `getUserByEmail`: the first user with the email, or nothing. */
  function GetUserByEmail(s: Store, email: string): (r: Option<User>)
    ensures r.Some? <==> exists i :: 0 <= i < |s.users| && s.users[i].email == email
    ensures r.Some? ==> r.value.email == email && r.value in s.users
    ensures r.Some? ==> exists i :: 0 <= i < |s.users| && r.value == s.users[i]
                                    && forall j :: 0 <= j < i ==> s.users[j].email != email
  {
    match FindByEmail(s.users, email, 0)
    case None => None
    case Some(i) => Some(s.users[i])
  }

  /** A user just created is found by its id. */
  lemma CreatedUserIsFound(s: Store, data: UserData, now: Stamp)
    requires Valid(s)
    ensures var (s1, u) := CreateUser(s, data, now);
            GetUser(s1, u.id) == Some(u)
  {
    var (s1, u) := CreateUser(s, data, now);
    assert FindById(s1.users, u.id, 0) == Some(|s.users|) by {
      FindByIdSkips(s1.users, u.id, 0, |s.users|);
    }
  }

  /** With no match before `k`, the search from `from` is the search from `k`. */
  lemma {:induction false} FindByIdSkips(us: seq<User>, id: int, from: nat, k: nat)
    requires from <= k <= |us|
    requires forall j :: from <= j < k ==> us[j].id != id
    ensures FindById(us, id, from) == FindById(us, id, k)
    decreases k - from
  {
    if from < k {
      FindByIdSkips(us, id, from + 1, k);
    }
  }

  /** `Object.assign(user, updates, { updatedAt })`. */
  function MergeUser(u: User, up: UserUpdates, now: Stamp): (r: User)
    ensures r.id == u.id && r.createdAt == u.createdAt && r.updatedAt == now
    ensures r.name == (if up.name.Some? then up.name.value else u.name)
    ensures r.email == (if up.email.Some? then up.email.value else u.email)
    ensures r.role == (if up.role.Some? then up.role.value else u.role)
  {
    User(u.id, up.name.GetOr(u.name), up.email.GetOr(u.email), up.role.GetOr(u.role), u.createdAt, now)
  }

  /** `updateUser`: the first user with the id gets the update and is
      returned; an unknown id changes nothing and returns nothing. */
  function UpdateUser(s: Store, id: int, up: UserUpdates, now: Stamp): (r: (Store, Option<User>))
    ensures r.1.None? <==> GetUser(s, id).None?
    ensures r.1.None? ==> r.0 == s
    ensures r.1.Some? ==> r.1.value == MergeUser(GetUser(s, id).value, up, now)
    ensures r.1.Some? ==> r.1.value in r.0.users
    ensures |r.0.users| == |s.users| && r.0.nextUserId == s.nextUserId
    ensures forall i :: 0 <= i < |s.users| ==> r.0.users[i].id == s.users[i].id
    ensures forall i :: 0 <= i < |s.users| && s.users[i].id != id ==> r.0.users[i] == s.users[i]
    ensures Valid(s) ==> Valid(r.0)
  {
    match FindById(s.users, id, 0)
    case None => (s, None)
    case Some(i) =>
      var u := MergeUser(s.users[i], up, now);
      var users := s.users[i := u];
      assert users[i] == u;
      (s.(users := users), Some(u))
  }

  /** `users.filter(u => u.id !== id)`. */
  function WithoutUser(us: seq<User>, id: int): (r: seq<User>)
    ensures forall u :: u in r <==> u in us && u.id != id
  {
    if us == [] then []
    else (if us[0].id == id then [] else [us[0]]) + WithoutUser(us[1..], id)
  }

  /** `getUserAssignedTasks`: with no board, nothing; otherwise the tasks
      whose assignee is strictly the number `id`. */
  function AssignedTasks(board: Option<Board>, id: int): (r: seq<Task>)
    ensures board.None? ==> r == []
    ensures board.Some? ==> forall t :: t in r <==> t in board.value.tasks && t.assignee == JNum(id)
  {
    match board
    case None => []
    case Some(b) => Assigned(b.tasks, id)
  }

  function Assigned(ts: seq<Task>, id: int): (r: seq<Task>)
    ensures forall t :: t in r <==> t in ts && t.assignee == JNum(id)
  {
    if ts == [] then []
    else (if ts[0].assignee == JNum(id) then [ts[0]] else []) + Assigned(ts[1..], id)
  }

  /** A task assigned through the task form carries the user id as text,
      which is never strictly equal to the number: such a task is never
      reported as assigned to the user. */
  lemma FormAssignmentIsInvisible(b: Board, id: int, text: string)
    ensures forall t :: t in AssignedTasks(Some(b), id) ==> t.assignee != JStr(text)
  {
  }

  /** `assignTaskToUser`: with a board, the task gets the numeric user id as
      its assignee; without one nothing happens. */
  function AssignTaskToUser(board: Option<Board>, taskId: int, userId: int, now: Stamp): (r: Option<Board>)
    ensures board.None? ==> r.None?
    ensures board.Some? ==>
              r == Some(UpdateTask(board.value, taskId, Updates(None, None, Some(JNum(userId)), None, None, None), now))
  {
    match board
    case None => None
    case Some(b) => Some(UpdateTask(b, taskId, Updates(None, None, Some(JNum(userId)), None, None, None), now))
  }

  /** Assigning a task that exists through this route makes it show up
      among the user's assigned tasks. */
  lemma AssignedTaskIsFound(b: Board, taskId: int, userId: int, now: Stamp)
    requires exists i :: 0 <= i < |b.tasks| && b.tasks[i].id == taskId
    ensures var r := AssignTaskToUser(Some(b), taskId, userId, now).value;
            exists t :: t in AssignedTasks(Some(r), userId) && t.id == taskId
  {
    var u := Updates(None, None, Some(JNum(userId)), None, None, None);
    var i := FindTask(b.tasks, taskId, 0).value;
    var r := UpdateTask(b, taskId, u, now);
    assert r.tasks[i] == Merge(b.tasks[i], u, now);
    assert r.tasks[i] in r.tasks;
  }

  /** The update `deleteUser` sends to each assigned task. */
  function Unassign(): Updates {
    Updates(None, None, Some(JStr("")), None, None, None)
  }

  /** The unassignment loop of `deleteUser`: `updateTask` for each task in
      the list, in order. */
  function UnassignAll(b: Board, ts: seq<Task>, now: Stamp): (r: Board)
    ensures |r.tasks| == |b.tasks| && r.nextTaskId == b.nextTaskId
    ensures forall i :: 0 <= i < |b.tasks| ==> r.tasks[i].id == b.tasks[i].id
    ensures Kanban.Valid(b) ==> Kanban.Valid(r)
    decreases |ts|
  {
    if ts == [] then b
    else UnassignAll(UpdateTask(b, ts[0].id, Unassign(), now), ts[1..], now)
  }

  predicate HasIdIn(t: Task, ts: seq<Task>) {
    exists k :: 0 <= k < |ts| && ts[k].id == t.id
  }

  /** On a board with distinct ids the loop clears exactly the tasks whose
      id is in the list, once each, and leaves every other task alone. */
  lemma {:induction false} UnassignAllEffect(b: Board, ts: seq<Task>, now: Stamp)
    requires Kanban.Valid(b)
    ensures forall i :: 0 <= i < |b.tasks| ==>
              UnassignAll(b, ts, now).tasks[i] ==
                (if HasIdIn(b.tasks[i], ts) then Merge(b.tasks[i], Unassign(), now) else b.tasks[i])
    decreases |ts|
  {
    if ts != [] {
      var b1 := UpdateTask(b, ts[0].id, Unassign(), now);
      UpdateHitsOnlyItsTask(b, ts[0].id, Unassign(), now);
      UnassignAllEffect(b1, ts[1..], now);
      forall i | 0 <= i < |b.tasks|
        ensures UnassignAll(b, ts, now).tasks[i] ==
                (if HasIdIn(b.tasks[i], ts) then Merge(b.tasks[i], Unassign(), now) else b.tasks[i])
      {
        MergeIdempotent(b.tasks[i], Unassign(), now);
        if HasIdIn(b.tasks[i], ts[1..]) {
          var k :| 0 <= k < |ts[1..]| && ts[1..][k].id == b.tasks[i].id;
          assert ts[k + 1].id == b.tasks[i].id;
        }
        if HasIdIn(b.tasks[i], ts) && b.tasks[i].id != ts[0].id {
          var k :| 0 <= k < |ts| && ts[k].id == b.tasks[i].id;
          assert ts[1..][k - 1].id == b.tasks[i].id;
        }
      }
    }
  }

  /** `deleteUser` with the answer `confirmed` to the question the browser
      would ask. Users with tasks assigned need a confirmation; without it
      nothing changes and the result is false. Otherwise the assigned tasks
      lose their assignee, the user is removed, and the result is true. */
  function DeleteUser(s: Store, board: Option<Board>, id: int, confirmed: bool, now: Stamp)
    : (r: (Store, Option<Board>, bool))
    ensures !r.2 <==> |AssignedTasks(board, id)| > 0 && !confirmed
    ensures !r.2 ==> r.0 == s && r.1 == board
    ensures r.2 ==> r.0 == Store(WithoutUser(s.users, id), s.nextUserId)
    ensures r.2 && |AssignedTasks(board, id)| == 0 ==> r.1 == board
    ensures r.1.Some? <==> board.Some?
    ensures board.Some? && Kanban.Valid(board.value) ==> Kanban.Valid(r.1.value)
  {
    var held := AssignedTasks(board, id);
    if |held| > 0 && !confirmed then (s, board, false)
    else
      var board1 := if |held| > 0 then Some(UnassignAll(board.value, held, now)) else board;
      (Store(WithoutUser(s.users, id), s.nextUserId), board1, true)
  }

  /** A confirmed delete leaves no task strictly assigned to the user and
      changes no other task: each task assigned to the user is only cleared. */
  lemma DeleteUserUnassigns(s: Store, b: Board, id: int, now: Stamp)
    requires Kanban.Valid(b)
    ensures var (_, b1, ok) := DeleteUser(s, Some(b), id, true, now);
            && ok && b1.Some?
            && |b1.value.tasks| == |b.tasks|
            && forall i :: 0 <= i < |b.tasks| ==>
                 b1.value.tasks[i] ==
                   (if b.tasks[i].assignee == JNum(id) then Merge(b.tasks[i], Unassign(), now) else b.tasks[i])
  {
    var held := AssignedTasks(Some(b), id);
    if |held| > 0 {
      UnassignAllEffect(b, held, now);
      HeldIsAssigned(b, id);
    }
  }

  /** On a board with distinct ids a task's id is among the assigned tasks'
      ids exactly when the task itself is assigned to the user. */
  lemma HeldIsAssigned(b: Board, id: int)
    requires Kanban.Valid(b)
    ensures forall i :: 0 <= i < |b.tasks| ==>
              (HasIdIn(b.tasks[i], Assigned(b.tasks, id)) <==> b.tasks[i].assignee == JNum(id))
  {
    var held := Assigned(b.tasks, id);
    forall i | 0 <= i < |b.tasks| ensures HasIdIn(b.tasks[i], held) <==> b.tasks[i].assignee == JNum(id) {
      if b.tasks[i].assignee == JNum(id) {
        assert b.tasks[i] in held;
        var k :| 0 <= k < |held| && held[k] == b.tasks[i];
      }
      if HasIdIn(b.tasks[i], held) {
        var k :| 0 <= k < |held| && held[k].id == b.tasks[i].id;
        assert held[k] in b.tasks;
        var j :| 0 <= j < |b.tasks| && b.tasks[j] == held[k];
        SameIdSameTask(b.tasks, i, j);
      }
    }
  }

  /** Distinct ids: two positions holding the same id are the same position. */
  lemma SameIdSameTask(ts: seq<Task>, i: nat, j: nat)
    requires DistinctIds(ts)
    requires i < |ts| && j < |ts| && ts[i].id == ts[j].id
    ensures i == j
  {
  }

  /** `exportUsers`. */
  function Export(s: Store): (e: Exported)
    ensures e.users == Some(s.users) && e.nextUserId == Some(s.nextUserId)
  {
    Exported(Some(s.users), Some(s.nextUserId))
  }

  /** `importUsers`: a list that is there (even an empty one) replaces the
      users; a counter that is missing or zero leaves the counter alone. */
  function Import(s: Store, e: Exported): (r: Store)
    ensures e.users.Some? ==> r.users == e.users.value
    ensures e.users.None? ==> r.users == s.users
    ensures e.nextUserId.Some? && e.nextUserId.value != 0 ==> r.nextUserId == e.nextUserId.value
    ensures e.nextUserId.None? || e.nextUserId.value == 0 ==> r.nextUserId == s.nextUserId
  {
    Store(if e.users.Some? then e.users.value else s.users,
          if e.nextUserId.Some? && e.nextUserId.value != 0 then e.nextUserId.value else s.nextUserId)
  }

  /** Importing an export restores the exported store over any store, except
      that a zero counter does not travel. */
  lemma ExportImportRoundTrip(s: Store, t: Store)
    ensures Import(s, Export(s)) == s
    ensures s.nextUserId != 0 ==> Import(t, Export(s)) == s
    ensures s.nextUserId == 0 ==> Import(t, Export(s)) == s.(nextUserId := t.nextUserId)
  {
  }
}

=== FILE: world.dfy ===
/** Rules both versions of the platformer's game.js share word for word:
    the enemy patrol step, the collectable scan that splices the list while
    iterating it, the one-shot checkpoint latch, and the level wrap. */
module World {
  import opened Geometry

  datatype Checkpoint = Checkpoint(shape: Rect, claimed: bool)

  /** `direction` is +1 (moving right) or -1 (moving left). The per-enemy
      `speed` field the level loader writes is never read by the update,
      which uses the configured enemy speed instead, so it is not kept. */
  datatype Enemy = Enemy(shape: Rect, direction: int)

  /** Where the player is put back after a checkpoint or an enemy hit. */
  const SpawnX: real := 50.0
  const SpawnY: real := 350.0

  /** Number of levels before the level index wraps back to the first. */
  const LevelCount: int := 3

  // ---------------------------------------------------------------- patrol

  /** A patrol step happens at a canvas edge: the left edge at or past zero,
      or the right edge at or past the canvas width. */
  predicate AtEdge(shape: Rect, canvasWidth: real) {
    shape.pos.x <= 0.0 || shape.pos.x + shape.width >= canvasWidth
  }

  /** One enemy's patrol step: move by speed times direction, then turn
      around when the new position touches or crosses either canvas edge. */
  function StepEnemy(e: Enemy, speed: real, canvasWidth: real): (r: Enemy)
    ensures r.shape == e.shape.ShiftX(speed * (e.direction as real))
    ensures r.direction == (if AtEdge(r.shape, canvasWidth) then -e.direction else e.direction)
    ensures e.direction == 1 || e.direction == -1 ==> r.direction == 1 || r.direction == -1
  {
    var moved := e.shape.ShiftX(speed * (e.direction as real));
    Enemy(moved, if AtEdge(moved, canvasWidth) then -e.direction else e.direction)
  }

  /** `updateEnemies`: every enemy takes its step; no enemy is added,
      removed or reordered. */
  function UpdateEnemies(es: seq<Enemy>, speed: real, canvasWidth: real): (r: seq<Enemy>)
    ensures |r| == |es|
    ensures forall i :: 0 <= i < |r| ==> r[i] == StepEnemy(es[i], speed, canvasWidth)
  {
    seq(|es|, i requires 0 <= i < |es| => StepEnemy(es[i], speed, canvasWidth))
  }

  /** The patrol band an enemy actually keeps: within one step beyond
      either canvas edge, heading right whenever it is at or past the left
      edge and left whenever it is at or past the right edge. */
  predicate InBand(e: Enemy, speed: real, canvasWidth: real) {
    var x := e.shape.pos.x;
    var w := e.shape.width;
    || (e.direction == 1 && -speed < x && x + w < canvasWidth)
    || (e.direction == -1 && 0.0 < x && x + w < canvasWidth + speed)
  }

  /** The band is kept by every step when the canvas leaves room for more
      than one step of travel: the enemy overshoots an edge by less than one
      step and never further. */
  lemma StepKeepsBand(e: Enemy, speed: real, canvasWidth: real)
    requires 0.0 < speed < canvasWidth - e.shape.width
    requires InBand(e, speed, canvasWidth)
    ensures InBand(StepEnemy(e, speed, canvasWidth), speed, canvasWidth)
  {
  }

  /** An enemy started anywhere inside the canvas stays in the band for any
      number of frames. */
  lemma {:induction false} PatrolStaysInBand(e: Enemy, speed: real, canvasWidth: real, frames: nat)
    requires 0.0 < speed < canvasWidth - e.shape.width
    requires InBand(e, speed, canvasWidth)
    ensures InBand(Patrol(e, speed, canvasWidth, frames), speed, canvasWidth)
    decreases frames
  {
    if frames > 0 {
      StepKeepsBand(e, speed, canvasWidth);
      var e1 := StepEnemy(e, speed, canvasWidth);
      assert e1.shape.width == e.shape.width;
      PatrolStaysInBand(e1, speed, canvasWidth, frames - 1);
    }
  }

  /** The enemy after `frames` patrol steps. */
  function Patrol(e: Enemy, speed: real, canvasWidth: real, frames: nat): Enemy
    decreases frames
  {
    if frames == 0 then e else Patrol(StepEnemy(e, speed, canvasWidth), speed, canvasWidth, frames - 1)
  }

  /** The edge test runs after the move, so an enemy one unit from the left
      edge heading left at speed 2 ends the frame at x = -1, outside the
      canvas: the patrol does not keep enemies within [0, width - w]. */
  lemma PatrolOvershootsEdge()
    ensures var r := StepEnemy(Enemy(Rect(Vec(1.0, 0.0), 30.0, 30.0), -1), 2.0, 800.0);
            r.shape.pos.x == -1.0 && r.direction == 1
  {
  }

  // ----------------------------------------------------------- collectables

  /** The collectable loop of `checkCollisions`: `forEach` over an array
      that `splice` shrinks. At visit `i`, an overlapping collectable is
      removed, and the one that slides into slot `i` is never visited in
      this pass. The result is the remaining list and the number removed. */
  function SpliceScan(p: Rect, cs: seq<Rect>, i: nat): (r: (seq<Rect>, nat))
    ensures |r.0| + r.1 == |cs|
    ensures multiset(r.0) <= multiset(cs)
    decreases |cs| - i
  {
    if i >= |cs| then (cs, 0)
    else if Overlaps(p, cs[i]) then
      var (rest, n) := SpliceScan(p, Without(cs, i), i + 1);
      (rest, n + 1)
    else
      SpliceScan(p, cs, i + 1)
  }

  /** `cs` with the element at `i` spliced out. */
  function Without(cs: seq<Rect>, i: nat): (r: seq<Rect>)
    requires i < |cs|
    ensures |r| == |cs| - 1
    ensures multiset(cs) == multiset(r) + multiset{cs[i]}
    ensures forall j :: 0 <= j < |cs| && j != i ==> cs[j] in r
  {
    assert cs == cs[..i] + [cs[i]] + cs[i + 1..];
    cs[..i] + cs[i + 1..]
  }

  /** Only overlapping collectables are removed, and every collectable the
      player does not overlap is still there afterwards. */
  lemma {:induction false} SpliceRemovesOnlyOverlapping(p: Rect, cs: seq<Rect>, i: nat)
    ensures var (rest, _) := SpliceScan(p, cs, i);
            && (forall c :: c in multiset(cs) - multiset(rest) ==> Overlaps(p, c))
            && (forall j :: 0 <= j < |cs| && !Overlaps(p, cs[j]) ==> cs[j] in rest)
    decreases |cs| - i
  {
    if i < |cs| {
      if Overlaps(p, cs[i]) {
        var cs' := Without(cs, i);
        SpliceRemovesOnlyOverlapping(p, cs', i + 1);
        var (rest, _) := SpliceScan(p, cs', i + 1);
        forall c | c in multiset(cs) - multiset(rest)
          ensures Overlaps(p, c)
        {
          if c != cs[i] {
            assert c in multiset(cs') - multiset(rest);
          }
        }
        forall j | 0 <= j < |cs| && !Overlaps(p, cs[j])
          ensures cs[j] in rest
        {
          assert cs[j] in cs';
          var k :| 0 <= k < |cs'| && cs'[k] == cs[j];
        }
      } else {
        SpliceRemovesOnlyOverlapping(p, cs, i + 1);
      }
    }
  }

  /** The pass always removes something when some collectable from slot `i`
      on overlaps the player — the first such one is reached with nothing
      removed before it — and removes nothing otherwise. */
  lemma {:induction false} SpliceProgress(p: Rect, cs: seq<Rect>, i: nat)
    ensures (exists j :: i <= j < |cs| && Overlaps(p, cs[j])) ==> SpliceScan(p, cs, i).1 >= 1
    ensures (forall j :: i <= j < |cs| ==> !Overlaps(p, cs[j])) ==> SpliceScan(p, cs, i) == (cs, 0)
    decreases |cs| - i
  {
    if i < |cs| && !Overlaps(p, cs[i]) {
      SpliceProgress(p, cs, i + 1);
    }
  }

  /** The whole collectable pass from the first slot. */
  function Collect(p: Rect, cs: seq<Rect>): (r: (seq<Rect>, nat))
    ensures |r.0| + r.1 == |cs|
  {
    SpliceScan(p, cs, 0)
  }

  /** Two overlapping collectables side by side: the first is removed, the
      second slides into its slot and is skipped, so one pass removes only
      one of them. */
  lemma SpliceSkipsNeighbour(p: Rect, a: Rect, b: Rect)
    requires Overlaps(p, a) && Overlaps(p, b)
    ensures Collect(p, [a, b]) == ([b], 1)
  {
    assert Without([a, b], 0) == [b];
    assert SpliceScan(p, [b], 1) == ([b], 0);
  }

  /** One visit of the scan: the list it goes on with keeps the slots
      before the visited one. */
  lemma SpliceVisit(p: Rect, cs: seq<Rect>, i: nat)
    requires i < |cs|
    ensures var next := if Overlaps(p, cs[i]) then Without(cs, i) else cs;
            && SpliceScan(p, cs, i).0 == SpliceScan(p, next, i + 1).0
            && i <= |next| && forall k :: 0 <= k < i ==> next[k] == cs[k]
  {
  }

  /** The slots before the scan index are never touched again. */
  lemma {:induction false} SplicePrefix(p: Rect, cs: seq<Rect>, i: nat)
    requires i <= |cs|
    ensures var r := SpliceScan(p, cs, i).0;
            i <= |r| && forall k :: 0 <= k < i ==> r[k] == cs[k]
    decreases |cs| - i
  {
    if i < |cs| {
      SpliceVisit(p, cs, i);
      var next := if Overlaps(p, cs[i]) then Without(cs, i) else cs;
      if i + 1 <= |next| {
        SplicePrefix(p, next, i + 1);
      }
    }
  }

  /** The scan from the first slot reaches slot `i` unchanged when no
      collectable before it overlaps the player. */
  lemma {:induction false} SpliceCleanPrefix(p: Rect, cs: seq<Rect>, i: nat)
    requires i <= |cs|
    requires forall j :: 0 <= j < i ==> !Overlaps(p, cs[j])
    ensures Collect(p, cs) == SpliceScan(p, cs, i)
    decreases i
  {
    if i > 0 {
      SpliceCleanPrefix(p, cs, i - 1);
    }
  }

  /** The element after a spliced one slides into the freed slot and is not
      tested in this pass, whether it overlaps the player or not: it is
      still in that slot afterwards. In the whole pass this happens to the
      element after the first overlapping one. */
  lemma SpliceSkipsNext(p: Rect, cs: seq<Rect>, i: nat)
    requires i + 1 < |cs| && Overlaps(p, cs[i])
    ensures i < |SpliceScan(p, cs, i).0| && SpliceScan(p, cs, i).0[i] == cs[i + 1]
    ensures (forall j :: 0 <= j < i ==> !Overlaps(p, cs[j])) ==>
              i < |Collect(p, cs).0| && Collect(p, cs).0[i] == cs[i + 1]
  {
    var w := Without(cs, i);
    assert SpliceScan(p, cs, i).0 == SpliceScan(p, w, i + 1).0;
    SplicePrefix(p, w, i + 1);
    var r := SpliceScan(p, w, i + 1).0;
    assert r[i] == w[i] == cs[i + 1];
    if forall j :: 0 <= j < i ==> !Overlaps(p, cs[j]) {
      SpliceCleanPrefix(p, cs, i);
    }
  }

  /** The evident purpose of the loop: remove every overlapping collectable. */
  function RemoveOverlapping(p: Rect, cs: seq<Rect>): (r: seq<Rect>)
    ensures forall c :: c in r <==> c in cs && !Overlaps(p, c)
    ensures |r| <= |cs|
  {
    if cs == [] then []
    else (if Overlaps(p, cs[0]) then [] else [cs[0]]) + RemoveOverlapping(p, cs[1..])
  }

  /** The splicing pass removes no more than the intended filter would, and
      whatever it leaves behind that overlaps is exactly what a later pass
      still has to pick up: the two agree when nothing is left over. */
  lemma CollectAgreesWhenNothingLeft(p: Rect, cs: seq<Rect>)
    requires forall c :: c in Collect(p, cs).0 ==> !Overlaps(p, c)
    ensures multiset(Collect(p, cs).0) == multiset(RemoveOverlapping(p, cs))
  {
    SpliceRemovesOnlyOverlapping(p, cs, 0);
    KeptIsFiltered(p, cs, Collect(p, cs).0);
  }

  /** A sub-multiset of `cs` that keeps every non-overlapping element and
      no overlapping one is the filter. */
  lemma {:induction false} KeptIsFiltered(p: Rect, cs: seq<Rect>, kept: seq<Rect>)
    requires multiset(kept) <= multiset(cs)
    requires forall c :: c in multiset(cs) - multiset(kept) ==> Overlaps(p, c)
    requires forall c :: c in kept ==> !Overlaps(p, c)
    ensures multiset(kept) == multiset(RemoveOverlapping(p, cs))
  {
    FilterMultiset(p, cs);
    forall c
      ensures multiset(kept)[c] == multiset(RemoveOverlapping(p, cs))[c]
    {
      if Overlaps(p, c) {
        assert c !in kept;
      } else {
        assert c !in (multiset(cs) - multiset(kept));
      }
    }
  }

  /** The filter keeps each non-overlapping element with its multiplicity. */
  lemma {:induction false} FilterMultiset(p: Rect, cs: seq<Rect>)
    ensures forall c :: multiset(RemoveOverlapping(p, cs))[c] ==
                        if Overlaps(p, c) then 0 else multiset(cs)[c]
  {
    if cs != [] {
      FilterMultiset(p, cs[1..]);
      assert cs == [cs[0]] + cs[1..];
    }
  }

  // ------------------------------------------------------------ checkpoints

  /** One checkpoint test: an unclaimed checkpoint the player overlaps is
      claimed, and only that case schedules a level advance. */
  function Touch(p: Rect, c: Checkpoint): (r: (Checkpoint, bool))
    ensures r.0.shape == c.shape
    ensures r.1 <==> !c.claimed && r.0.claimed
    ensures r.0.claimed <==> c.claimed || Overlaps(p, c.shape)
  {
    if Overlaps(p, c.shape) && !c.claimed then (c.(claimed := true), true) else (c, false)
  }

  /** The checkpoint loop of `checkCollisions`: every checkpoint is tested
      in turn; the count is the number of level advances scheduled. */
  function ClaimCheckpoints(p: Rect, cs: seq<Checkpoint>): (r: (seq<Checkpoint>, nat))
    ensures |r.0| == |cs|
    ensures forall i :: 0 <= i < |cs| ==> r.0[i] == Touch(p, cs[i]).0
    ensures ClaimedCount(r.0) == ClaimedCount(cs) + r.1
  {
    if cs == [] then ([], 0)
    else
      var (c, scheduled) := Touch(p, cs[0]);
      var (rest, n) := ClaimCheckpoints(p, cs[1..]);
      assert ([c] + rest)[1..] == rest;
      ([c] + rest, n + (if scheduled then 1 else 0))
  }

  /** How many checkpoints are claimed. */
  function ClaimedCount(cs: seq<Checkpoint>): nat {
    if cs == [] then 0 else (if cs[0].claimed then 1 else 0) + ClaimedCount(cs[1..])
  }

  /** The latch is one-shot: a claimed checkpoint stays claimed, and testing
      the same position again schedules nothing more. */
  lemma {:induction false} LatchIsOneShot(p: Rect, q: Rect, cs: seq<Checkpoint>)
    ensures var (cs1, _) := ClaimCheckpoints(p, cs);
            && (forall i :: 0 <= i < |cs| && cs[i].claimed ==> cs1[i].claimed)
            && ClaimCheckpoints(p, cs1).1 == 0
            && ClaimCheckpoints(q, cs1).1 <= |cs| - ClaimedCount(cs1)
  {
    var (cs1, _) := ClaimCheckpoints(p, cs);
    var (cs2, n2) := ClaimCheckpoints(p, cs1);
    assert cs2 == cs1 by {
      forall i | 0 <= i < |cs1| ensures cs2[i] == cs1[i] { }
    }
    ClaimedAtMostAll(ClaimCheckpoints(q, cs1).0);
  }

  lemma {:induction false} ClaimedAtMostAll(cs: seq<Checkpoint>)
    ensures ClaimedCount(cs) <= |cs|
  {
    if cs != [] {
      ClaimedAtMostAll(cs[1..]);
    }
  }

  // ------------------------------------------------------------ level wrap

  /** The deferred level advance: the next level, back to the first after
      the last. */
  function NextLevel(level: int): (r: int)
    ensures 1 <= level <= LevelCount ==> 1 <= r <= LevelCount
    ensures level < LevelCount ==> r == level + 1
    ensures level >= LevelCount ==> r == 1
  {
    var l := level + 1;
    if l > LevelCount then 1 else l
  }

  /** Three advances bring a level in 1..3 back to itself. */
  lemma LevelCycle(level: int)
    requires 1 <= level <= LevelCount
    ensures NextLevel(NextLevel(NextLevel(level))) == level
    ensures NextLevel(level) != level
  {
  }
}
